=== FILE: README.md ===
# The Hive timebank — a Dafny model of its exchange core

The Hive is a community timebank. Members post *offers* (I can do this) and *needs* (I need
this), send *proposals* against each other's posts, and settle finished jobs in hours of
time credit. This project models the rules behind that, as pure Dafny functions with
contracts and lemmas:

- **The time-credit exchange.** A proposal is `waiting`, then `accepted`, `declined`, `cancelled` or `completed`.
  - Accepting stakes the rate from the payer: the requester on an offer, the provider on a need.
  - Both parties then approve in the order the post's polarity demands. Completion pays the other party.
  - The approval-stage decline either refunds the payer or, when the other party did not show up, pays the other party.
  - Balances are integer hundredths of an hour in a ledger keyed by account. The lifecycle conserves credits (`ledger.dfy`, `exchange.dfy`, `lifecycle.dfy`, `scenarios.dfy`).
- **The proposal notes codec.** It packs the location and time into the free-text notes, and unpacks them again (`notes.dfy`).
- **The pages over the lifecycle:**
  - the approval page's buttons, review eligibility, decline dialog and list grouping (`approval.dfy`);
  - the review page and review records with their averages (`reviews.dfy`);
  - the proposal and proposal-review pages (`proposals.dfy`);
  - the local negotiation list (`negotiation.dfy`).
- **Backend models:** profiles and their creation signal, post and request choices, the user manager, categories, registration and chat get-or-create (`accounts.dfy`).
- **The API client:** the cookie reader and the CSRF header rule (`csrf.dfy`).
- **The tag picker** (`tags.dfy`).
- **The remaining pages:**
  - the home page filters (`home.dfy`);
  - the profile page's checks (`myprofile.dfy`) and the sign-up form (`signup.dfy`);
  - the admin dashboard (`admin.dfy`);
  - the post page (`postdetails.dfy`), the forum topic page (`forumdetails.dfy`) and the forum list paging (`forums.dfy`);
  - the polling notification service's bookkeeping (`notifications.dfy`).
- **Shared helpers:**
  - `wrappers.dfy`: `Option` and `Result`;
  - `strings.dfy`: JavaScript string functions on `seq<char>`;
  - `radix.dfy`: `parseInt` without a radix, which reads a `0x` prefix as hexadecimal;
  - `seqs.dfy`: array `filter`/`find`, `Set`-based de-duplication and toggling.

The Proposal/Job/Review backend implementation is not part of this model's sources; its
behaviour is fixed here by the repository's model and API tests together with the pages
that call it. Each backend transition is one atomic function.

## Model

| member | source | states |
|---|---|---|
| Ledger.Debit | backend/api/tests/test_models.py:325-341 | a debit fails when the balance is below the amount (or the account is unknown); otherwise only that account changes, lowered by the amount |
| Ledger.Credit | backend/api/tests/test_models.py:365-386 | a credit raises only the named account, by the amount, with no ceiling applied |
| Ledger.Open | backend/api/models.py:15-18 | an account is opened once with its starting balance; an existing account keeps its balance |
| Ledger.DebitTotal | backend/api/tests/test_models.py:275-296 | a successful debit lowers the total of all balances by exactly the amount |
| Ledger.CreditTotal | backend/api/tests/test_models.py:365-386 | a credit raises the total of all balances by exactly the amount |
| Ledger.DebitCreditCancel | backend/api/tests/test_models.py:343-363 | a debit then a credit of the same amount to the same account restores the ledger |
| Exchange.Create | backend/api/tests/test_views.py:326-339 | a new proposal is waiting, with no approvals and no job, and is well formed |
| Exchange.Accept | backend/api/tests/test_models.py:275-341 | accepting a waiting proposal debits the payer (requester on offer, provider on need) by the rate, leaves every other account as it was, and opens a waiting job; an insufficient balance is an error; accepting an accepted proposal changes nothing |
| Exchange.Decline | frontend/src/pages/ProposalReview.jsx:111-145 | declining is allowed only while waiting, and moves no credits |
| Exchange.Cancel | backend/api/tests/test_models.py:343-363 | cancelling an accepted proposal whose job is waiting refunds the payer the rate, leaves every other account as it was, and cancels the job |
| Exchange.SetApprovals | backend/api/tests/test_models.py:365-386 | flags are only ever turned on; setting flags that are already on changes nothing; a change keeps the approval order and leaves the proposal completed exactly when both flags are on |
| Exchange.Approve | frontend/src/pages/Approval.jsx:286-323 | an outsider is refused; a successful approval turns on exactly the flag(s) of the actor's own role(s) |
| Exchange.ParseReason | frontend/src/pages/Approval.jsx:38 | `not_showed_up` is the no-show reason; anything else counts as `other` |
| Exchange.DeclineJob | frontend/src/pages/Approval.jsx:428-473 | a participant's decline of a waiting job cancels it; no-show pays the payee, any other reason refunds the payer; the proposal stays accepted |
| Exchange.Payer | backend/api/tests/test_models.py:275-323 | the staked party is one of the two participants (the requester on an offer, the provider on a need, as the two acceptance tests show) |
| Exchange.Payee | backend/api/tests/test_models.py:365-386 | the paid party is a participant; payer and payee together are the only participants, and they differ whenever requester and provider do |
| Exchange.Step | backend/api/tests/test_models.py:275-386 | no transition changes the parties, the polarity or the rate; its conservation and well-formedness are Lifecycle.StepConserves and Lifecycle.StepWellFormed |
| Lifecycle.StepWellFormed | backend/api/tests/test_models.py:234-386 | every successful transition keeps the proposal well formed: its status, job and approval flags stay consistent |
| Lifecycle.StepConserves | backend/api/tests/test_models.py:275-386 | no transition creates or destroys credits: balances plus what the waiting job holds stay constant |
| Lifecycle.RunConserves | backend/api/tests/test_models.py:275-386 | any successful run of transitions stays well formed and conserves credits |
| Lifecycle.AcceptIdempotent | backend/api/tests/test_views.py:341-362 | a second accept is a no-op, so the payer is debited once |
| Lifecycle.AcceptInsufficient | backend/api/tests/test_models.py:325-341 | acceptance fails exactly when the payer's balance is below the rate |
| Lifecycle.AcceptCancelNetZero | backend/api/tests/test_models.py:343-363 | accept then cancel leaves every balance where it was |
| Lifecycle.AcceptCompleteTransfer | backend/api/tests/test_models.py:365-386 | accept then both approvals moves exactly the rate from payer to payee |
| Lifecycle.ApprovalOrder | frontend/src/pages/Approval.jsx:286-323 | with neither flag set the party who must go second is refused and the party who goes first is accepted |
| Lifecycle.ApproveInOrderCompletes | frontend/src/pages/Approval.jsx:286-323 | approving in the allowed order completes the job and credits the payee once |
| Lifecycle.ApproveIdempotent | frontend/src/pages/Approval.jsx:330 | approving twice is a no-op the second time |
| Lifecycle.StepMonotone | frontend/src/pages/Approval.jsx:330 | approval flags are only ever turned on, and a finished job never changes again |
| Lifecycle.TerminalStable | backend/api/tests/test_models.py:343-386 | a declined, completed or cancelled proposal is unchanged by every transition |
| Lifecycle.DeclineJobOutcome | frontend/src/pages/Approval.jsx:449-473 | no-show never refunds the payer and pays the other party; any other reason refunds the payer |
| Lifecycle.DeclineJobFinal | frontend/src/pages/Approval.jsx:428-473 | after the decline path the proposal can be neither cancelled nor completed, so credits never move twice |
| Scenarios.CreatedProposal | backend/api/tests/test_views.py:326-339 | a created proposal is waiting with the caller as requester and the post owner as provider |
| Scenarios.OfferAcceptDebitsRequester | backend/api/tests/test_models.py:275-296 | on an offer post, accepting takes the requester from 5.00 to 3.00 and opens a waiting job |
| Scenarios.NeedAcceptDebitsProvider | backend/api/tests/test_models.py:298-323 | on a need post, accepting takes the provider from 5.00 to 3.00 |
| Scenarios.InsufficientBalanceRejected | backend/api/tests/test_models.py:325-341 | a requester holding 1.00 cannot accept a 2.00 proposal |
| Scenarios.CancelRefunds | backend/api/tests/test_models.py:343-363 | accept then cancel returns the requester to 5.00 |
| Scenarios.CompletionPaysProvider | backend/api/tests/test_models.py:365-386 | accept then both approvals leaves the provider at 7.00 |
| Scenarios.NotShowedUpPaysProvider | frontend/src/pages/Approval.jsx:449-459 | a no-show decline on an offer sends the staked 2.00 to the provider and leaves the requester debited |
| Notes.RoundTrip | frontend/src/pages/Proposal.jsx:118-131 | for single-line location and time and notes without field-like lines, decoding the encoded notes gives back the three trimmed inputs |
| Notes.FirstWith | frontend/src/pages/Proposal.jsx:119-120 | a found line is one of the lines and starts with the tag; nothing is found only when no line starts with it |
| Notes.FreeLines | frontend/src/pages/Proposal.jsx:131 | every kept line is one of the input lines and starts with neither field tag |
| Notes.PrependShape | frontend/src/pages/Proposal.jsx:224-230 | prepending writes a field line for the tag and value, followed by the lines of the trimmed body |
| Notes.DecodePrepended | frontend/src/pages/Proposal.jsx:118-131 | behind a prepended field line, the field decodes to the trimmed value and the rest decodes as the body did |
| Notes.Encode | frontend/src/pages/Proposal.jsx:224-230 | with neither location nor time the notes pass through unchanged; decoding the result gives the trimmed inputs back (Notes.RoundTrip) |
| Notes.Decode | frontend/src/pages/Proposal.jsx:118-131 | with no line starting `Location:` the location is empty, and with none starting `Time:` the time is empty |
| Approval.ClientApprove | frontend/src/pages/Approval.jsx:325-400 | the page's approve sets only the clicking user's own flag and only when that user's button is shown |
| Approval.ClientKeepsOrder | frontend/src/pages/Approval.jsx:286-323 | from an ordered state, any sequence of button clicks keeps offer: requester-approved implies provider-approved, and need: the reverse |
| Approval.ClockOffsetOf | frontend/src/pages/Approval.jsx:264-270 | a proposed `hh:mm` time is read back as `hh` hours and `mm` minutes after midnight of the proposed day |
| Approval.CanApprove | frontend/src/pages/Approval.jsx:252-283 | approval opens at the event's instant; the predicate has no contract of its own and is pinned down by Approval.EventWithoutTime, Approval.ClockOffsetOf and Approval.CanApproveStaysOpen |
| Approval.EventWithoutTime | frontend/src/pages/Approval.jsx:252-276 | without a time the event is at 23:59:59.999 of the day; without a valid date approval never opens |
| Approval.CanApproveStaysOpen | frontend/src/pages/Approval.jsx:278-279 | once approval opens it stays open at every later instant |
| Approval.ProviderButtonMatchesBackend | frontend/src/pages/Approval.jsx:286-303 | for a waiting job after the event, the provider's button shows exactly when the backend would accept the provider's approval |
| Approval.RequesterButtonMatchesBackend | frontend/src/pages/Approval.jsx:306-323 | the same agreement for the requester's button |
| Approval.ReviewEligibility | frontend/src/pages/Approval.jsx:204-215 | only the two participants may ever review, and once the proposal is completed both may |
| Approval.ReviewAfterDecline | frontend/src/pages/Approval.jsx:687-696 | whoever declines the job may review afterwards |
| Approval.DeclineRequest | frontend/src/pages/Approval.jsx:428-441 | the request is refused exactly when the explanation is blank; a sent payload carries the chosen reason |
| Approval.DeclineNoticeTruthful | frontend/src/pages/Approval.jsx:449-473 | the notice after a decline tells the user truthfully whether their own balance was refunded, credited or unchanged |
| Approval.DeclineNoticeFor | frontend/src/pages/Approval.jsx:449-473 | the decline notice by reason and by whether the user is the payer; it has no contract of its own and is pinned down by Approval.DeclineNoticeTruthful |
| Approval.CanProviderApprove | frontend/src/pages/Approval.jsx:286-303 | the provider's button shows only to the provider, only while their flag is off, only once approval is open, never on a cancelled job, and on a need never before the requester has approved |
| Approval.CanRequesterApprove | frontend/src/pages/Approval.jsx:306-323 | the requester's button shows only to the requester, only while their flag is off, only once approval is open, never on a cancelled job, and on an offer never before the provider has approved |
| Approval.CanReview | frontend/src/pages/Approval.jsx:196-215 | only the requester or the provider can ever be eligible to review |
| Approval.DedupeOnlyFirsts | frontend/src/pages/Approval.jsx:86-88 | every record kept by de-duplication is the first occurrence of its id |
| Approval.DedupeKeepsFirsts | frontend/src/pages/Approval.jsx:86-88 | every first occurrence of an id is kept |
| Approval.DedupeUnique | frontend/src/pages/Approval.jsx:86-88 | the de-duplicated list holds no id twice |
| Approval.DedupeKeepsIds | frontend/src/pages/Approval.jsx:86-88 | every id of the input is still present |
| Approval.Dedupe | frontend/src/pages/Approval.jsx:86-88 | keeps the first record of each id, in order; it has no contract of its own and is pinned down by Approval.DedupeOnlyFirsts, DedupeKeepsFirsts, DedupeUnique and DedupeKeepsIds |
| Approval.ListingPartition | frontend/src/pages/Approval.jsx:69-100 | no record is in two of the cancelled, completed and pending groups, every relevant de-duplicated record is in one of them, and the group sizes add up to that list |
| Approval.Listing | frontend/src/pages/Approval.jsx:69-100 | the relevant records, de-duplicated, split into cancelled, completed and pending groups; it has no contract of its own and is pinned down by Approval.ListingPartition |
| Reviews.CreateReview | backend/api/tests/test_models.py:419-484 | a review is refused for outsiders, out-of-range ratings or a second review by the same reviewer; otherwise it is appended, reviewing the other party |
| Reviews.CreateKeepsUnique | backend/api/tests/test_models.py:460-484 | creation keeps at most one review per proposal and reviewer |
| Reviews.AtMostTwoReviews | backend/api/tests/test_views.py:446-483 | no three reviews of one proposal can coexist |
| Reviews.RatingRange | backend/api/tests/test_models.py:435-458 | a rating of 0 or 6 is refused as invalid, and an all-3 review is accepted |
| Reviews.BothPartiesReview | backend/api/tests/test_views.py:428-483 | both parties can review, each reviewing the other, leaving exactly two reviews |
| Reviews.SumBounds | backend/api/tests/test_models.py:54-128 | the sum of valid ratings over n reviews lies between n and 5n |
| Reviews.AveragesOnScale | backend/api/tests/test_models.py:54-128 | every average is 0 with no reviews, and otherwise between 1 and 5 |
| Reviews.AveragesExample | backend/api/tests/test_models.py:65-128 | two reviews rated 5 and 4 average 4.5, with a count of 2 |
| Reviews.ReviewAverages | backend/api/tests/test_models.py:54-128 | a user nobody has reviewed gets all averages 0 and a count of 0; the scale bounds are Reviews.AveragesOnScale |
| Reviews.Received | backend/api/tests/test_models.py:54-128 | the averages range over reviews of the user only, and over every one of them |
| Reviews.OpenReviewPage | frontend/src/pages/Review.jsx:62-112 | outsiders are turned away; the form shows iff the proposal is accepted or completed, the user may review and has no review yet; an existing review is shown instead |
| Reviews.PageAgreesWithBackend | frontend/src/pages/Review.jsx:62-147 | when the page offers the form, the backend accepts the review it submits against the other party |
| Reviews.OutsidersNeverReview | frontend/src/pages/Review.jsx:62-69 | a non-participant never gets the form |
| Reviews.UserToReview | frontend/src/pages/Review.jsx:129-147 | the reviewed user is a participant, and a participant never reviews themself when requester and provider differ |
| Proposals.Propose | backend/api/tests/test_views.py:326-339 | a proposal is waiting, from the caller to the post's owner, and well formed |
| Proposals.Sent | backend/api/tests/test_views.py:364-378 | `sent` lists exactly the proposals whose requester is the caller |
| Proposals.ReceivedBy | backend/api/tests/test_views.py:380-394 | `received` lists exactly the proposals whose provider is the caller |
| Proposals.ProposeAndList | backend/api/tests/test_views.py:326-394 | a new proposal appears in the caller's sent list and in the owner's received list |
| Proposals.SentReceivedDisjoint | backend/api/tests/test_views.py:364-394 | a proposal between two different users is never in both lists of one of them |
| Proposals.StatusLabel | frontend/src/pages/Proposal.jsx:133 | `waiting` is shown as `pending`; every other status passes unchanged |
| Proposals.StatusLabelFaithful | frontend/src/pages/Proposal.jsx:133 | distinct backend statuses get distinct labels |
| Proposals.UserPending | frontend/src/pages/Proposal.jsx:203 | a found card is pending and the user's; nothing is found exactly when there is no user or no such card |
| Proposals.UserPendingIsFirst | frontend/src/pages/Proposal.jsx:203 | no earlier card is both pending and the user's |
| Proposals.Submit | frontend/src/pages/Proposal.jsx:208-238 | a missing user, then a missing post, then a missing date is each reported exactly when it is the first problem; a payload is waiting, for the post and date, and carries the form's hours as `timebank_hour` |
| Proposals.CardShowsForm | frontend/src/pages/Proposal.jsx:118-133 | a submitted form reads back on its card as the trimmed location, time and notes, and the same hours |
| Proposals.ToCard | frontend/src/pages/Proposal.jsx:118-133 | a backend row read as a card, with location and time taken back out of the notes; it has no contract of its own and is pinned down by Proposals.CardShowsForm |
| Proposals.BuildPayload | frontend/src/pages/Proposal.jsx:222-238 | the payload is waiting, for the given post, with the form's date and hours; its notes read back by Proposals.CardShowsForm |
| Proposals.FormShown | frontend/src/pages/Proposal.jsx:443 | the request form shows when reopened or when the user has no pending proposal; it has no contract of its own and is pinned down by Proposals.SubmittedIsPending |
| Proposals.SubmittedIsPending | frontend/src/pages/Proposal.jsx:203-238 | after submitting, the user has a pending proposal, so the form is hidden unless reopened |
| Proposals.ButtonsMatchLifecycle | frontend/src/pages/ProposalReview.jsx:111-145 | the accept and decline buttons show exactly when the backend accepts those transitions |
| Proposals.ApplyAction | frontend/src/pages/ProposalReview.jsx:111-145 | the accept button runs the accept transition and the decline button the decline transition; it has no contract of its own and is pinned down by Proposals.ButtonsMatchLifecycle |
| Proposals.IsOwner | frontend/src/pages/ProposalReview.jsx:172-185 | the page is for the post's owner only: the viewer's name must be present and equal the author's; it has no contract of its own |
| Proposals.ActionsShown | frontend/src/pages/ProposalReview.jsx:423 | accept and decline show on a waiting proposal; it has no contract of its own and is pinned down by Proposals.ButtonsMatchLifecycle |
| Proposals.CounterOffer | frontend/src/pages/ProposalReview.jsx:235-262 | a counter offer is refused, as a missing date, exactly when no date is given; otherwise it is a waiting proposal for the same post carrying the form's hours |
| Proposals.CounterOfferExclusive | frontend/src/pages/ProposalReview.jsx:467 | the counter-offer card and the explanatory message never show together |
| Proposals.CounterOfferOnce | frontend/src/pages/ProposalReview.jsx:82-91 | once the owner has sent a counter offer, the counter-offer card is not offered again |
| Proposals.HasPending | frontend/src/pages/ProposalReview.jsx:86-91 | some proposal on the post is waiting; it has no contract of its own and is pinned down by Proposals.CounterOfferOnce |
| Proposals.HasOwnerProposal | frontend/src/pages/ProposalReview.jsx:82-85 | the owner has sent a proposal on the post; it has no contract of its own and is pinned down by Proposals.CounterOfferOnce |
| Proposals.CounterOfferShown | frontend/src/pages/ProposalReview.jsx:467 | the counter-offer card shows on a declined proposal with neither an owner proposal nor a waiting one; it has no contract of its own and is pinned down by Proposals.CounterOfferExclusive and CounterOfferOnce |
| Proposals.CounterMessageShown | frontend/src/pages/ProposalReview.jsx:593 | the explanatory message shows on a declined proposal that has an owner proposal or a waiting one; it has no contract of its own and is pinned down by Proposals.CounterOfferExclusive |
| Negotiation.PendingFor | frontend/src/pages/Negotiation.jsx:183-184 | a found entry is pending and not from the viewer; nothing is found exactly when no such entry exists |
| Negotiation.SubmitCounter | frontend/src/pages/Negotiation.jsx:186-213 | without date and time nothing changes; otherwise pending entries become countered and one countered entry by the user is appended |
| Negotiation.SubmitClearsPending | frontend/src/pages/Negotiation.jsx:184-210 | after a submit no entry is pending, so there is no pending proposal |
| Negotiation.SubmitOnlySupersedes | frontend/src/pages/Negotiation.jsx:192-210 | a submit changes only the status of pending entries and leaves every other entry identical |
| Negotiation.SetStatus | frontend/src/pages/Negotiation.jsx:215-227 | only entries with the given id change status; all others are unchanged |
| Negotiation.AcceptEntry | frontend/src/pages/Negotiation.jsx:215-220 | the list keeps its length; entries with the id become accepted, with their id kept, and every other entry is unchanged |
| Negotiation.RejectEntry | frontend/src/pages/Negotiation.jsx:222-227 | the list keeps its length; entries with the id become rejected, with their id kept, and every other entry is unchanged |
| Negotiation.AcceptRejectOnlyTarget | frontend/src/pages/Negotiation.jsx:215-227 | with unique ids, accept or reject changes exactly the target entry |
| Negotiation.NumberedUnique | frontend/src/pages/Negotiation.jsx:186-213 | entry ids are unique in a list the page builds |
| Negotiation.NumberingKept | frontend/src/pages/Negotiation.jsx:186-227 | submits, accepts and rejects keep the list's ids unique |
| Negotiation.UnknownIdNoChange | frontend/src/pages/Negotiation.jsx:215-227 | an unknown id leaves the list unchanged |
| Accounts.SaveUser | backend/api/models.py:15-18 | saving a new user creates its profile; saving an existing user creates none |
| Accounts.SaveUserOneProfile | backend/api/models.py:15-18 | every user keeps exactly one profile across saves |
| Accounts.ProfileStartValid | backend/api/tests/test_models.py:22-52 | a new profile's balance 0.00 is a valid balance |
| Accounts.PostTypeOf | backend/api/models.py:28-41 | a post type is offer or need, offer by default; anything else is refused |
| Accounts.RequestStatusOf | backend/api/models.py:60-72 | a request status is one of the five choices, pending by default |
| Accounts.ChoicesRoundTrip | backend/api/models.py:28-72 | each choice's stored name reads back as the same choice |
| Accounts.AddRequest | backend/api/models.py:83 | a second request for the same post and requester is refused |
| Accounts.AddRequestKeepsUnique | backend/api/models.py:83 | adding requests keeps at most one per post and requester |
| Accounts.CreateUser | backend/apps/user_app/models.py:30-37 | an empty email is an error; otherwise the user has the normalised email and a 3.00 balance |
| Accounts.CreateSuperuser | backend/apps/user_app/models.py:39-43 | creating a superuser fails exactly when the email is empty |
| Accounts.SuperuserDefaults | backend/apps/user_app/models.py:39-43 | the superuser is staff unless the caller set the flag, and is named by the part of the email before `@` unless the caller named it; caller-supplied values are kept |
| Accounts.SuperuserNameExample | backend/apps/user_app/models.py:42 | `ann@example.com` yields the username `ann` |
| Accounts.SaveCategory | backend/apps/user_app/models.py:13-16 | an empty slug is filled from the name; an existing slug is kept |
| Accounts.SaveCategoryIdempotent | backend/apps/user_app/models.py:13-16 | saving a category twice is the same as saving it once |
| Accounts.Register | backend/api/tests/test_views.py:45-67 | registration succeeds iff the passwords match and the username is free |
| Accounts.OpenChat | backend/api/tests/test_views.py:500-521 | an existing chat between the two users is returned; otherwise one is created |
| Accounts.OpenChatTwice | backend/api/tests/test_views.py:500-521 | opening a chat twice returns the same chat and creates at most one |
| Csrf.FirstValue | frontend/src/api.js:11-18 | no value exactly when no trimmed entry names the cookie |
| Csrf.GetCookie | frontend/src/api.js:8-21 | null exactly for an empty cookie string or when no entry names the cookie; an error exactly when the named value fails to decode |
| Csrf.FirstEntryWins | frontend/src/api.js:12-17 | the value is that of the first trimmed entry naming the cookie; later entries with the same name never change it |
| Csrf.LongerNameNoMatch | frontend/src/api.js:14 | `csrftoken2=v` does not supply `csrftoken` |
| Csrf.ExtendedNameNoMatch | frontend/src/api.js:14 | a name followed by anything other than `=` never matches |
| Csrf.LeadingSpaceIgnored | frontend/src/api.js:13 | a space after the separator does not affect matching |
| Csrf.Intercept | frontend/src/api.js:34-48 | only unsafe verbs can gain the token header; nothing else in the request changes |
| Csrf.MethodCaseInsensitive | frontend/src/api.js:37 | the verb test ignores case: `post` and `Patch` are unsafe, `get` is not |
| Csrf.TokenAttached | frontend/src/api.js:37-43 | with a token present, every unsafe request carries it and safe requests pass unchanged |
| Tags.SearchQuery | frontend/src/components/TagSelector.jsx:41-48 | no search iff the trimmed query is shorter than two characters |
| Tags.FormatFound | frontend/src/components/TagSelector.jsx:69-80 | a result with an id is keyed by it; one without by `custom_` and its name, and is then custom |
| Tags.ToTag | frontend/src/components/TagSelector.jsx:104-156 | a created option becomes a custom tag named by its text; a number, or a string `parseInt` reads as a number, not prefixed `custom_` becomes that id and keeps the custom flag; a `custom_` value becomes an id-less custom tag |
| Tags.HandleChange | frontend/src/components/TagSelector.jsx:104-156 | every selected option becomes one tag, in order |
| Tags.ToOption | frontend/src/components/TagSelector.jsx:195-229 | select-format items are kept, id items are keyed by id, named id-less items by `custom_` and name, others dropped |
| Tags.SelectValue | frontend/src/components/TagSelector.jsx:195-229 | the result is exactly the converted form of the items that convert, in their order: as long as that filtered list, and position by position its conversion |
| Tags.NumberNotCustom | frontend/src/components/TagSelector.jsx:117 | no number prints with the `custom_` prefix |
| Tags.CustomNotNumber | frontend/src/components/TagSelector.jsx:116 | a `custom_` value is not a number |
| Tags.IdTagRoundTrip | frontend/src/components/TagSelector.jsx:104-229 | a tag with an id comes back with the same id, custom flag and non-empty name |
| Tags.CustomTagRoundTrip | frontend/src/components/TagSelector.jsx:104-229 | a named id-less tag comes back id-less, custom, with the same name |
| Tags.CreatedOption | frontend/src/components/TagSelector.jsx:106-112 | a created option maps to a custom tag with the typed name and label |
| Tags.NumeralValueTag | frontend/src/components/TagSelector.jsx:113-117 | an option whose value is a numeral string becomes a tag with that number as its id |
| Tags.FoundSelectsAsTag | frontend/src/components/TagSelector.jsx:69-136 | a found tag with an id selects as that id; one without an id selects as a custom tag with its name |
| Tags.SelectAll | frontend/src/components/TagSelector.jsx:195-229 | held tags that all convert are selected one for one, in order |
| Tags.ListRoundTrip | frontend/src/components/TagSelector.jsx:104-229 | a list of named tags survives conversion and selection with ids and names position by position |
| Home.Filtered | frontend/src/pages/Home.jsx:111-122 | the shown posts are loaded posts passing every set filter, and every such post is shown |
| Home.ShownIffEachMatches | frontend/src/pages/Home.jsx:111-122 | a post is shown iff it passes each set filter; unset filters never reject |
| Home.NothingSetShowsAll | frontend/src/pages/Home.jsx:111-122 | with no filter set every post is shown, in order |
| Home.CaseInsensitiveFilters | frontend/src/pages/Home.jsx:114-119 | lower-casing the typed location or search changes nothing |
| Home.TagNarrows | frontend/src/pages/Home.jsx:113 | the tag filter only narrows the list the other filters give, by exact membership |
| Home.Offers | frontend/src/pages/Home.jsx:125 | the offer tab holds only shown offers |
| Home.Needs | frontend/src/pages/Home.jsx:126 | the need tab holds only shown needs |
| Home.OffersInOrder | frontend/src/pages/Home.jsx:125 | the offer tab is the shown offers in loaded order |
| Home.TabsPartition | frontend/src/pages/Home.jsx:125-126 | offers and needs share no post, and with the other kinds account for every shown post once |
| Home.NeedTypeEmptiesOffers | frontend/src/pages/Home.jsx:112-125 | choosing the need type empties the offer tab |
| Home.MapPosts | frontend/src/pages/Home.jsx:127 | the map shows offers on the offers tab and needs otherwise |
| Home.Locations | frontend/src/pages/Home.jsx:204 | the dropdown lists each post location, and each only once |
| Home.LocationListedOnce | frontend/src/pages/Home.jsx:204 | every post's location appears in the dropdown, with no repeats |
| MyProfile.CheckPassword | frontend/src/pages/MyProfile.jsx:186-194 | a mismatch is reported first, then a password shorter than 8; otherwise the save goes ahead |
| MyProfile.Lookup | frontend/src/pages/MyProfile.jsx:211 | the tag found is one whose name equals the trimmed input ignoring case; none iff no tag does |
| MyProfile.AddInterest | frontend/src/pages/MyProfile.jsx:210-220 | a found, unselected tag is appended and the box cleared; otherwise nothing changes and an error shows iff the box is not blank |
| MyProfile.AddKeepsDistinct | frontend/src/pages/MyProfile.jsx:210-217 | typed adds never select a tag twice |
| MyProfile.AddFindsAnyCase | frontend/src/pages/MyProfile.jsx:210-217 | typing a known unselected tag's name in any case, with spaces around, selects it |
| MyProfile.BlankInputQuiet | frontend/src/pages/MyProfile.jsx:218-220 | a blank box naming no tag adds nothing and shows no error |
| MyProfile.Badges | frontend/src/pages/MyProfile.jsx:687 | the badges offered are exactly the tags not yet selected |
| MyProfile.ClickBadge | frontend/src/pages/MyProfile.jsx:692-697 | clicking a badge keeps the selection and appends the badge's tag id after it |
| MyProfile.BadgeKeepsDistinct | frontend/src/pages/MyProfile.jsx:687-697 | clicking any offered badge never selects a tag twice |
| MyProfile.RemoveInterest | frontend/src/pages/MyProfile.jsx:223-228 | the id is removed and the others stay |
| MyProfile.RemoveUndoesAdd | frontend/src/pages/MyProfile.jsx:210-228 | removing a just-added tag restores the previous selection in order |
| MyProfile.RemoveKeepsOrder | frontend/src/pages/MyProfile.jsx:223-228 | removing an id from anywhere keeps the ids before and after it in their order; with the id there once, exactly those ids remain |
| MyProfile.TagNameById | frontend/src/pages/MyProfile.jsx:230-233 | an unknown id gives the empty string; a known one a tag's name |
| MyProfile.CheckAvatar | frontend/src/pages/MyProfile.jsx:95-104 | a file is refused unless its type starts with `image/`, then unless it is at most 5 MiB |
| MyProfile.AvatarBoundary | frontend/src/pages/MyProfile.jsx:101 | exactly 5 MiB passes and one byte more does not; a non-image is refused |
| Signup.Submit | frontend/src/pages/Signup.jsx:43-64 | mismatch first, then short password, then unaccepted terms; only then the request, with username and password2 taken from the form |
| Signup.SamePasswordRules | frontend/src/pages/Signup.jsx:43-50 | sign-up and the profile page's password form judge passwords alike |
| Signup.PayloadPassesServerMatch | frontend/src/pages/Signup.jsx:56-64 | a request the form sends never fails the server's password match, and succeeds iff the name is free |
| Signup.TermsDecide | frontend/src/pages/Signup.jsx:51-54 | with a valid password, the terms box alone decides whether the request is sent |
| Admin.Load | frontend/src/pages/AdminDashboard.jsx:37-48 | each metric and each table is the value the response carries, or 0 and the empty list when it is missing |
| Admin.LoadShowsServed | frontend/src/pages/AdminDashboard.jsx:37-48 | for all figures and tables, the response a backend sends for them loads back as exactly those figures and tables, a zero count included |
| Admin.EmptyResponse | frontend/src/pages/AdminDashboard.jsx:37-48 | a response whose `metrics` object and lists are all empty loads as zero metrics and empty tables |
| Admin.Endpoint | frontend/src/pages/AdminDashboard.jsx:71-80 | the endpoint starts with the kind's collection, and is empty exactly for an unknown kind |
| Admin.CollectionsDistinct | frontend/src/pages/AdminDashboard.jsx:71-80 | the four kinds reach four different collections |
| Admin.EndpointNamesItem | frontend/src/pages/AdminDashboard.jsx:71-80 | one kind's endpoints for different ids differ |
| Admin.ToggleRows | frontend/src/pages/AdminDashboard.jsx:85-101 | only rows with the item's id change, taking the returned flag and a matching status label |
| Admin.ApplyToggle | frontend/src/pages/AdminDashboard.jsx:85-101 | only the table of the item's kind changes |
| Admin.ToggleKeepsConsistent | frontend/src/pages/AdminDashboard.jsx:85-101 | status labels stay in step with hidden flags |
| Admin.ToggleAlgebra | frontend/src/pages/AdminDashboard.jsx:85-101 | an absent id changes nothing, repeating an answer changes nothing more, and hide then show restores the table |
| Admin.UnknownKindNoChange | frontend/src/pages/AdminDashboard.jsx:85-101 | an unknown kind leaves every table as it was |
| Admin.Truncate | frontend/src/pages/AdminDashboard.jsx:467-469 | a text over 40 characters becomes its first 40 followed by exactly `...`, so 43 in all; shorter texts are unchanged |
| Admin.TruncateIdempotent | frontend/src/pages/AdminDashboard.jsx:548-550 | shortening a shortened text changes nothing |
| PostDetails.ActionFor | frontend/src/pages/PostDetails.jsx:278-293 | owners get Edit; others get Request Service on an offer and Offer Help otherwise |
| PostDetails.LoggedOutOwner | frontend/src/pages/PostDetails.jsx:142 | a logged-out visitor counts as owner exactly when the post has no author name |
| PostDetails.AuthorEdits | frontend/src/pages/PostDetails.jsx:142 | the author sees Edit, and no one with another name does |
| PostDetails.IsOwner | frontend/src/pages/PostDetails.jsx:142 | the viewer owns the post when the names match, a missing name on both sides included; it has no contract of its own and is pinned down by PostDetails.LoggedOutOwner, PostDetails.AuthorEdits and PostDetails.ActionFor |
| PostDetails.AddComment | frontend/src/pages/PostDetails.jsx:80-104 | a blank box is refused, then a logged-out user; otherwise exactly one comment with no likes is appended and the box cleared |
| PostDetails.DisplayedLikes | frontend/src/pages/PostDetails.jsx:347-348 | the shown count is the stored count plus one iff this viewer likes the comment |
| PostDetails.LikeMovesCountByOne | frontend/src/pages/PostDetails.jsx:107-118 | a like toggle moves that comment's shown count by one and no other comment's |
| PostDetails.Displayed | frontend/src/pages/PostDetails.jsx:344-345 | the displayed comments are the same comments, newest first |
| PostDetails.NewestShownFirst | frontend/src/pages/PostDetails.jsx:344-345 | a comment newer than all others is shown first |
| PostDetails.AddedCommentOnTop | frontend/src/pages/PostDetails.jsx:80-104 | a comment added later than the others is shown at the top |
| Seqs.ToggleTwice | frontend/src/pages/PostDetails.jsx:107-118 | toggling a like twice restores the liked set |
| ForumDetails.Open | frontend/src/pages/ForumDetails.jsx:107-122 | the topic is one whose id is the route id as `parseInt` without a radix reads it (decimal, or hexadecimal after `0x`), with exactly its comments; not found iff none matches |
| ForumDetails.OpensListedTopic | frontend/src/pages/ForumDetails.jsx:107-108 | a route naming a listed topic opens it with its comments |
| ForumDetails.HexRouteOpens | frontend/src/pages/ForumDetails.jsx:107-108 | the route `0x2` opens topic 2, as `parseInt` reads it in base 16 |
| ForumDetails.NonNumericRouteNotFound | frontend/src/pages/ForumDetails.jsx:107-122 | a route id that is not a number shows the not-found view |
| ForumDetails.AddComment | frontend/src/pages/ForumDetails.jsx:124-133 | a blank box is refused and kept; otherwise the box is cleared |
| ForumDetails.LikeComment | frontend/src/pages/ForumDetails.jsx:135-146 | the comment's liked state flips and nothing else changes; ForumDetails.LikesUndo shows two clicks restore the page |
| ForumDetails.LikeTopic | frontend/src/pages/ForumDetails.jsx:148-151 | the topic's liked state flips and the liked comments stay |
| ForumDetails.LikesUndo | frontend/src/pages/ForumDetails.jsx:135-151 | liking the topic or a comment twice restores the page; a topic like moves the shown count by one |
| ForumDetails.TopicLikes | frontend/src/pages/ForumDetails.jsx:222 | the shown topic count is the stored count plus one while liked |
| Radix.ParseIntAuto | frontend/src/pages/ForumDetails.jsx:107-108 | `parseInt` without a radix: without a `0x`/`0X` after the sign it agrees with the decimal reading; with one, it is `NaN` exactly when no hexadecimal digit follows; its value is stated by Radix.ParseIntAutoHexValue |
| Radix.ParseIntAutoHexValue | frontend/src/pages/ForumDetails.jsx:107-108 | for any white space, optional sign, `0x` or `0X`, digits and non-digit tail, the reading is the digits' base-16 value, negated under a minus sign |
| Radix.ParseIntAutoOfNumeral | frontend/src/pages/ForumDetails.jsx:107-108 | a decimal numeral reads back as its number |
| Radix.ParseIntAutoHex | frontend/src/pages/ForumDetails.jsx:107-108 | `0x2` reads as 2 and `0X1f` as 31 |
| Radix.ParseIntAutoSignedHex | frontend/src/pages/ForumDetails.jsx:107-108 | white space and a sign come before the prefix: ` -0x10` reads as -16 |
| Radix.ParseIntAutoBarePrefix | frontend/src/pages/ForumDetails.jsx:107-108 | `0x` alone, or followed by a non-hexadecimal character, is `NaN` |
| Forums.Render | frontend/src/pages/Forums.jsx:80-149 | empty state iff no topics; otherwise the first min(n, visible) topics and the number still hidden, with See More iff n > visible |
| Forums.SeeMore | frontend/src/pages/Forums.jsx:146 | a click shows one more page of five; pinned down by Forums.ClicksAddPages and Forums.SeeMoreExtends |
| Forums.ClicksAddPages | frontend/src/pages/Forums.jsx:26 | after k clicks 5(k + 1) topics are visible |
| Forums.SeeMoreExtends | frontend/src/pages/Forums.jsx:146 | a click never hides a shown topic |
| Forums.EnoughClicksShowAll | frontend/src/pages/Forums.jsx:142-149 | enough clicks show every topic and remove the button |
| Forums.SevenTopics | frontend/src/pages/Forums.jsx:88-149 | seven topics show five with two more, then all seven |
| Notifications.Initial | frontend/src/services/notificationService.js:9-34 | a new service is not running, has no user, zero counts and no balance seen |
| Notifications.Subscribe | frontend/src/services/notificationService.js:59-62 | the callback is appended to its kind's list; nothing else changes |
| Notifications.Unsubscribe | frontend/src/services/notificationService.js:63-65 | that callback is removed from its kind's list, the others kept; nothing else changes |
| Notifications.UnsubscribeUndoesSubscribe | frontend/src/services/notificationService.js:59-84 | unsubscribing a newly subscribed callback restores the list |
| Notifications.SkipReasons | frontend/src/services/notificationService.js:89-93 | a check is skipped iff there is no user, the page is hidden, or a same-kind request is pending |
| Notifications.NewItems | frontend/src/services/notificationService.js:116-123 | a notice fires iff the count rose from a positive last count, reporting the rise |
| Notifications.WaitingCount | frontend/src/services/notificationService.js:114 | the waiting count is the first non-zero of `count` and `waiting_count`, else 0 |
| Notifications.CheckCount | frontend/src/services/notificationService.js:89-125 | a skipped check changes nothing; a completed one records the count and shows the notice for the rise |
| Notifications.SameCountSilent | frontend/src/services/notificationService.js:125 | checking again with an unchanged count shows nothing |
| Notifications.AnnouncedTelescopes | frontend/src/services/notificationService.js:116-125 | over rising counts from a seen count, the notices add up to the total rise |
| Notifications.CheckBalance | frontend/src/services/notificationService.js:215-253 | a changed balance after a first reading is announced as a rise or a fall of the difference |
| Notifications.BalanceTelescopes | frontend/src/services/notificationService.js:215-253 | once a balance is seen, over any run of checks the rises shown minus the falls shown equal the last reading minus that balance, and the last reading is remembered |
| Notifications.BalanceSilent | frontend/src/services/notificationService.js:215-253 | an unchanged reading shows nothing, nor does the first reading after a reset |
| Notifications.Reset | frontend/src/services/notificationService.js:368-372 | reset forgets the counters and the balance and nothing else |
| Notifications.Stop | frontend/src/services/notificationService.js:330-363 | stop clears running, user, timers, pending flags and counters, keeping subscribers |
| Notifications.Start | frontend/src/services/notificationService.js:283-325 | start stops a running service first, then runs for the user with all three timers |
| Notifications.FirstObservationSilent | frontend/src/services/notificationService.js:16-17 | after stop or reset the first completed check is silent and records the count |
| Notifications.RestartSilent | frontend/src/services/notificationService.js:283-286 | restarting a running service makes its first check silent |

## Left out

- HTTP, fetching, timers, aborts, toasts, navigation and rendering are not modelled. Server answers are parameters, and each backend transition is one atomic step with no interleaving.
- Floating point is not modelled. Hours are integer hundredths. The balance-change notice uses those hundredths, not `toFixed(2)` text, and map pin positions are left out.
- Dates are left out. The proposed date is an abstract day instant and the clock is a parameter; locale formatting and the date sorts of the approval lists are not modelled.
- Library functions are parameters: `decodeURIComponent` (in `Csrf.GetCookie`), `slugify` (in `Accounts.SaveCategory`) and `normalize_email` (in `Accounts.CreateUser`). Their own behaviour is not modelled.
- `toLowerCase`/`toUpperCase` are modelled on ASCII letters only; other letters pass through unchanged.
- Reviews.OpenReviewPage: checks participation, then status, then eligibility. The page's redirect messages and its loading of the existing review are not modelled.
- Reviews.ReviewAverages: the overall average is the mean of the five criterion averages. The backend computing it is not part of this model, and the tests only fix the all-equal case.
- Reviews.CreateReview: checks participation first, then ratings, then uniqueness. The backend's real check order is not part of this model.
- Tags.ToTag: the last fallback of `handleChange` always leaves the id absent. It does not model the `Number(value)`/`parseInt` disagreement that can yield `NaN`, nor an `id` field on an option.
- Tags.ToTag and Tags.ToOption: single-select mode is not modelled. Wikidata ids, descriptions and the `source` field are carried by the source but not here.
- Accounts.OpenChat: matches a chat between the two users in either order, because the lookup code is not part of this model.
- Accounts.CreateUser: starts a user at 3.00 (the user model's field). The profile starts at 0.00 (the profile model's field). The two balances are separate fields and both are modelled.
- PostDetails.Displayed: is a sort by creation time, newest first, over the same comments. JavaScript's stable ordering of equal timestamps is not stated.
- Notifications.CheckCount and Notifications.CheckBalance: do not model failed or aborted requests, which leave the counters alone. Subscriber callbacks are not invoked; they are only kept as lists.
- Page-visibility events and the delayed first checks of `start` are not modelled.
- Forum topics and comments on the forum page are the page's own fixed lists. They are parameters here, and adding a comment only clears the box, as on the page.
- Admin.Endpoint: with an unknown kind the page still posts to the empty endpoint. That request is not modelled.
- Admin.Load: a response without a `metrics` object makes the page throw before any table is set. The model always has metrics fields, so that failure is not modelled.
- Accounts.OpenChatTwice: chats carry no post. The post-scoped unique constraint that makes a second post-scoped chat an integrity error is not modelled.

=== FILE: accounts.dfy ===
/** Accounts and the small backend records around them: the profile a new user gets, the
    post-type and request-status choices, the one-request-per-post rule, the email-based
    user manager, category slugs, registration and opening a chat. */
module Accounts {
  import opened Wrappers
  import opened Strings
  import opened Ledger
  import opened Exchange
  import Approval

  // ---------------------------------------------------------------- profiles

  const DefaultAvatar := "https://placehold.co/100x100/EBF8FF/3B82F6?text=User"
  /** A profile's starting balance, 0.00 hours. */
  const ProfileStartBalance: Hours := 0

  datatype Profile = Profile(user: AccountId, avatar: string, timeBalance: Hours)

  datatype Db = Db(users: set<AccountId>, profiles: seq<Profile>)

  /** How many profiles belong to `u`. */
  function ProfileCount(ps: seq<Profile>, u: AccountId): nat
    decreases |ps|
  {
    if |ps| == 0 then 0
    else ProfileCount(ps[..|ps| - 1], u) + (if ps[|ps| - 1].user == u then 1 else 0)
  }

  /** Every user has exactly one profile and every profile has a user. */
  predicate OneProfileEach(db: Db) {
    && (forall u :: u in db.users ==> ProfileCount(db.profiles, u) == 1)
    && (forall i :: 0 <= i < |db.profiles| ==> db.profiles[i].user in db.users)
  }

  /** Saving a user: the post-save hook creates a default profile only when the save
      created the user. */
  function SaveUser(db: Db, u: AccountId): (r: Db)
    ensures r.users == db.users + {u}
    ensures u in db.users ==> r == db
    ensures u !in db.users ==> r.profiles == db.profiles + [Profile(u, DefaultAvatar, ProfileStartBalance)]
  {
    if u in db.users then db
    else Db(db.users + {u}, db.profiles + [Profile(u, DefaultAvatar, ProfileStartBalance)])
  }

  // ---------------------------------------------------------------- choices

  datatype ChoiceError = NotAChoice

  /** `post_type`: `offer` or `need`, `offer` when not given. */
  function PostTypeOf(s: Option<string>): (r: Result<Polarity, ChoiceError>)
    ensures s.None? ==> r == Ok(Offer)
    ensures s.Some? ==> (r.Ok? <==> s.value in {"offer", "need"})
  {
    match s
    case None => Ok(Offer)
    case Some(v) => if v == "offer" then Ok(Offer) else if v == "need" then Ok(Need) else Err(NotAChoice)
  }

  datatype RequestStatus = RPending | RAccepted | RRejected | RCompleted | RCancelled

  function RequestStatusName(s: RequestStatus): string {
    match s
    case RPending => "pending"
    case RAccepted => "accepted"
    case RRejected => "rejected"
    case RCompleted => "completed"
    case RCancelled => "cancelled"
  }

  /** A request's `status`: one of five choices, `pending` when not given. */
  function RequestStatusOf(s: Option<string>): (r: Result<RequestStatus, ChoiceError>)
    ensures s.None? ==> r == Ok(RPending)
    ensures s.Some? ==> (r.Ok? <==> s.value in {"pending", "accepted", "rejected", "completed", "cancelled"})
  {
    match s
    case None => Ok(RPending)
    case Some(v) =>
      if v == "pending" then Ok(RPending)
      else if v == "accepted" then Ok(RAccepted)
      else if v == "rejected" then Ok(RRejected)
      else if v == "completed" then Ok(RCompleted)
      else if v == "cancelled" then Ok(RCancelled)
      else Err(NotAChoice)
  }

  // ---------------------------------------------------------------- requests

  datatype Request = Request(post: nat, requester: AccountId, provider: AccountId, status: RequestStatus)

  datatype RequestError = DuplicateRequest

  predicate HasRequest(rs: seq<Request>, post: nat, requester: AccountId) {
    exists i :: 0 <= i < |rs| && rs[i].post == post && rs[i].requester == requester
  }

  /** At most one request per (post, requester). */
  predicate UniqueRequests(rs: seq<Request>) {
    forall i, j :: 0 <= i < j < |rs| ==> rs[i].post != rs[j].post || rs[i].requester != rs[j].requester
  }

  /** Storing a request, refused when the requester already asked for this post. */
  function AddRequest(rs: seq<Request>, r: Request): (res: Result<seq<Request>, RequestError>)
    ensures res.Err? <==> HasRequest(rs, r.post, r.requester)
    ensures res.Ok? ==> res.value == rs + [r]
  {
    if HasRequest(rs, r.post, r.requester) then Err(DuplicateRequest) else Ok(rs + [r])
  }

  // ---------------------------------------------------------------- the user manager

  /** The user record of the email-based user model with its field defaults. */
  datatype User = User(
    email: string,
    username: Option<string>,
    isStaff: bool,
    timebankBalance: Hours,
    isAdmin: bool,
    isAnonymousProfile: bool,
    warningsReceived: int)

  /** A user's starting balance, 3.00 hours. */
  const UserStartBalance: Hours := 300

  /** Fields the caller may pass; `None` means not passed. */
  datatype Extra = Extra(isStaff: Option<bool>, username: Option<string>)

  datatype UserError = EmailRequired

  /** `create_user`: an empty email is refused; otherwise the email is normalised by the
      given function and the defaults fill every field not passed. */
  function CreateUser(email: string, extra: Extra, normalize: string -> string): (r: Result<User, UserError>)
    ensures r.Err? <==> email == ""
    ensures r.Ok? ==> && r.value.email == normalize(email)
                      && r.value.username == extra.username
                      && r.value.isStaff == extra.isStaff.GetOr(false)
                      && r.value.timebankBalance == UserStartBalance
                      && !r.value.isAdmin && !r.value.isAnonymousProfile && r.value.warningsReceived == 0
  {
    if email == "" then Err(EmailRequired)
    else Ok(User(normalize(email), extra.username, extra.isStaff.GetOr(false), UserStartBalance, false, false, 0))
  }

  /** Python's `dict.setdefault` on one optional field. */
  function SetDefault<T>(field: Option<T>, v: T): (r: Option<T>)
    ensures r.Some?
    ensures field.Some? ==> r == field
    ensures field.None? ==> r == Some(v)
  {
    if field.Some? then field else Some(v)
  }

  /** `create_superuser`: staff unless the caller said otherwise; the username defaults to
      the part of the email before the first `@`. */
  function CreateSuperuser(email: string, extra: Extra, normalize: string -> string): (r: Result<User, UserError>)
    ensures r.Err? <==> email == ""
  {
    var staff := SetDefault(extra.isStaff, true);
    var name := SetDefault(extra.username, Split(email, '@')[0]);
    CreateUser(email, Extra(staff, name), normalize)
  }

  // ---------------------------------------------------------------- categories

  datatype Category = Category(name: string, slug: string)

  /** `Category.save`: an empty slug is filled from the name; a slug is never replaced. */
  function SaveCategory(c: Category, slugify: string -> string): (r: Category)
    ensures r.name == c.name
    ensures c.slug != "" ==> r.slug == c.slug
    ensures c.slug == "" ==> r.slug == slugify(c.name)
  {
    if c.slug == "" then c.(slug := slugify(c.name)) else c
  }

  // ---------------------------------------------------------------- registration and chats

  datatype RegisterError = PasswordMismatch | UsernameTaken

  /** Registration: the two passwords must match and the username must be free. */
  function Register(taken: set<string>, username: string, password: string, password2: string)
    : (r: Result<string, RegisterError>)
    ensures r.Ok? <==> password == password2 && username !in taken
    ensures r.Ok? ==> r.value == username
  {
    if password != password2 then Err(PasswordMismatch)
    else if username in taken then Err(UsernameTaken)
    else Ok(username)
  }

  datatype Chat = Chat(id: nat, participant1: AccountId, participant2: AccountId)

  predicate Between(c: Chat, a: AccountId, b: AccountId) {
    (c.participant1 == a && c.participant2 == b) || (c.participant1 == b && c.participant2 == a)
  }

  /** The answer to opening a chat: the chat list afterwards, the chat's id, and whether it
      was created (201) rather than found (200). */
  datatype Opened = Opened(chats: seq<Chat>, id: nat, created: bool)

  function FindChat(chats: seq<Chat>, a: AccountId, b: AccountId): (r: Option<Chat>)
    ensures r.Some? ==> r.value in chats && Between(r.value, a, b)
    ensures r.None? ==> forall i :: 0 <= i < |chats| ==> !Between(chats[i], a, b)
    decreases |chats|
  {
    if |chats| == 0 then None
    else if Between(chats[0], a, b) then Some(chats[0])
    else FindChat(chats[1..], a, b)
  }

  /** Opening a chat with `other`: an existing chat between the two is returned, otherwise a
      new one with id `nextId` is stored. */
  function OpenChat(chats: seq<Chat>, me: AccountId, other: AccountId, nextId: nat): (r: Opened)
    ensures r.created <==> forall i :: 0 <= i < |chats| ==> !Between(chats[i], me, other)
    ensures !r.created ==> r.chats == chats && exists i :: 0 <= i < |chats| && chats[i].id == r.id && Between(chats[i], me, other)
    ensures r.created ==> r.chats == chats + [Chat(nextId, me, other)] && r.id == nextId
  {
    match FindChat(chats, me, other)
    case Some(c) => Opened(chats, c.id, false)
    case None => Opened(chats + [Chat(nextId, me, other)], nextId, true)
  }

  // ---------------------------------------------------------------- lemmas

  lemma {:induction false} ProfileCountAppend(ps: seq<Profile>, p: Profile, u: AccountId)
    ensures ProfileCount(ps + [p], u) == ProfileCount(ps, u) + (if p.user == u then 1 else 0)
  {
    assert (ps + [p])[..|ps|] == ps;
  }

  /** A user with no profile has a count of zero. */
  lemma {:induction false} ProfileCountZero(ps: seq<Profile>, u: AccountId)
    requires forall i :: 0 <= i < |ps| ==> ps[i].user != u
    ensures ProfileCount(ps, u) == 0
    decreases |ps|
  {
    if |ps| > 0 {
      ProfileCountZero(ps[..|ps| - 1], u);
    }
  }

  /** Saving users, new or not, keeps exactly one profile per user; the profile a new user
      gets starts at 0.00 with the placeholder avatar. */
  lemma SaveUserOneProfile(db: Db, u: AccountId)
    requires OneProfileEach(db)
    ensures OneProfileEach(SaveUser(db, u))
    ensures var p := SaveUser(db, u).profiles;
      exists i :: 0 <= i < |p| && p[i].user == u
  {
    var r := SaveUser(db, u);
    if u !in db.users {
      var p := Profile(u, DefaultAvatar, ProfileStartBalance);
      ProfileCountZero(db.profiles, u);
      forall v | v in r.users ensures ProfileCount(r.profiles, v) == 1 {
        ProfileCountAppend(db.profiles, p, v);
      }
      assert r.profiles[|db.profiles|] == p;
    } else {
      assert ProfileCount(db.profiles, u) == 1;
      if forall i :: 0 <= i < |db.profiles| ==> db.profiles[i].user != u {
        ProfileCountZero(db.profiles, u);
      }
    }
  }

  /** A new profile's balance is a valid balance at the bottom of the range. */
  lemma ProfileStartValid()
    ensures ValidBalance(ProfileStartBalance) && ProfileStartBalance == MinBalance
    ensures ValidBalance(UserStartBalance) && FitsDecimal5_2(UserStartBalance)
  {
  }

  /** The stored names read back as the same choice. */
  lemma ChoicesRoundTrip(pol: Polarity, s: RequestStatus)
    ensures PostTypeOf(Some(Approval.PolarityName(pol))) == Ok(pol)
    ensures RequestStatusOf(Some(RequestStatusName(s))) == Ok(s)
  {
  }

  /** Adding requests keeps (post, requester) unique. */
  lemma AddRequestKeepsUnique(rs: seq<Request>, r: Request)
    requires UniqueRequests(rs)
    ensures AddRequest(rs, r).Ok? ==> UniqueRequests(AddRequest(rs, r).value)
    ensures AddRequest(rs + [r], r).Err?
  {
    assert (rs + [r])[|rs|] == r;
  }

  /** The superuser defaults: staff and a username from the email, unless passed. */
  lemma SuperuserDefaults(email: string, extra: Extra, normalize: string -> string)
    requires email != ""
    ensures var u := CreateSuperuser(email, extra, normalize).value;
      && (extra.isStaff.None? ==> u.isStaff)
      && (extra.isStaff.Some? ==> u.isStaff == extra.isStaff.value)
      && (extra.username.Some? ==> u.username == extra.username)
      && (extra.username.None? ==> u.username == Some(Split(email, '@')[0]))
      && (extra.username.None? ==> forall i :: 0 <= i < |u.username.value| ==> u.username.value[i] != '@')
      && u.timebankBalance == UserStartBalance
  {
  }

  /** The username taken from `ann@example.com` is `ann`. */
  lemma SuperuserNameExample(normalize: string -> string)
    ensures CreateSuperuser("ann@example.com", Extra(None, None), normalize).value.username == Some("ann")
  {
    assert "ann@example.com" == "ann" + ['@'] + "example.com";
    SplitCons("ann", '@', "example.com");
    SplitSingle("ann", '@');
  }

  /** Saving a category twice is saving it once. */
  lemma SaveCategoryIdempotent(c: Category, slugify: string -> string)
    ensures SaveCategory(SaveCategory(c, slugify), slugify) == SaveCategory(c, slugify)
  {
  }

  /** Opening the same chat twice: the first call may create it, the second finds it with
      the same id and stores nothing. */
  lemma OpenChatTwice(chats: seq<Chat>, me: AccountId, other: AccountId, nextId: nat, nextId2: nat)
    ensures var first := OpenChat(chats, me, other, nextId);
      var second := OpenChat(first.chats, other, me, nextId2);
      !second.created && second.chats == first.chats
  {
    var first := OpenChat(chats, me, other, nextId);
    if first.created {
      assert first.chats[|chats|] == Chat(nextId, me, other);
    } else {
      var i :| 0 <= i < |chats| && chats[i].id == first.id && Between(chats[i], me, other);
      assert Between(first.chats[i], other, me);
    }
  }
}

=== FILE: admin.dfy ===
/** The admin dashboard: loading the metrics and moderation lists with their defaults,
    hiding or showing an item through the endpoint for its kind, and shortening long
    texts in the tables. */
module Admin {
  import opened Wrappers
  import opened Strings

  const TruncateAt := 40
  const Ellipsis := "..."
  const HiddenStatus := "Hidden"
  const ActiveStatus := "Active"

  /** A moderated item: a post, forum topic, post comment or forum comment. */
  datatype Row = Row(id: nat, isHidden: bool, status: string, text: string)

  /** The four moderation tables. */
  datatype Lists = Lists(posts: seq<Row>, topics: seq<Row>, postComments: seq<Row>, forumComments: seq<Row>)

  datatype Metrics = Metrics(totalExchanges: int, activeUsers: int, bestUsers: seq<string>)

  /** The dashboard response; a missing or falsy field is `None`. */
  datatype Response = Response(totalExchanges: Option<int>, activeUsers: Option<int>,
                               bestUsers: Option<seq<string>>, posts: Option<seq<Row>>,
                               topics: Option<seq<Row>>, postComments: Option<seq<Row>>,
                               forumComments: Option<seq<Row>>)

  /** `fetchDashboardData`: every missing metric is 0 and every missing list empty. */
  function Load(d: Response): (r: (Metrics, Lists))
    ensures d.totalExchanges.Some? ==> r.0.totalExchanges == d.totalExchanges.value
    ensures d.totalExchanges.None? ==> r.0.totalExchanges == 0
    ensures d.activeUsers.Some? ==> r.0.activeUsers == d.activeUsers.value
    ensures d.activeUsers.None? ==> r.0.activeUsers == 0
    ensures d.bestUsers.Some? ==> r.0.bestUsers == d.bestUsers.value
    ensures d.bestUsers.None? ==> r.0.bestUsers == []
    ensures d.posts.Some? ==> r.1.posts == d.posts.value
    ensures d.posts.None? ==> r.1.posts == []
    ensures d.topics.Some? ==> r.1.topics == d.topics.value
    ensures d.topics.None? ==> r.1.topics == []
    ensures d.postComments.Some? ==> r.1.postComments == d.postComments.value
    ensures d.postComments.None? ==> r.1.postComments == []
    ensures d.forumComments.Some? ==> r.1.forumComments == d.forumComments.value
    ensures d.forumComments.None? ==> r.1.forumComments == []
  {
    (Metrics(d.totalExchanges.GetOr(0), d.activeUsers.GetOr(0), d.bestUsers.GetOr([])),
     Lists(d.posts.GetOr([]), d.topics.GetOr([]), d.postComments.GetOr([]), d.forumComments.GetOr([])))
  }

  /** The path segment for an item kind, empty for an unknown kind. */
  function Collection(kind: string): (r: string)
    ensures r == "" <==> kind !in {"post", "forum", "comment", "forum-comment"}
  {
    if kind == "post" then "/posts/"
    else if kind == "forum" then "/forum-topics/"
    else if kind == "comment" then "/comments/"
    else if kind == "forum-comment" then "/forum-comments/"
    else ""
  }

  /** The endpoint `handleToggleHide` posts to: the kind's collection, the id and
      `toggle_hide/`, or the empty string for an unknown kind. */
  function Endpoint(kind: string, id: nat): (r: string)
    ensures r == "" <==> Collection(kind) == ""
    ensures r != "" ==> StartsWith(r, Collection(kind))
  {
    if Collection(kind) == "" then ""
    else Collection(kind) + NatToString(id) + "/toggle_hide/"
  }

  function StatusFor(hidden: bool): string {
    if hidden then HiddenStatus else ActiveStatus
  }

  /** A row whose status label agrees with its hidden flag. */
  predicate Consistent(row: Row) {
    row.status == StatusFor(row.isHidden)
  }

  /** One table after the server answered `hidden` for item `id`. */
  function ToggleRows(rows: seq<Row>, id: nat, hidden: bool): (r: seq<Row>)
    ensures |r| == |rows|
    ensures forall i :: 0 <= i < |rows| && rows[i].id != id ==> r[i] == rows[i]
    ensures forall i :: 0 <= i < |rows| && rows[i].id == id ==>
      r[i].isHidden == hidden && Consistent(r[i]) && r[i].id == id && r[i].text == rows[i].text
  {
    seq(|rows|, i requires 0 <= i < |rows| =>
      if rows[i].id == id then rows[i].(isHidden := hidden, status := StatusFor(hidden)) else rows[i])
  }

  /** `handleToggleHide`'s local update: only the table of the item's kind changes. */
  function ApplyToggle(l: Lists, kind: string, id: nat, hidden: bool): (r: Lists)
    ensures kind != "post" ==> r.posts == l.posts
    ensures kind != "forum" ==> r.topics == l.topics
    ensures kind != "comment" ==> r.postComments == l.postComments
    ensures kind != "forum-comment" ==> r.forumComments == l.forumComments
  {
    if kind == "post" then l.(posts := ToggleRows(l.posts, id, hidden))
    else if kind == "forum" then l.(topics := ToggleRows(l.topics, id, hidden))
    else if kind == "comment" then l.(postComments := ToggleRows(l.postComments, id, hidden))
    else if kind == "forum-comment" then l.(forumComments := ToggleRows(l.forumComments, id, hidden))
    else l
  }

  /** A table cell's text: at most forty characters, then an ellipsis. */
  function Truncate(s: string): (r: string)
    ensures |r| <= TruncateAt + |Ellipsis|
    ensures |s| <= TruncateAt ==> r == s
    ensures |s| > TruncateAt ==> |r| == TruncateAt + |Ellipsis| && StartsWith(s, r[..TruncateAt])
    ensures |s| > TruncateAt ==> r[TruncateAt..] == Ellipsis
  {
    if |s| > TruncateAt then s[..TruncateAt] + Ellipsis else s
  }

  // ---------------------------------------------------------------- lemmas

  /** A response whose `metrics` object and lists are all empty loads as zero metrics and
      empty tables. */
  lemma EmptyResponse()
    ensures Load(Response(None, None, None, None, None, None, None))
      == (Metrics(0, 0, []), Lists([], [], [], []))
  {
  }

  /** The response a backend gives for the figures `m` and tables `l`: a zero count is
      falsy in JavaScript, so it reads as missing; lists are always present. */
  function Serve(m: Metrics, l: Lists): Response {
    Response(if m.totalExchanges == 0 then None else Some(m.totalExchanges),
             if m.activeUsers == 0 then None else Some(m.activeUsers),
             Some(m.bestUsers), Some(l.posts), Some(l.topics), Some(l.postComments), Some(l.forumComments))
  }

  /** The dashboard shows exactly the figures and tables the backend sent, for every
      response: the `|| 0` and `|| []` defaults never replace a value that was there. */
  lemma LoadShowsServed(m: Metrics, l: Lists)
    ensures Load(Serve(m, l)) == (m, l)
  {
  }

  /** The four kinds reach four different collections. */
  lemma CollectionsDistinct(k1: string, k2: string)
    requires Collection(k1) != "" && Collection(k2) != "" && k1 != k2
    ensures Collection(k1) != Collection(k2)
  {
  }

  /** The endpoint names the item: the same kind and endpoint mean the same id. */
  lemma EndpointNamesItem(kind: string, i: nat, j: nat)
    requires Collection(kind) != "" && Endpoint(kind, i) == Endpoint(kind, j)
    ensures i == j
  {
    var c := Collection(kind);
    var rest := "/toggle_hide/";
    assert (c + NatToString(i) + rest)[|c|..] == NatToString(i) + rest;
    assert (c + NatToString(j) + rest)[|c|..] == NatToString(j) + rest;
    ParseIntOfNat(i, rest);
    ParseIntOfNat(j, rest);
  }

  /** Hiding keeps every table's labels in step with the flags. */
  lemma ToggleKeepsConsistent(rows: seq<Row>, id: nat, hidden: bool)
    requires forall i :: 0 <= i < |rows| ==> Consistent(rows[i])
    ensures forall i :: 0 <= i < |ToggleRows(rows, id, hidden)| ==> Consistent(ToggleRows(rows, id, hidden)[i])
  {
  }

  /** Applying the server's answer for an item that is not in the table changes nothing;
      applying it twice is the same as once; answering "shown" after "hidden" restores a
      consistent shown table. */
  lemma ToggleAlgebra(rows: seq<Row>, id: nat, hidden: bool)
    ensures (forall i :: 0 <= i < |rows| ==> rows[i].id != id) ==> ToggleRows(rows, id, hidden) == rows
    ensures ToggleRows(ToggleRows(rows, id, hidden), id, hidden) == ToggleRows(rows, id, hidden)
    ensures (forall i :: 0 <= i < |rows| ==> Consistent(rows[i]) && (rows[i].id == id ==> !rows[i].isHidden)) ==>
      ToggleRows(ToggleRows(rows, id, true), id, false) == rows
  {
  }

  /** An unknown kind leaves every table as it was. */
  lemma UnknownKindNoChange(l: Lists, kind: string, id: nat, hidden: bool)
    requires Collection(kind) == ""
    ensures ApplyToggle(l, kind, id, hidden) == l
  {
  }

  /** Shortening is idempotent: a shortened text is not shortened again. */
  lemma TruncateIdempotent(s: string)
    ensures Truncate(Truncate(s)) == Truncate(s)
  {
    if |s| > TruncateAt {
      assert (s[..TruncateAt] + Ellipsis)[..TruncateAt] == s[..TruncateAt];
    }
  }
}

=== FILE: approval.dfy ===
/** The approval page: when each party may approve, who may review, what a decline sends,
    and how the list of proposals awaiting approval is filtered and grouped. The page sees a
    proposal as the JSON record the backend serialises; `ViewOf` builds that record from the
    lifecycle model so that the page's rules can be checked against the backend's. */
module Approval {
  import opened Wrappers
  import opened Strings
  import opened Ledger
  import opened Exchange
  import Seqs

  const SecondMs := 1000
  const MinuteMs := 60 * SecondMs
  const HourMs := 60 * MinuteMs
  /** 23:59:59.999, the instant used when no time was proposed. */
  const EndOfDayMs := 23 * HourMs + 59 * MinuteMs + 59 * SecondMs + 999

  /** `proposed_date` as the page reads it: absent or empty, not a date, or the instant of
      local midnight of that day in milliseconds. */
  datatype DateField = NoDate | InvalidDate | DateAt(midnight: int)

  /** The proposal record the page works on. `jobStatus` is `""` when there is no job. */
  datatype View = View(
    id: nat,
    requesterId: AccountId,
    providerId: AccountId,
    postType: string,
    status: string,
    providerApproved: bool,
    requesterApproved: bool,
    jobStatus: string,
    jobCancelledBy: Option<AccountId>,
    date: DateField,
    time: string)

  function PolarityName(pol: Polarity): string {
    match pol
    case Offer => "offer"
    case Need => "need"
  }

  function StatusName(s: Status): string {
    match s
    case Waiting => "waiting"
    case Accepted => "accepted"
    case Declined => "declined"
    case Completed => "completed"
    case Cancelled => "cancelled"
  }

  function JobStatusName(j: Option<Job>): string {
    match j
    case None => ""
    case Some(job) =>
      match job.status
      case JobWaiting => "waiting"
      case JobCompleted => "completed"
      case JobCancelled => "cancelled"
  }

  /** The record the backend serialises for a proposal of the lifecycle model. */
  function ViewOf(p: Proposal, id: nat, date: DateField, time: string): View {
    View(id, p.requester, p.provider, PolarityName(p.polarity), StatusName(p.status),
         p.providerApproved, p.requesterApproved, JobStatusName(p.job),
         if p.job.Some? then p.job.value.cancelledBy else None, date, time)
  }

  /** `parseInt(parts[i], 10) || 0`: a missing or unreadable part counts as 0. */
  function TimePart(parts: seq<string>, i: nat): int {
    if i < |parts| then ParseInt(parts[i]).GetOr(0) else 0
  }

  /** Milliseconds from midnight to `h:m`. */
  function ClockMs(h: int, m: int): int {
    h * 3_600_000 + m * 60_000
  }

  /** The time of day `time` names, read as `hh:mm`; a missing part reads as 0. */
  function ClockOffset(time: string): int {
    var parts := Split(time, ':');
    ClockMs(TimePart(parts, 0), TimePart(parts, 1))
  }

  /** The instant of the event: the proposed day at `hh:mm`, or at 23:59:59.999 when no time
      was proposed; none when the date is missing or invalid. Hours and minutes out of range
      roll over, as `setHours` does. */
  function EventInstant(date: DateField, time: string): Option<int> {
    match date
    case DateAt(midnight) =>
      if time != "" then
        Some(midnight + ClockOffset(time))
      else Some(midnight + EndOfDayMs)
    case _ => None
  }

  /** Approval opens once the event has started. */
  predicate CanApprove(v: View, now: int) {
    var at := EventInstant(v.date, v.time);
    at.Some? && now >= at.value
  }

  /** The provider's approve button: only for the provider, once, after the event, never on
      a cancelled job, and on a need only after the requester. */
  predicate CanProviderApprove(v: View, user: Option<AccountId>, now: int)
    ensures CanProviderApprove(v, user, now) ==>
      user == Some(v.providerId) && !v.providerApproved && CanApprove(v, now) && v.jobStatus != "cancelled"
    ensures v.postType == "need" && !v.requesterApproved ==> !CanProviderApprove(v, user, now)
  {
    if v.jobStatus == "cancelled" then false
    else if user.None? then false
    else if user.value != v.providerId then false
    else if v.providerApproved then false
    else if !CanApprove(v, now) then false
    else if v.postType == "offer" then true
    else if v.postType == "need" then v.requesterApproved
    else false
  }

  /** The requester's approve button: only for the requester, once, after the event, never
      on a cancelled job, and on an offer only after the provider. */
  predicate CanRequesterApprove(v: View, user: Option<AccountId>, now: int)
    ensures CanRequesterApprove(v, user, now) ==>
      user == Some(v.requesterId) && !v.requesterApproved && CanApprove(v, now) && v.jobStatus != "cancelled"
    ensures v.postType == "offer" && !v.providerApproved ==> !CanRequesterApprove(v, user, now)
  {
    if v.jobStatus == "cancelled" then false
    else if user.None? then false
    else if user.value != v.requesterId then false
    else if v.requesterApproved then false
    else if !CanApprove(v, now) then false
    else if v.postType == "offer" then v.providerApproved
    else if v.postType == "need" then true
    else false
  }

  /** The page's approve actions: each sets the user's own flag, and only when its button
      is shown. */
  function ClientApprove(v: View, user: Option<AccountId>, now: int): (r: View)
    ensures r.providerApproved == (v.providerApproved || CanProviderApprove(v, user, now))
    ensures r.requesterApproved == (v.requesterApproved || CanRequesterApprove(v, user, now))
    ensures r.(providerApproved := v.providerApproved, requesterApproved := v.requesterApproved) == v
  {
    if CanProviderApprove(v, user, now) then v.(providerApproved := true)
    else if CanRequesterApprove(v, user, now) then v.(requesterApproved := true)
    else v
  }

  /** The job was cancelled by this user. */
  predicate UserCancelledJob(v: View, u: AccountId) {
    v.jobStatus == "cancelled" && (u == v.requesterId || u == v.providerId) && v.jobCancelledBy == Some(u)
  }

  /** A participant may review once their own flag is set or once they cancelled the job;
      the requester's flag decides when the user is both. */
  predicate CanReview(v: View, u: AccountId)
    ensures CanReview(v, u) ==> u == v.requesterId || u == v.providerId
  {
    if u == v.requesterId then v.requesterApproved || UserCancelledJob(v, u)
    else if u == v.providerId then v.providerApproved || UserCancelledJob(v, u)
    else false
  }

  /** What the decline dialog sends. */
  datatype DeclinePayload = DeclinePayload(cancellationReason: string, notes: string)

  /** The decline dialog: a blank explanation is refused; otherwise the chosen reason
      (default `other`) and the explanation are sent. */
  function DeclineRequest(username: string, explanation: string, reason: string): (r: Result<DeclinePayload, string>)
    ensures r.Err? <==> IsBlank(explanation)
    ensures r.Ok? ==> r.value.cancellationReason == reason
  {
    if Trim(explanation) == "" then Err("Please provide a reason for declining")
    else Ok(DeclinePayload(reason, "[Declined by " + username + "]: " + Trim(explanation)))
  }

  const DefaultReason := "other"

  /** The confirmation the page shows after a decline. */
  datatype DeclineNotice = TransferredToOther | TransferredToYou | RefundedToYou | DeclinedOnly

  function DeclineNoticeFor(v: View, u: AccountId, reason: string): DeclineNotice {
    var isOffer := v.postType == "offer";
    var userPays := (isOffer && u == v.requesterId) || (!isOffer && u == v.providerId);
    if reason == "not_showed_up" then (if userPays then TransferredToOther else TransferredToYou)
    else if userPays then RefundedToYou
    else DeclinedOnly
  }

  // ------------------------------------------------------------ the proposal list

  /** Kept in the list: a cancelled job only for its participants; otherwise not a cancelled
      proposal, and only accepted or completed ones. */
  predicate Relevant(v: View, user: AccountId) {
    if v.jobStatus == "cancelled" then user == v.requesterId || user == v.providerId
    else if v.status == "cancelled" then false
    else v.status == "accepted" || v.status == "completed"
  }

  /** No earlier record has the same id. */
  predicate FirstOfId(vs: seq<View>, i: nat)
    requires i < |vs|
  {
    forall k :: 0 <= k < i ==> vs[k].id != vs[i].id
  }

  /** `vs.filter((p, i, self) => i === self.findIndex(q => q.id === p.id))`: keeps each record
      whose id did not appear earlier. */
  function Dedupe(vs: seq<View>): seq<View>
    decreases |vs|
  {
    if |vs| == 0 then []
    else
      var n := |vs| - 1;
      Dedupe(vs[..n]) + (if FirstOfId(vs, n) then [vs[n]] else [])
  }

  predicate InCancelled(v: View) {
    v.jobStatus == "cancelled"
  }

  predicate InCompleted(v: View) {
    v.jobStatus != "cancelled" && (v.status == "completed" || (v.providerApproved && v.requesterApproved))
  }

  predicate InPending(v: View) {
    v.jobStatus != "cancelled" && v.status != "completed" && !(v.providerApproved && v.requesterApproved)
  }

  datatype Groups = Groups(cancelled: seq<View>, completed: seq<View>, pending: seq<View>)

  /** The list the page shows, grouped. */
  function Listing(all: seq<View>, user: AccountId): Groups {
    var unique := Dedupe(Seqs.Filter(all, v => Relevant(v, user)));
    Groups(Seqs.Filter(unique, InCancelled), Seqs.Filter(unique, InCompleted), Seqs.Filter(unique, InPending))
  }

  // ---------------------------------------------------------------- lemmas

  /** `"hh:mm".split(':')` is the two numbers. */
  lemma SplitClock(h: nat, m: nat)
    ensures Split(NatToString(h) + ":" + NatToString(m), ':') == [NatToString(h), NatToString(m)]
  {
    var hs := NatToString(h);
    var ms := NatToString(m);
    assert ':' !in hs by { assert forall i :: 0 <= i < |hs| ==> '0' <= hs[i] <= '9'; }
    assert ':' !in ms by { assert forall i :: 0 <= i < |ms| ==> '0' <= ms[i] <= '9'; }
    assert hs + ":" + ms == hs + [':'] + ms;
    SplitCons(hs, ':', ms);
    SplitSingle(ms, ':');
  }

  /** Both parts of `"hh:mm"` read back as the numbers. */
  lemma ClockParts(h: nat, m: nat)
    ensures var parts := Split(NatToString(h) + ":" + NatToString(m), ':');
      TimePart(parts, 0) == h && TimePart(parts, 1) == m
  {
    var parts := Split(NatToString(h) + ":" + NatToString(m), ':');
    SplitClock(h, m);
    assert parts[0] == NatToString(h) && parts[1] == NatToString(m);
    ParseIntOfNumeral(h);
    ParseIntOfNumeral(m);
  }

  /** `"hh:mm"` names `hh` hours and `mm` minutes after midnight. */
  lemma ClockOffsetOf(h: nat, m: nat)
    ensures ClockOffset(NatToString(h) + ":" + NatToString(m)) == ClockMs(h, m)
  {
    ClockParts(h, m);
  }

  /** Without a time the event is at the last millisecond of the day; without a valid date
      approval never opens. */
  lemma EventWithoutTime(d: DateField, now: int)
    ensures d.DateAt? ==> EventInstant(d, "") == Some(d.midnight + 86_400_000 - 1)
    ensures !d.DateAt? ==> forall t :: EventInstant(d, t).None?
  {
  }

  /** Once approval opens it stays open. */
  lemma CanApproveStaysOpen(v: View, now: int, later: int)
    requires CanApprove(v, now) && now <= later
    ensures CanApprove(v, later)
  {
  }

  /** The page's approve buttons never break the approval order: starting from an ordered
      pair of flags, any sequence of clicks keeps it ordered. */
  lemma {:induction false} ClientKeepsOrder(v: View, clicks: seq<(Option<AccountId>, int)>)
    requires v.postType == "offer" ==> (v.requesterApproved ==> v.providerApproved)
    requires v.postType == "need" ==> (v.providerApproved ==> v.requesterApproved)
    ensures var r := ClientRun(v, clicks);
      && (r.postType == "offer" ==> (r.requesterApproved ==> r.providerApproved))
      && (r.postType == "need" ==> (r.providerApproved ==> r.requesterApproved))
    decreases |clicks|
  {
    if |clicks| > 0 {
      var v1 := ClientApprove(v, clicks[0].0, clicks[0].1);
      ClientKeepsOrder(v1, clicks[1..]);
    }
  }

  function ClientRun(v: View, clicks: seq<(Option<AccountId>, int)>): View
    decreases |clicks|
  {
    if |clicks| == 0 then v else ClientRun(ClientApprove(v, clicks[0].0, clicks[0].1), clicks[1..])
  }

  /** The provider's button matches the backend: for a waiting job, after the event, the
      button is shown exactly when the backend would accept the provider's approval as a
      change. */
  lemma ProviderButtonMatchesBackend(w: World, id: nat, date: DateField, time: string, now: int)
    requires WellFormed(w.proposal) && JobIsWaiting(w.proposal)
    requires w.proposal.requester != w.proposal.provider
    requires Payee(w.proposal) in w.ledger
    requires !w.proposal.providerApproved
    requires CanApprove(ViewOf(w.proposal, id, date, time), now)
    ensures CanProviderApprove(ViewOf(w.proposal, id, date, time), Some(w.proposal.provider), now)
      <==> Approve(w, w.proposal.provider).Ok?
  {
  }

  /** The same for the requester's button. */
  lemma RequesterButtonMatchesBackend(w: World, id: nat, date: DateField, time: string, now: int)
    requires WellFormed(w.proposal) && JobIsWaiting(w.proposal)
    requires w.proposal.requester != w.proposal.provider
    requires Payee(w.proposal) in w.ledger
    requires !w.proposal.requesterApproved
    requires CanApprove(ViewOf(w.proposal, id, date, time), now)
    ensures CanRequesterApprove(ViewOf(w.proposal, id, date, time), Some(w.proposal.requester), now)
      <==> Approve(w, w.proposal.requester).Ok?
  {
  }

  /** Only participants ever review; both may once the job is completed; and whoever
      declines the job may review it. */
  lemma ReviewEligibility(w: World, id: nat, date: DateField, time: string, u: AccountId)
    requires WellFormed(w.proposal)
    ensures CanReview(ViewOf(w.proposal, id, date, time), u) ==> IsParticipant(w.proposal, u)
    ensures w.proposal.status == Completed && IsParticipant(w.proposal, u) ==>
      CanReview(ViewOf(w.proposal, id, date, time), u)
  {
  }

  lemma ReviewAfterDecline(w: World, actor: AccountId, reason: Reason, id: nat, date: DateField, time: string)
    requires DeclineJob(w, actor, reason).Ok?
    ensures CanReview(ViewOf(DeclineJob(w, actor, reason).value.proposal, id, date, time), actor)
  {
  }

  /** The decline notice tells the user what happened to their own balance. */
  lemma DeclineNoticeTruthful(w: World, actor: AccountId, reason: Reason, id: nat, date: DateField, time: string)
    requires DeclineJob(w, actor, reason).Ok?
    requires w.proposal.requester != w.proposal.provider && w.proposal.rate > 0
    requires actor in w.ledger
    ensures var notice := DeclineNoticeFor(ViewOf(w.proposal, id, date, time), actor,
                                           if reason == NotShowedUp then "not_showed_up" else DefaultReason);
      var after := DeclineJob(w, actor, reason).value.ledger[actor];
      && (notice in {TransferredToOther, DeclinedOnly} <==> after == w.ledger[actor])
      && (notice in {TransferredToYou, RefundedToYou} <==> after == w.ledger[actor] + w.proposal.rate)
  {
  }

  /** Record `i` of a prefix is a first occurrence there iff it is one in the whole list. */
  lemma FirstOfIdPrefix(vs: seq<View>, n: nat, i: nat)
    requires i < n <= |vs|
    ensures vs[..n][i] == vs[i]
    ensures FirstOfId(vs[..n], i) == FirstOfId(vs, i)
  {
    assert forall k :: 0 <= k < i ==> vs[..n][k] == vs[k];
  }

  /** Every kept record is a first occurrence of its id in the input. */
  lemma {:induction false} DedupeOnlyFirsts(vs: seq<View>)
    ensures forall j :: 0 <= j < |Dedupe(vs)| ==>
      exists i :: 0 <= i < |vs| && FirstOfId(vs, i) && Dedupe(vs)[j] == vs[i]
    decreases |vs|
  {
    if |vs| > 0 {
      var n := |vs| - 1;
      var init := vs[..n];
      var rest := Dedupe(init);
      var d := Dedupe(vs);
      var last := if FirstOfId(vs, n) then [vs[n]] else [];
      assert d == rest + last;
      DedupeOnlyFirsts(init);
      forall j | 0 <= j < |d|
        ensures exists i :: 0 <= i < |vs| && FirstOfId(vs, i) && d[j] == vs[i]
      {
        if j < |rest| {
          assert d[j] == rest[j];
          var i :| 0 <= i < |init| && FirstOfId(init, i) && rest[j] == init[i];
          FirstOfIdPrefix(vs, n, i);
          assert 0 <= i < |vs| && FirstOfId(vs, i) && d[j] == vs[i];
        } else {
          assert |last| > 0 && d[j] == last[0];
          assert 0 <= n < |vs| && FirstOfId(vs, n) && d[j] == vs[n];
        }
      }
    } else {
      assert Dedupe(vs) == [];
    }
  }

  /** Every first occurrence of an id is kept. */
  lemma {:induction false} DedupeKeepsFirsts(vs: seq<View>)
    ensures forall i :: 0 <= i < |vs| && FirstOfId(vs, i) ==> vs[i] in Dedupe(vs)
    decreases |vs|
  {
    if |vs| > 0 {
      var n := |vs| - 1;
      var init := vs[..n];
      DedupeKeepsFirsts(init);
      forall i | 0 <= i < |vs| && FirstOfId(vs, i) ensures vs[i] in Dedupe(vs) {
        if i < n {
          FirstOfIdPrefix(vs, n, i);
          assert init[i] in Dedupe(init);
        }
      }
    }
  }

  /** The list holds no id twice. */
  lemma {:induction false} DedupeUnique(vs: seq<View>)
    ensures forall i, j :: 0 <= i < j < |Dedupe(vs)| ==> Dedupe(vs)[i].id != Dedupe(vs)[j].id
    decreases |vs|
  {
    if |vs| > 0 {
      var n := |vs| - 1;
      var init := vs[..n];
      var rest := Dedupe(init);
      var d := Dedupe(vs);
      DedupeUnique(init);
      DedupeOnlyFirsts(init);
      if FirstOfId(vs, n) {
        assert d == rest + [vs[n]];
        forall j | 0 <= j < |rest| ensures rest[j].id != vs[n].id {
          var i :| 0 <= i < |init| && FirstOfId(init, i) && rest[j] == init[i];
          assert init[i] == vs[i];
        }
      } else {
        assert d == rest;
      }
    }
  }

  /** Every id of the input is still in the list. */
  lemma DedupeKeepsIds(vs: seq<View>, i: nat)
    requires i < |vs|
    ensures exists j :: 0 <= j < |Dedupe(vs)| && Dedupe(vs)[j].id == vs[i].id
  {
    var f := FirstIndex(vs, i);
    DedupeKeepsFirsts(vs);
    assert vs[f] in Dedupe(vs);
  }

  /** The index of the first record with the same id as record `i`. */
  function FirstIndex(vs: seq<View>, i: nat): (f: nat)
    requires i < |vs|
    ensures f <= i && vs[f].id == vs[i].id && FirstOfId(vs, f)
    decreases i
  {
    if FirstOfId(vs, i) then i
    else
      var k :| 0 <= k < i && vs[k].id == vs[i].id;
      FirstIndex(vs, k)
  }

  /** Every listed record falls in exactly one of the three groups: no group shares a record
      with another, every de-duplicated record is in one, and the sizes add up. */
  lemma ListingPartition(all: seq<View>, user: AccountId)
    ensures var g := Listing(all, user);
      var unique := Dedupe(Seqs.Filter(all, v => Relevant(v, user)));
      |g.cancelled| + |g.completed| + |g.pending| == |unique|
    ensures var g := Listing(all, user);
      forall v :: (v in g.cancelled ==> v !in g.completed && v !in g.pending) && (v in g.completed ==> v !in g.pending)
    ensures var g := Listing(all, user);
      var unique := Dedupe(Seqs.Filter(all, v => Relevant(v, user)));
      forall i :: 0 <= i < |unique| ==> unique[i] in g.cancelled || unique[i] in g.completed || unique[i] in g.pending
  {
    var unique := Dedupe(Seqs.Filter(all, v => Relevant(v, user)));
    Seqs.FilterPartition3(unique, InCancelled, InCompleted, InPending);
    var g := Listing(all, user);
    forall v ensures (v in g.cancelled ==> v !in g.completed && v !in g.pending) && (v in g.completed ==> v !in g.pending) {
      Seqs.FilteredSatisfies(unique, InCancelled, v);
      Seqs.FilteredSatisfies(unique, InCompleted, v);
      Seqs.FilteredSatisfies(unique, InPending, v);
    }
  }

}

=== FILE: csrf.dfy ===
/** The API client's cookie reader and the request interceptor that adds the CSRF header to
    state-changing requests. The browser's cookie string and `decodeURIComponent` are
    parameters; a decode that fails (a `URIError`) is `None`. */
module Csrf {
  import opened Wrappers
  import opened Strings

  const TokenCookie := "csrftoken"
  const TokenHeader := "X-CSRFToken"

  /** `decodeURIComponent` threw. */
  datatype UriError = UriError

  /** The entry carries the cookie `name`: it starts with `name=`. */
  predicate Names(entry: string, name: string) {
    StartsWith(entry, name + "=")
  }

  /** The value of the first trimmed entry naming the cookie, still encoded; which entry
      that is, `FirstEntryWins` states. */
  function FirstValue(entries: seq<string>, name: string): (r: Option<string>)
    ensures r.None? <==> forall i :: 0 <= i < |entries| ==> !Names(Trim(entries[i]), name)
    decreases |entries|
  {
    if |entries| == 0 then None
    else if Names(Trim(entries[0]), name) then Some(Trim(entries[0])[|name| + 1..])
    else
      var r := FirstValue(entries[1..], name);
      assert forall i :: 1 <= i < |entries| ==> entries[i] == entries[1..][i - 1];
      r
  }

  /** `getCookie(name)`: null for an empty cookie string or when no entry names the
      cookie; otherwise the decoded value of the first entry that does. */
  function GetCookie(cookie: string, name: string, decode: string -> Option<string>)
    : (r: Result<Option<string>, UriError>)
    ensures cookie == "" ==> r == Ok(None)
    ensures r == Ok(None) <==> cookie == "" || FirstValue(Split(cookie, ';'), name).None?
    ensures r.Err? <==> cookie != "" && FirstValue(Split(cookie, ';'), name).Some?
                        && decode(FirstValue(Split(cookie, ';'), name).value).None?
  {
    if cookie == "" then Ok(None)
    else
      match FirstValue(Split(cookie, ';'), name)
      case None => Ok(None)
      case Some(raw) =>
        match decode(raw)
        case None => Err(UriError)
        case Some(v) => Ok(Some(v))
  }

  datatype Config = Config(verb: string, headers: map<string, string>)

  /** The methods that carry the token, compared after upper-casing. */
  predicate Unsafe(verb: string) {
    Upper(verb) in ["POST", "PUT", "DELETE", "PATCH"]
  }

  /** The request interceptor: on an unsafe verb with a non-empty token the token is set
      as `X-CSRFToken`; every other request passes unchanged. */
  function Intercept(c: Config, cookie: string, decode: string -> Option<string>): (r: Result<Config, UriError>)
    ensures !Unsafe(c.verb) ==> r == Ok(c)
    ensures r.Ok? ==> r.value.verb == c.verb
    ensures r.Ok? ==> forall h :: h in c.headers && h != TokenHeader ==> h in r.value.headers && r.value.headers[h] == c.headers[h]
    ensures r.Ok? && TokenHeader in r.value.headers && r.value.headers != c.headers ==>
      Unsafe(c.verb) && GetCookie(cookie, TokenCookie, decode) == Ok(Some(r.value.headers[TokenHeader]))
  {
    if !Unsafe(c.verb) then Ok(c)
    else
      match GetCookie(cookie, TokenCookie, decode)
      case Err(e) => Err(e)
      case Ok(token) =>
        if token.Some? && token.value != "" then Ok(c.(headers := c.headers[TokenHeader := token.value]))
        else Ok(c)
  }

  // ---------------------------------------------------------------- lemmas

  /** A cookie whose name merely starts with the wanted name is not read: `csrftoken2=v`
      does not supply `csrftoken`. */
  lemma LongerNameNoMatch()
    ensures !Names("csrftoken2=v", TokenCookie)
  {
    assert ("csrftoken2=v")[9] == '2';
    assert (TokenCookie + "=")[9] == '=';
  }

  /** Any name: an entry continuing the name with anything but `=` does not match. */
  lemma ExtendedNameNoMatch(entry: string, name: string, c: char)
    requires StartsWith(entry, name + [c]) && c != '='
    ensures !Names(entry, name)
  {
    assert entry[|name|] == (name + [c])[|name|];
  }

  /** The first entry naming the cookie decides the value, whatever later entries say; a
      space after the `;` separator does not matter. */
  lemma {:induction false} FirstEntryWins(entries: seq<string>, name: string, i: nat)
    requires i < |entries| && Names(Trim(entries[i]), name)
    requires forall k :: 0 <= k < i ==> !Names(Trim(entries[k]), name)
    ensures FirstValue(entries, name) == Some(Trim(entries[i])[|name| + 1..])
    decreases i
  {
    if i > 0 {
      var rest := entries[1..];
      assert !Names(Trim(entries[0]), name);
      assert FirstValue(entries, name) == FirstValue(rest, name);
      assert rest[i - 1] == entries[i];
      forall k | 0 <= k < i - 1 ensures !Names(Trim(rest[k]), name) {
        assert rest[k] == entries[k + 1];
      }
      FirstEntryWins(rest, name, i - 1);
    }
  }

  lemma LeadingSpaceIgnored(entry: string, name: string)
    ensures Names(Trim([' '] + entry), name) == Names(Trim(entry), name)
  {
    TrimSkipsLeadingSpace(' ', entry);
  }

  /** The verb test ignores case: a verb and its upper-cased form are treated alike,
      so `post` carries the token and `get` does not. */
  lemma MethodCaseInsensitive(m: string)
    ensures Unsafe(m) == Unsafe(Upper(m))
    ensures Unsafe("post") && Unsafe("Patch") && !Unsafe("get")
  {
    assert Upper(Upper(m)) == Upper(m);
    assert Upper("post") == "POST";
    assert Upper("Patch") == "PATCH";
    assert Upper("get") == "GET";
  }

  /** With a token present and decodable, every unsafe request carries it and nothing else
      in the headers changes; a safe request never carries a token it did not have. */
  lemma TokenAttached(c: Config, cookie: string, decode: string -> Option<string>, token: string)
    requires GetCookie(cookie, TokenCookie, decode) == Ok(Some(token)) && token != ""
    ensures Unsafe(c.verb) ==> Intercept(c, cookie, decode) == Ok(c.(headers := c.headers[TokenHeader := token]))
    ensures !Unsafe(c.verb) ==> Intercept(c, cookie, decode) == Ok(c)
  {
  }
}

=== FILE: exchange.dfy ===
/** The time-credit exchange lifecycle: a proposal against a post is created waiting, is
    accepted (the payer is debited and a job is opened), and then either completes when both
    parties approve (the payee is credited) or is cancelled (the payer is refunded). The
    post's polarity fixes the direction of payment. */
module Exchange {
  import opened Wrappers
  import opened Ledger

  /** `offer`: the post owner provides the service; `need`: the post owner asks for it.
      The post owner is the provider either way. */
  datatype Polarity = Offer | Need

  datatype Status = Waiting | Accepted | Declined | Completed | Cancelled

  datatype JobStatus = JobWaiting | JobCompleted | JobCancelled

  datatype Reason = NotShowedUp | OtherReason

  /** The job opened when a proposal is accepted. */
  datatype Job = Job(status: JobStatus, cancelledBy: Option<AccountId>, reason: Option<Reason>)

  datatype Proposal = Proposal(
    polarity: Polarity,
    requester: AccountId,
    provider: AccountId,
    rate: nat,
    status: Status,
    providerApproved: bool,
    requesterApproved: bool,
    job: Option<Job>)

  /** A proposal together with the ledger it moves credits in. */
  datatype World = World(proposal: Proposal, ledger: Ledger)

  datatype ExchangeError =
    | InvalidTransition
    | InsufficientBalance
    | AccountNotFound
    | NoWaitingJob
    | Unauthorized
    | ApprovalOrderViolation

  /** The party whose balance is staked: the requester on an offer, the provider on a need. */
  function Payer(p: Proposal): (r: AccountId)
    ensures IsParticipant(p, r)
  {
    if p.polarity == Offer then p.requester else p.provider
  }

  /** The party who is paid: the other one. Payer and payee are the two participants. */
  function Payee(p: Proposal): (r: AccountId)
    ensures IsParticipant(p, r)
    ensures forall a :: IsParticipant(p, a) ==> a == r || a == Payer(p)
    ensures p.requester != p.provider ==> r != Payer(p)
  {
    if p.polarity == Offer then p.provider else p.requester
  }

  predicate IsParticipant(p: Proposal, a: AccountId) {
    a == p.requester || a == p.provider
  }

  predicate JobIsWaiting(p: Proposal) {
    p.job.Some? && p.job.value.status == JobWaiting
  }

  /** The approval order a post's polarity demands: on an offer the requester approves only
      after the provider; on a need the provider only after the requester. */
  predicate OrderOk(pol: Polarity, providerApproved: bool, requesterApproved: bool) {
    if pol == Offer then requesterApproved ==> providerApproved
    else providerApproved ==> requesterApproved
  }

  /** Credits held between acceptance and the end of the job. */
  function Escrow(p: Proposal): nat {
    if JobIsWaiting(p) then p.rate else 0
  }

  /** The states the lifecycle can reach. */
  predicate WellFormed(p: Proposal) {
    && OrderOk(p.polarity, p.providerApproved, p.requesterApproved)
    && (p.status in {Waiting, Declined} ==> p.job.None? && !p.providerApproved && !p.requesterApproved)
    && (p.status in {Accepted, Completed, Cancelled} ==> p.job.Some?)
    && (p.status == Completed <==> (p.job.Some? && p.job.value.status == JobCompleted))
    && (p.status == Completed ==> p.providerApproved && p.requesterApproved)
    && (p.status == Cancelled ==> p.job.value.status == JobCancelled)
    && (JobIsWaiting(p) ==> p.status == Accepted && !(p.providerApproved && p.requesterApproved))
  }

  /** A new proposal: waiting, neither party approved, no job yet. */
  function Create(pol: Polarity, requester: AccountId, provider: AccountId, rate: nat): (p: Proposal)
    ensures p.status == Waiting && p.job.None?
    ensures !p.providerApproved && !p.requesterApproved
    ensures WellFormed(p)
  {
    Proposal(pol, requester, provider, rate, Waiting, false, false, None)
  }

  function FromLedgerError(e: LedgerError): ExchangeError {
    match e
    case AccountNotFound => ExchangeError.AccountNotFound
    case InsufficientBalance => ExchangeError.InsufficientBalance
  }

  /** Status `accepted` written on a waiting proposal: the payer is debited once and a waiting
      job is opened; the whole step fails when the payer cannot cover the rate. Writing
      `accepted` again changes nothing. */
  function Accept(w: World): (r: Result<World, ExchangeError>)
    ensures w.proposal.status == Accepted ==> r == Ok(w)
    ensures w.proposal.status !in {Waiting, Accepted} ==> r == Err(InvalidTransition)
    ensures w.proposal.status == Waiting ==>
      (r.Err? <==> Payer(w.proposal) !in w.ledger || w.ledger[Payer(w.proposal)] < w.proposal.rate)
    ensures w.proposal.status == Waiting && r.Ok? ==>
      && r.value.proposal.status == Accepted
      && r.value.proposal.job == Some(Job(JobWaiting, None, None))
      && Payer(w.proposal) in w.ledger && r.value.ledger.Keys == w.ledger.Keys
      && r.value.ledger[Payer(w.proposal)] == w.ledger[Payer(w.proposal)] - w.proposal.rate
      && forall a :: a in w.ledger && a != Payer(w.proposal) ==> r.value.ledger[a] == w.ledger[a]
  {
    var p := w.proposal;
    if p.status == Accepted then Ok(w)
    else if p.status != Waiting then Err(InvalidTransition)
    else
      match Debit(w.ledger, Payer(p), p.rate)
      case Err(e) => Err(FromLedgerError(e))
      case Ok(l) => Ok(World(p.(status := Accepted, job := Some(Job(JobWaiting, None, None))), l))
  }

  /** Status `declined` written on a waiting proposal; no credits move. */
  function Decline(w: World): (r: Result<World, ExchangeError>)
    ensures r.Ok? <==> w.proposal.status == Waiting
    ensures r.Ok? ==> r.value.ledger == w.ledger && r.value.proposal.status == Declined
  {
    if w.proposal.status == Waiting then Ok(World(w.proposal.(status := Declined), w.ledger))
    else Err(InvalidTransition)
  }

  /** Status `cancelled` written on an accepted proposal: the payer gets the rate back and the
      waiting job is cancelled. Cancelling a cancelled proposal changes nothing, so the refund
      is paid at most once. */
  function Cancel(w: World): (r: Result<World, ExchangeError>)
    ensures w.proposal.status == Cancelled ==> r == Ok(w)
    ensures w.proposal.status !in {Accepted, Cancelled} ==> r == Err(InvalidTransition)
    ensures w.proposal.status == Accepted && !JobIsWaiting(w.proposal) ==> r == Err(NoWaitingJob)
    ensures w.proposal.status == Accepted && r.Ok? ==>
      && r.value.proposal.status == Cancelled
      && Payer(w.proposal) in w.ledger && r.value.ledger.Keys == w.ledger.Keys
      && r.value.ledger[Payer(w.proposal)] == w.ledger[Payer(w.proposal)] + w.proposal.rate
      && forall a :: a in w.ledger && a != Payer(w.proposal) ==> r.value.ledger[a] == w.ledger[a]
  {
    var p := w.proposal;
    if p.status == Cancelled then Ok(w)
    else if p.status != Accepted then Err(InvalidTransition)
    else if !JobIsWaiting(p) then Err(NoWaitingJob)
    else
      match Credit(w.ledger, Payer(p), p.rate)
      case Err(e) => Err(FromLedgerError(e))
      case Ok(l) =>
        Ok(World(p.(status := Cancelled, job := Some(p.job.value.(status := JobCancelled))), l))
  }

  /** One save of the approval flags: `setProvider`/`setRequester` say which flags the save
      turns on (flags are only ever turned on). A save that changes nothing passes; otherwise
      the proposal must be accepted with its job waiting and the new flags must respect the
      polarity's order. When both flags end up set the job completes and the payee is paid. */
  function SetApprovals(w: World, setProvider: bool, setRequester: bool): (r: Result<World, ExchangeError>)
    ensures r.Ok? ==> r.value.proposal.providerApproved == (w.proposal.providerApproved || setProvider)
    ensures r.Ok? ==> r.value.proposal.requesterApproved == (w.proposal.requesterApproved || setRequester)
    ensures (setProvider ==> w.proposal.providerApproved) && (setRequester ==> w.proposal.requesterApproved)
      ==> r == Ok(w)
    ensures r.Ok? && WellFormed(w.proposal) ==>
      OrderOk(w.proposal.polarity, r.value.proposal.providerApproved, r.value.proposal.requesterApproved)
    ensures r.Ok? && r != Ok(w) ==>
      (r.value.proposal.status == Completed <==>
        r.value.proposal.providerApproved && r.value.proposal.requesterApproved)
  {
    var p := w.proposal;
    var pa := p.providerApproved || setProvider;
    var ra := p.requesterApproved || setRequester;
    if pa == p.providerApproved && ra == p.requesterApproved then Ok(w)
    else if p.status != Accepted then Err(InvalidTransition)
    else if !JobIsWaiting(p) then Err(NoWaitingJob)
    else if !OrderOk(p.polarity, pa, ra) then Err(ApprovalOrderViolation)
    else if pa && ra then
      match Credit(w.ledger, Payee(p), p.rate)
      case Err(e) => Err(FromLedgerError(e))
      case Ok(l) =>
        Ok(World(p.(status := Completed, providerApproved := true, requesterApproved := true,
                    job := Some(p.job.value.(status := JobCompleted))), l))
    else Ok(World(p.(providerApproved := pa, requesterApproved := ra), w.ledger))
  }

  /** The actor approves in the role(s) they hold on the proposal; an outsider may not. */
  function Approve(w: World, actor: AccountId): (r: Result<World, ExchangeError>)
    ensures !IsParticipant(w.proposal, actor) ==> r == Err(Unauthorized)
    ensures r.Ok? ==> r.value.proposal.providerApproved == (w.proposal.providerApproved || actor == w.proposal.provider)
    ensures r.Ok? ==> r.value.proposal.requesterApproved == (w.proposal.requesterApproved || actor == w.proposal.requester)
  {
    if !IsParticipant(w.proposal, actor) then Err(Unauthorized)
    else SetApprovals(w, actor == w.proposal.provider, actor == w.proposal.requester)
  }

  /** The decline reason as the client sends it: `not_showed_up`, anything else counts as
      `other`. */
  function ParseReason(s: string): (r: Reason)
    ensures r == NotShowedUp <==> s == "not_showed_up"
  {
    if s == "not_showed_up" then NotShowedUp else OtherReason
  }

  /** A participant declines the waiting job at the approval stage. The job is cancelled and
      records who cancelled it and why; the proposal's own status stays `accepted`. If the
      other party did not show up the staked rate goes to the payee, otherwise it returns to
      the payer. */
  function DeclineJob(w: World, actor: AccountId, reason: Reason): (r: Result<World, ExchangeError>)
    ensures !JobIsWaiting(w.proposal) ==> r == Err(NoWaitingJob)
    ensures JobIsWaiting(w.proposal) && !IsParticipant(w.proposal, actor) ==> r == Err(Unauthorized)
    ensures r.Ok? ==>
      && r.value.proposal.status == w.proposal.status
      && r.value.proposal.job == Some(Job(JobCancelled, Some(actor), Some(reason)))
      && r.value.ledger.Keys == w.ledger.Keys
    ensures r.Ok? ==>
      var paid := if reason == NotShowedUp then Payee(w.proposal) else Payer(w.proposal);
      && paid in w.ledger && r.value.ledger.Keys == w.ledger.Keys
      && r.value.ledger[paid] == w.ledger[paid] + w.proposal.rate
      && forall a :: a in w.ledger && a != paid ==> r.value.ledger[a] == w.ledger[a]
  {
    var p := w.proposal;
    if !JobIsWaiting(p) then Err(NoWaitingJob)
    else if !IsParticipant(p, actor) then Err(Unauthorized)
    else
      var paid := if reason == NotShowedUp then Payee(p) else Payer(p);
      match Credit(w.ledger, paid, p.rate)
      case Err(e) => Err(FromLedgerError(e))
      case Ok(l) => Ok(World(p.(job := Some(Job(JobCancelled, Some(actor), Some(reason)))), l))
  }

  /** Every transition a caller can request. */
  datatype Event =
    | AcceptEvent
    | DeclineEvent
    | CancelEvent
    | ApproveEvent(actor: AccountId)
    | DeclineJobEvent(actor: AccountId, reason: Reason)

  /** The parties, the polarity and the rate: what no transition may change. */
  predicate SameDeal(p: Proposal, q: Proposal) {
    p.polarity == q.polarity && p.requester == q.requester && p.provider == q.provider && p.rate == q.rate
  }

  /** One requested transition. Whatever it does, it keeps the deal: the parties, the
      polarity and the rate. */
  function Step(w: World, ev: Event): (r: Result<World, ExchangeError>)
    ensures r.Ok? ==> SameDeal(w.proposal, r.value.proposal)
  {
    match ev
    case AcceptEvent => Accept(w)
    case DeclineEvent => Decline(w)
    case CancelEvent => Cancel(w)
    case ApproveEvent(a) => Approve(w, a)
    case DeclineJobEvent(a, reason) => DeclineJob(w, a, reason)
  }

  /** Runs events in order, stopping at the first failure. */
  function Run(w: World, evs: seq<Event>): Result<World, ExchangeError>
    decreases |evs|
  {
    if |evs| == 0 then Ok(w)
    else
      match Step(w, evs[0])
      case Err(e) => Err(e)
      case Ok(w1) => Run(w1, evs[1..])
  }
}

=== FILE: forumdetails.dfy ===
/** The forum topic page: the topic and its comments picked out by the route's id, the
    comment box and the like buttons. The topics and comments are the page's own fixed
    lists, passed in here as parameters. */
module ForumDetails {
  import opened Wrappers
  import opened Strings
  import opened Seqs
  import opened Radix

  datatype Topic = Topic(id: int, title: string, likes: nat)
  datatype Comment = Comment(id: int, topicId: int, text: string, likes: nat)

  /** What the page shows for a route id. */
  datatype View = NotFound | Found(topic: Topic, comments: seq<Comment>)

  /** The topic whose id is the route id read by `parseInt` without a radix, so that a `0x`
      prefix reads hexadecimal, and its comments; a route id that is no number matches
      nothing. */
  function Open(topics: seq<Topic>, comments: seq<Comment>, route: string): (r: View)
    ensures r.NotFound? <==> ParseIntAuto(route).None? || forall i :: 0 <= i < |topics| ==> topics[i].id != ParseIntAuto(route).value
    ensures r.Found? ==> r.topic in topics && Some(r.topic.id) == ParseIntAuto(route)
    ensures r.Found? ==> forall i :: 0 <= i < |r.comments| ==> r.comments[i] in comments && r.comments[i].topicId == r.topic.id
    ensures r.Found? ==> forall i :: 0 <= i < |comments| && comments[i].topicId == r.topic.id ==> comments[i] in r.comments
  {
    match ParseIntAuto(route)
    case None => NotFound
    case Some(n) =>
      match Find(topics, (t: Topic) => t.id == n)
      case None => NotFound
      case Some(t) => Found(t, Filter(comments, (c: Comment) => c.topicId == n))
  }

  /** `handleAddComment`: a blank box is refused and kept; otherwise the box is cleared. */
  function AddComment(input: string): (r: Result<string, string>)
    ensures r.Err? <==> IsBlank(input)
    ensures r.Err? ==> r.error == input
    ensures r.Ok? ==> r.value == ""
  {
    if IsBlank(input) then Err(input) else Ok("")
  }

  /** The topic's like count as shown. */
  function TopicLikes(t: Topic, liked: bool): (r: nat)
    ensures r == t.likes || r == t.likes + 1
    ensures r == t.likes + 1 <==> liked
  {
    t.likes + if liked then 1 else 0
  }

  /** The page state the like buttons change. */
  datatype Likes = Likes(topicLiked: bool, likedComments: set<int>)

  /** `handleLikeTopic`. */
  function LikeTopic(l: Likes): (r: Likes)
    ensures r.topicLiked != l.topicLiked && r.likedComments == l.likedComments
  {
    l.(topicLiked := !l.topicLiked)
  }

  /** `handleLikeComment`. */
  function LikeComment(l: Likes, id: int): (r: Likes)
    ensures r.topicLiked == l.topicLiked
    ensures id in r.likedComments <==> id !in l.likedComments
  {
    l.(likedComments := Toggle(l.likedComments, id))
  }

  // ---------------------------------------------------------------- lemmas

  /** A route naming a listed topic opens it, with the comment count of its comments. */
  lemma OpensListedTopic(topics: seq<Topic>, comments: seq<Comment>, n: nat, k: nat)
    requires k < |topics| && topics[k].id == n
    requires forall i :: 0 <= i < |topics| ==> topics[i].id != n || i == k
    ensures Open(topics, comments, NatToString(n)) == Found(topics[k], Filter(comments, (c: Comment) => c.topicId == n))
  {
    ParseIntAutoOfNumeral(n);
  }

  /** A hexadecimal route opens the topic with that id: `0x2` opens topic 2. */
  lemma HexRouteOpens(a: Topic, b: Topic)
    requires a.id == 1 && b.id == 2
    ensures Open([a, b], [], "0x2") == Found(b, [])
  {
    ParseIntAutoHex();
    assert Find([a, b], (t: Topic) => t.id == 2) == Some(b);
  }

  /** A route that is not a number shows the not-found view. */
  lemma NonNumericRouteNotFound(topics: seq<Topic>, comments: seq<Comment>, route: string)
    requires ParseIntAuto(route).None?
    ensures Open(topics, comments, route) == NotFound
  {
  }

  /** Liking the topic twice, or a comment twice, restores the page; the shown topic
      count moves by one on each click. */
  lemma LikesUndo(t: Topic, l: Likes, id: int)
    ensures LikeTopic(LikeTopic(l)) == l
    ensures LikeComment(LikeComment(l, id), id) == l
    ensures TopicLikes(t, LikeTopic(l).topicLiked) == if l.topicLiked then t.likes else t.likes + 1
  {
    ToggleTwice(l.likedComments, id);
  }
}

=== FILE: forums.dfy ===
/** The forum list's paging: a few topics first, more on each "See More". */
module Forums {
  const PageSize := 5

  /** What the list shows: the empty-state card, or the first topics and, when some are
      hidden, the "See More" button with how many remain. */
  datatype View<T> = EmptyState | Listing(shown: seq<T>, remaining: nat)

  /** The visible count starts at one page. */
  const InitialVisible := PageSize

  /** "See More" shows one page more. */
  function SeeMore(visible: nat): (r: nat)
    ensures r == visible + PageSize
  {
    visible + PageSize
  }

  /** The list for `visible`: the first `min(n, visible)` topics, and the number still
      hidden (0 means no button). */
  function Render<T>(topics: seq<T>, visible: nat): (r: View<T>)
    ensures r.EmptyState? <==> |topics| == 0
    ensures r.Listing? ==> |r.shown| == (if |topics| < visible then |topics| else visible)
    ensures r.Listing? ==> r.shown == topics[..|r.shown|]
    ensures r.Listing? ==> (r.remaining > 0 <==> |topics| > visible)
    ensures r.Listing? ==> |r.shown| + r.remaining == |topics|
  {
    if |topics| == 0 then EmptyState
    else if |topics| > visible then Listing(topics[..visible], |topics| - visible)
    else Listing(topics, 0)
  }

  /** The visible count after `k` clicks. */
  function AfterClicks(k: nat): (r: nat)
    ensures r >= InitialVisible
  {
    if k == 0 then InitialVisible else SeeMore(AfterClicks(k - 1))
  }

  // ---------------------------------------------------------------- lemmas

  /** Each click adds one page: after `k` clicks `5 + 5k` topics are visible. */
  lemma {:induction false} ClicksAddPages(k: nat)
    ensures AfterClicks(k) == PageSize * (k + 1)
  {
    if k > 0 {
      ClicksAddPages(k - 1);
    }
  }

  /** A click never hides a shown topic: the old list is a prefix of the new. */
  lemma SeeMoreExtends<T>(topics: seq<T>, visible: nat)
    requires |topics| > 0
    ensures Render(topics, visible).shown == Render(topics, SeeMore(visible)).shown[..|Render(topics, visible).shown|]
  {
  }

  /** Enough clicks show every topic and drop the button. */
  lemma EnoughClicksShowAll<T>(topics: seq<T>, k: nat)
    requires |topics| > 0 && k * PageSize >= |topics|
    ensures Render(topics, AfterClicks(k)) == Listing(topics, 0)
  {
    ClicksAddPages(k);
  }

  /** Seven topics: five shown first with two more to see, all seven after one click. */
  lemma SevenTopics<T>(topics: seq<T>)
    requires |topics| == 7
    ensures Render(topics, InitialVisible) == Listing(topics[..5], 2)
    ensures Render(topics, SeeMore(InitialVisible)) == Listing(topics, 0)
  {
  }
}

=== FILE: home.dfy ===
/** The home page's post browser: the filter bar over the loaded posts, the offer and need
    tabs, the posts pinned on the map and the location dropdown. */
module Home {
  import opened Strings
  import opened Seqs

  const OfferKind := "offer"
  const NeedKind := "need"
  const OffersTab := "offers"

  datatype Post = Post(id: nat, title: string, description: string, tags: seq<string>,
                       location: string, kind: string)

  /** The four filter controls; the empty string means the control is not set. */
  datatype Filters = Filters(kind: string, tag: string, location: string, search: string)

  const NoFilters := Filters("", "", "", "")

  /** `a.toLowerCase().includes(b.toLowerCase())`. */
  predicate Mentions(a: string, b: string) {
    Contains(Lower(a), Lower(b))
  }

  predicate KindMatch(p: Post, f: Filters) { f.kind == "" || p.kind == f.kind }
  predicate TagMatch(p: Post, f: Filters) { f.tag == "" || f.tag in p.tags }
  predicate LocationMatch(p: Post, f: Filters) { f.location == "" || Mentions(p.location, f.location) }

  predicate SearchMatch(p: Post, f: Filters) {
    f.search == ""
    || Mentions(p.title, f.search) || Mentions(p.description, f.search)
    || exists i :: 0 <= i < |p.tags| && Mentions(p.tags[i], f.search)
  }

  predicate Shown(p: Post, f: Filters) {
    KindMatch(p, f) && TagMatch(p, f) && LocationMatch(p, f) && SearchMatch(p, f)
  }

  /** The filter bar as a test on posts. */
  function ShownBy(f: Filters): Post -> bool {
    p => Shown(p, f)
  }

  predicate IsOffer(p: Post) { p.kind == OfferKind }
  predicate IsNeed(p: Post) { p.kind == NeedKind }
  predicate IsOther(p: Post) { !IsOffer(p) && !IsNeed(p) }

  /** `filteredPosts`: the loaded posts that pass every set filter, in loaded order. */
  function Filtered(ps: seq<Post>, f: Filters): (r: seq<Post>)
    ensures forall i :: 0 <= i < |r| ==> r[i] in ps && Shown(r[i], f)
    ensures forall i :: 0 <= i < |ps| && Shown(ps[i], f) ==> ps[i] in r
  {
    Filter(ps, ShownBy(f))
  }

  function Offers(ps: seq<Post>, f: Filters): (r: seq<Post>)
    ensures forall i :: 0 <= i < |r| ==> r[i].kind == OfferKind && Shown(r[i], f)
  {
    Filter(Filtered(ps, f), IsOffer)
  }

  function Needs(ps: seq<Post>, f: Filters): (r: seq<Post>)
    ensures forall i :: 0 <= i < |r| ==> r[i].kind == NeedKind && Shown(r[i], f)
  {
    Filter(Filtered(ps, f), IsNeed)
  }

  /** `mapPosts`: the offers on the offers tab, the needs on any other. */
  function MapPosts(ps: seq<Post>, f: Filters, tab: string): (r: seq<Post>)
    ensures tab == OffersTab ==> forall i :: 0 <= i < |r| ==> r[i].kind == OfferKind
    ensures tab != OffersTab ==> forall i :: 0 <= i < |r| ==> r[i].kind == NeedKind
  {
    if tab == OffersTab then Offers(ps, f) else Needs(ps, f)
  }

  /** The location dropdown's entries. */
  function Locations(ps: seq<Post>): (r: seq<string>)
    ensures NoDuplicates(r)
    ensures forall l :: l in r <==> exists i :: 0 <= i < |ps| && ps[i].location == l
  {
    var ls := seq(|ps|, i requires 0 <= i < |ps| => ps[i].location);
    assert forall i :: 0 <= i < |ps| ==> ls[i] == ps[i].location;
    Distinct(ls)
  }

  // ---------------------------------------------------------------- lemmas

  /** With no filter set, every post is shown. */
  lemma NothingSetShowsAll(ps: seq<Post>)
    ensures Filtered(ps, NoFilters) == ps
  {
  }

  /** A post passes exactly when it passes each set filter; unset filters never reject. */
  lemma ShownIffEachMatches(p: Post, f: Filters)
    ensures Shown(p, f) <==>
      && (f.kind != "" ==> p.kind == f.kind)
      && (f.tag != "" ==> f.tag in p.tags)
      && (f.location != "" ==> Mentions(p.location, f.location))
      && (f.search != "" ==> SearchMatch(p, f))
  {
  }

  lemma LowerCharIdempotent(c: char)
    ensures LowerChar(LowerChar(c)) == LowerChar(c)
  {
  }

  lemma LowerIdempotent(s: string)
    ensures Lower(Lower(s)) == Lower(s)
  {
    forall i | 0 <= i < |s| ensures Lower(Lower(s))[i] == Lower(s)[i] {
      LowerCharIdempotent(s[i]);
    }
  }

  /** The location and search filters ignore case: lower-casing what was typed changes
      nothing, while the tag filter is exact. */
  lemma CaseInsensitiveFilters(p: Post, f: Filters)
    ensures LocationMatch(p, f) == LocationMatch(p, f.(location := Lower(f.location)))
    ensures SearchMatch(p, f) == SearchMatch(p, f.(search := Lower(f.search)))
  {
    LowerIdempotent(f.location);
    LowerIdempotent(f.search);
  }

  /** The tag filter as a test on posts. */
  function TagBy(f: Filters): Post -> bool {
    p => TagMatch(p, f)
  }

  /** Setting a filter only narrows: the tag-filtered list is the list without the tag
      filter, filtered once more by tag. */
  lemma TagNarrows(ps: seq<Post>, f: Filters)
    ensures Filtered(ps, f) == Filter(Filtered(ps, f.(tag := "")), TagBy(f))
  {
    var g := f.(tag := "");
    FilterFilter(ps, ShownBy(g), TagBy(f), ShownBy(f));
  }

  /** The offer list and the need list share no post, and together with the other kinds
      they account for every filtered post once. */
  lemma TabsPartition(ps: seq<Post>, f: Filters)
    ensures forall i, j :: 0 <= i < |Offers(ps, f)| && 0 <= j < |Needs(ps, f)| ==> Offers(ps, f)[i] != Needs(ps, f)[j]
    ensures |Offers(ps, f)| + |Needs(ps, f)| + |Filter(Filtered(ps, f), IsOther)| == |Filtered(ps, f)|
  {
    FilterPartition3(Filtered(ps, f), IsOffer, IsNeed, IsOther);
  }

  /** A shown offer as a test on posts. */
  function ShownOfferBy(f: Filters): Post -> bool {
    p => Shown(p, f) && IsOffer(p)
  }

  /** The offer list is the loaded posts that pass the filters and are offers, in order. */
  lemma OffersInOrder(ps: seq<Post>, f: Filters)
    ensures Offers(ps, f) == Filter(ps, ShownOfferBy(f))
  {
    FilterFilter(ps, ShownBy(f), IsOffer, ShownOfferBy(f));
  }

  /** Choosing the need type empties the offer tab. */
  lemma NeedTypeEmptiesOffers(ps: seq<Post>, f: Filters)
    requires f.kind == NeedKind
    ensures Offers(ps, f) == []
  {
  }

  /** Each post's location is listed exactly once. */
  lemma LocationListedOnce(ps: seq<Post>, k: nat)
    requires k < |ps|
    ensures exists i :: 0 <= i < |Locations(ps)| && Locations(ps)[i] == ps[k].location
    ensures forall i, j :: 0 <= i < j < |Locations(ps)| ==> Locations(ps)[i] != Locations(ps)[j]
  {
    assert ps[k].location in Locations(ps);
  }
}

=== FILE: ledger.dfy ===
/** The time-credit ledger: one balance per account, in hundredths of an hour
    (a balance of 5.00 hours is 500). */
module Ledger {
  import opened Wrappers

  type AccountId = nat

  /** Hours in hundredths. */
  type Hours = int

  type Ledger = map<AccountId, Hours>

  datatype LedgerError = AccountNotFound | InsufficientBalance

  /** The validated range of a profile balance: 0.00 to 10.00 hours. */
  const MinBalance: Hours := 0
  const MaxBalance: Hours := 1000

  predicate ValidBalance(b: Hours) {
    MinBalance <= b <= MaxBalance
  }

  /** A decimal field with five digits, two of them after the point, holds at most 999.99. */
  predicate FitsDecimal5_2(b: Hours) {
    -99999 <= b <= 99999
  }

  /** Every balance of the ledger is in the validated range. */
  predicate AllValid(l: Ledger) {
    forall a :: a in l ==> ValidBalance(l[a])
  }

  /** Takes `amount` from `a`; fails rather than let the balance go below zero. */
  function Debit(l: Ledger, a: AccountId, amount: nat): (r: Result<Ledger, LedgerError>)
    ensures r.Err? <==> a !in l || l[a] < amount
    ensures r.Err? ==> r.error == (if a !in l then AccountNotFound else InsufficientBalance)
    ensures r.Ok? ==> r.value.Keys == l.Keys && r.value[a] + amount == l[a]
    ensures r.Ok? ==> forall b :: b in l && b != a ==> r.value[b] == l[b]
    ensures r.Ok? ==> r.value[a] >= MinBalance
    ensures r.Ok? && AllValid(l) ==> AllValid(r.value)
  {
    if a !in l then Err(AccountNotFound)
    else if l[a] < amount then Err(InsufficientBalance)
    else Ok(l[a := l[a] - amount])
  }

  /** Gives `amount` to `a`. Nothing caps the result: the ceiling is a validation rule,
      not part of the credit. */
  function Credit(l: Ledger, a: AccountId, amount: nat): (r: Result<Ledger, LedgerError>)
    ensures r.Err? <==> a !in l
    ensures r.Err? ==> r.error == AccountNotFound
    ensures r.Ok? ==> r.value.Keys == l.Keys && r.value[a] == l[a] + amount
    ensures r.Ok? ==> forall b :: b in l && b != a ==> r.value[b] == l[b]
    ensures r.Ok? && AllValid(l) && l[a] + amount <= MaxBalance ==> AllValid(r.value)
  {
    if a !in l then Err(AccountNotFound) else Ok(l[a := l[a] + amount])
  }

  /** Opens an account with a starting balance; an existing account is left as it is. */
  function Open(l: Ledger, a: AccountId, start: Hours): (r: Ledger)
    ensures r.Keys == l.Keys + {a}
    ensures a in l ==> r == l
    ensures a !in l ==> r[a] == start && forall b :: b in l ==> r[b] == l[b]
  {
    if a in l then l else l[a := start]
  }

  /** The sum of all balances. */
  ghost function Total(l: Ledger): Hours
    decreases |l.Keys|
  {
    if l == map[] then 0
    else
      var k :| k in l;
      l[k] + Total(l - {k})
  }

  // ---------------------------------------------------------------- lemmas

  /** Any account can be taken out of the sum first. */
  lemma {:induction false} TotalPick(l: Ledger, k: AccountId)
    requires k in l
    ensures Total(l) == l[k] + Total(l - {k})
    decreases |l.Keys|
  {
    var j :| j in l && Total(l) == l[j] + Total(l - {j});
    if j != k {
      var lj := l - {j};
      var lk := l - {k};
      assert |lj.Keys| < |l.Keys| by { assert lj.Keys < l.Keys; }
      assert |lk.Keys| < |l.Keys| by { assert lk.Keys < l.Keys; }
      TotalPick(lj, k);
      TotalPick(lk, j);
      assert lj - {k} == lk - {j};
    }
  }

  /** Changing one balance changes the sum by the difference. */
  lemma TotalUpdate(l: Ledger, a: AccountId, v: Hours)
    requires a in l
    ensures Total(l[a := v]) == Total(l) - l[a] + v
  {
    TotalPick(l[a := v], a);
    TotalPick(l, a);
    assert l[a := v] - {a} == l - {a};
  }

  /** A debit lowers the sum by exactly the amount. */
  lemma DebitTotal(l: Ledger, a: AccountId, amount: nat)
    requires Debit(l, a, amount).Ok?
    ensures Total(Debit(l, a, amount).value) == Total(l) - amount
  {
    assert Debit(l, a, amount).value == l[a := l[a] - amount];
    TotalUpdate(l, a, l[a] - amount);
  }

  /** A credit raises the sum by exactly the amount. */
  lemma CreditTotal(l: Ledger, a: AccountId, amount: nat)
    requires a in l
    ensures Total(Credit(l, a, amount).value) == Total(l) + amount
  {
    assert Credit(l, a, amount).value == l[a := l[a] + amount];
    TotalUpdate(l, a, l[a] + amount);
  }

  /** A debit followed by a credit of the same amount to the same account restores the
      ledger. */
  lemma DebitCreditCancel(l: Ledger, a: AccountId, amount: nat)
    requires Debit(l, a, amount).Ok?
    ensures Credit(Debit(l, a, amount).value, a, amount) == Ok(l)
  {
    assert Debit(l, a, amount).value[a := l[a]] == l;
  }
}

=== FILE: lifecycle.dfy ===
/** Properties of the exchange lifecycle: the reachable-state invariant, conservation of
    credits, single debit, net-zero cancellation, single transfer on completion, the
    approval order and the stability of terminal states. */
module Lifecycle {
  import opened Wrappers
  import opened Ledger
  import opened Exchange

  /** Credits on the books: every balance plus what the waiting job holds. */
  ghost function Held(w: World): Hours {
    Total(w.ledger) + Escrow(w.proposal)
  }

  /** Every transition keeps a reachable state reachable. */
  lemma StepWellFormed(w: World, ev: Event)
    requires WellFormed(w.proposal)
    requires Step(w, ev).Ok?
    ensures WellFormed(Step(w, ev).value.proposal)
  {
  }

  /** No transition creates or destroys credits: what leaves a balance sits in the job until
      the job ends, and then goes to exactly one balance. */
  lemma StepConserves(w: World, ev: Event)
    requires WellFormed(w.proposal)
    requires Step(w, ev).Ok?
    ensures Held(Step(w, ev).value) == Held(w)
  {
    var p := w.proposal;
    match ev
    case AcceptEvent =>
      if p.status == Waiting {
        DebitTotal(w.ledger, Payer(p), p.rate);
      }
    case DeclineEvent =>
    case CancelEvent =>
      if p.status == Accepted {
        CreditTotal(w.ledger, Payer(p), p.rate);
      }
    case ApproveEvent(a) =>
      var pa := p.providerApproved || a == p.provider;
      var ra := p.requesterApproved || a == p.requester;
      if pa && ra && (pa, ra) != (p.providerApproved, p.requesterApproved) {
        CreditTotal(w.ledger, Payee(p), p.rate);
      }
    case DeclineJobEvent(a, reason) =>
      CreditTotal(w.ledger, if reason == NotShowedUp then Payee(p) else Payer(p), p.rate);
  }

  /** Any run of transitions that succeeds keeps the state reachable and conserves credits. */
  lemma {:induction false} RunConserves(w: World, evs: seq<Event>)
    requires WellFormed(w.proposal)
    requires Run(w, evs).Ok?
    ensures WellFormed(Run(w, evs).value.proposal)
    ensures Held(Run(w, evs).value) == Held(w)
    decreases |evs|
  {
    if |evs| > 0 {
      StepWellFormed(w, evs[0]);
      StepConserves(w, evs[0]);
      RunConserves(Step(w, evs[0]).value, evs[1..]);
    }
  }

  /** Accepting twice debits once: the second accept is a no-op. */
  lemma AcceptIdempotent(w: World)
    requires Accept(w).Ok?
    ensures Accept(Accept(w).value) == Accept(w)
  {
  }

  /** Acceptance fails exactly when the payer's balance is below the rate (or the payer has no
      account), and then nothing is written. */
  lemma AcceptInsufficient(w: World)
    requires w.proposal.status == Waiting && Payer(w.proposal) in w.ledger
    ensures Accept(w) == Err(ExchangeError.InsufficientBalance) <==>
      w.ledger[Payer(w.proposal)] < w.proposal.rate
  {
  }

  /** Accepting and then cancelling leaves every balance where it was. */
  lemma AcceptCancelNetZero(w: World)
    requires w.proposal.status == Waiting
    requires Accept(w).Ok?
    ensures Cancel(Accept(w).value).Ok?
    ensures Cancel(Accept(w).value).value.ledger == w.ledger
    ensures Cancel(Accept(w).value).value.proposal.status == Cancelled
  {
    DebitCreditCancel(w.ledger, Payer(w.proposal), w.proposal.rate);
  }

  /** Accepting and then approving on both sides moves exactly the rate from the payer to the
      payee; no other balance changes. */
  lemma AcceptCompleteTransfer(w: World)
    requires w.proposal.status == Waiting && WellFormed(w.proposal)
    requires Accept(w).Ok?
    requires Payer(w.proposal) != Payee(w.proposal) && Payee(w.proposal) in w.ledger
    ensures SetApprovals(Accept(w).value, true, true).Ok?
    ensures var w2 := SetApprovals(Accept(w).value, true, true).value;
      && w2.proposal.status == Completed
      && w2.proposal.job.value.status == JobCompleted
      && w2.ledger.Keys == w.ledger.Keys
      && w2.ledger[Payer(w.proposal)] == w.ledger[Payer(w.proposal)] - w.proposal.rate
      && w2.ledger[Payee(w.proposal)] == w.ledger[Payee(w.proposal)] + w.proposal.rate
      && forall a :: a in w.ledger && a != Payer(w.proposal) && a != Payee(w.proposal) ==>
           w2.ledger[a] == w.ledger[a]
  {
  }

  /** The approval order, both directions: with neither flag set, the party who must go second
      is refused, and the party who may go first is not. */
  lemma ApprovalOrder(w: World)
    requires WellFormed(w.proposal) && JobIsWaiting(w.proposal)
    requires w.proposal.requester != w.proposal.provider
    requires !w.proposal.providerApproved && !w.proposal.requesterApproved
    ensures w.proposal.polarity == Offer ==>
      Approve(w, w.proposal.requester) == Err(ApprovalOrderViolation) && Approve(w, w.proposal.provider).Ok?
    ensures w.proposal.polarity == Need ==>
      Approve(w, w.proposal.provider) == Err(ApprovalOrderViolation) && Approve(w, w.proposal.requester).Ok?
  {
  }

  /** Approving in the allowed order completes the job, crediting the payee once. */
  lemma ApproveInOrderCompletes(w: World)
    requires WellFormed(w.proposal) && JobIsWaiting(w.proposal)
    requires w.proposal.requester != w.proposal.provider
    requires !w.proposal.providerApproved && !w.proposal.requesterApproved
    requires Payee(w.proposal) in w.ledger
    ensures var first := if w.proposal.polarity == Offer then w.proposal.provider else w.proposal.requester;
      var second := if w.proposal.polarity == Offer then w.proposal.requester else w.proposal.provider;
      var r := Run(w, [ApproveEvent(first), ApproveEvent(second)]);
      && r.Ok?
      && r.value.proposal.status == Completed
      && r.value.ledger == w.ledger[Payee(w.proposal) := w.ledger[Payee(w.proposal)] + w.proposal.rate]
  {
    var p := w.proposal;
    var first := if p.polarity == Offer then p.provider else p.requester;
    var second := if p.polarity == Offer then p.requester else p.provider;
    var w1 := Approve(w, first).value;
    assert w1.ledger == w.ledger;
    assert Run(w, [ApproveEvent(first), ApproveEvent(second)]) == Run(w1, [ApproveEvent(second)]);
    assert Run(w1, [ApproveEvent(second)]) == Approve(w1, second);
  }

  /** Approving twice is a no-op the second time. */
  lemma ApproveIdempotent(w: World, actor: AccountId)
    requires Approve(w, actor).Ok?
    ensures Approve(Approve(w, actor).value, actor) == Approve(w, actor)
  {
  }

  /** Flags are only ever turned on, and a finished job never changes again. */
  lemma StepMonotone(w: World, ev: Event)
    requires WellFormed(w.proposal)
    requires Step(w, ev).Ok?
    ensures var p2 := Step(w, ev).value.proposal;
      && (w.proposal.providerApproved ==> p2.providerApproved)
      && (w.proposal.requesterApproved ==> p2.requesterApproved)
      && (w.proposal.job.Some? ==> p2.job.Some?)
      && (w.proposal.job.Some? && !JobIsWaiting(w.proposal) ==> p2.job == w.proposal.job)
  {
  }

  /** A proposal that is declined, completed or cancelled stays exactly as it is: every
      transition on it either fails or changes nothing. */
  lemma TerminalStable(w: World, ev: Event)
    requires WellFormed(w.proposal)
    requires w.proposal.status in {Declined, Completed, Cancelled}
    ensures Step(w, ev).Err? || Step(w, ev) == Ok(w)
  {
  }

  /** The decline path with `not_showed_up` never refunds the payer; with any other reason
      the payer gets exactly the rate back. */
  lemma DeclineJobOutcome(w: World, actor: AccountId, reason: Reason)
    requires DeclineJob(w, actor, reason).Ok?
    requires Payer(w.proposal) != Payee(w.proposal)
    requires Payer(w.proposal) in w.ledger && Payee(w.proposal) in w.ledger
    ensures var l2 := DeclineJob(w, actor, reason).value.ledger;
      reason == NotShowedUp ==>
        l2[Payer(w.proposal)] == w.ledger[Payer(w.proposal)]
        && l2[Payee(w.proposal)] == w.ledger[Payee(w.proposal)] + w.proposal.rate
    ensures var l2 := DeclineJob(w, actor, reason).value.ledger;
      reason == OtherReason ==>
        l2[Payer(w.proposal)] == w.ledger[Payer(w.proposal)] + w.proposal.rate
        && l2[Payee(w.proposal)] == w.ledger[Payee(w.proposal)]
  {
  }

  /** After the decline path the proposal cannot be cancelled or completed any more, so the
      staked rate is paid out only once. */
  lemma DeclineJobFinal(w: World, actor: AccountId, reason: Reason)
    requires WellFormed(w.proposal)
    requires DeclineJob(w, actor, reason).Ok?
    ensures var w2 := DeclineJob(w, actor, reason).value;
      && w2.proposal.status == Accepted
      && Cancel(w2) == Err(NoWaitingJob)
      && forall a :: Approve(w2, a).Err? || Approve(w2, a) == Ok(w2)
  {
  }
}

=== FILE: myprofile.dfy ===
/** The profile page's local rules: the password form's checks, the interest-tag editor
    and the avatar file check. Saving goes to the server and is not part of this module. */
module MyProfile {
  import opened Wrappers
  import opened Strings
  import opened Seqs

  const MinPasswordLength := 8
  const MaxAvatarBytes := 5 * 1024 * 1024
  const ImagePrefix := "image/"

  datatype PasswordError = Mismatch | TooShort

  /** `handleSavePassword`'s checks: a mismatch is reported first, then a short password;
      `None` lets the save go ahead. */
  function CheckPassword(newPassword: string, confirm: string): (r: Option<PasswordError>)
    ensures r == Some(Mismatch) <==> newPassword != confirm
    ensures r == Some(TooShort) <==> newPassword == confirm && |newPassword| < MinPasswordLength
    ensures r.None? <==> newPassword == confirm && |newPassword| >= MinPasswordLength
  {
    if newPassword != confirm then Some(Mismatch)
    else if |newPassword| < MinPasswordLength then Some(TooShort)
    else None
  }

  /** A tag the page loaded. */
  datatype TagRef = TagRef(id: nat, name: string)

  /** The interest editor: the selected tag ids and the text box. */
  datatype Interests = Interests(selected: seq<nat>, input: string)

  /** The interests after an add, and whether the "tag not found" error was shown. */
  datatype AddResult = AddResult(after: Interests, error: bool)

  /** The loaded tag whose name equals the typed text, ignoring case and the text's
      surrounding space. */
  function Lookup(tags: seq<TagRef>, input: string): (r: Option<TagRef>)
    ensures r.Some? ==> r.value in tags && Lower(r.value.name) == Lower(Trim(input))
    ensures r.None? <==> forall i :: 0 <= i < |tags| ==> Lower(tags[i].name) != Lower(Trim(input))
  {
    Find(tags, (t: TagRef) => Lower(t.name) == Lower(Trim(input)))
  }

  /** `handleAddInterest`. */
  function AddInterest(tags: seq<TagRef>, form: Interests): (r: AddResult)
    ensures Lookup(tags, form.input).Some? && Lookup(tags, form.input).value.id !in form.selected ==>
      r == AddResult(Interests(form.selected + [Lookup(tags, form.input).value.id], ""), false)
    ensures Lookup(tags, form.input).None? || Lookup(tags, form.input).value.id in form.selected ==>
      r.after == form && (r.error <==> Trim(form.input) != "")
  {
    match Lookup(tags, form.input)
    case Some(t) =>
      if t.id !in form.selected then AddResult(Interests(form.selected + [t.id], ""), false)
      else AddResult(form, Trim(form.input) != "")
    case None => AddResult(form, Trim(form.input) != "")
  }

  /** The tags offered as click-to-add badges: those not yet selected. */
  function Badges(tags: seq<TagRef>, selected: seq<nat>): (r: seq<TagRef>)
    ensures forall i :: 0 <= i < |r| ==> r[i] in tags && r[i].id !in selected
    ensures forall i :: 0 <= i < |tags| && tags[i].id !in selected ==> tags[i] in r
  {
    Filter(tags, (t: TagRef) => t.id !in selected)
  }

  /** Clicking a badge appends its tag. */
  function ClickBadge(selected: seq<nat>, t: TagRef): (r: seq<nat>)
    ensures |r| == |selected| + 1 && r[..|selected|] == selected && r[|selected|] == t.id
  {
    selected + [t.id]
  }

  /** `handleRemoveInterest`: the id is gone and the others stay in order. */
  function RemoveInterest(selected: seq<nat>, id: nat): (r: seq<nat>)
    ensures id !in r
    ensures forall x :: x in r <==> x in selected && x != id
  {
    Filter(selected, x => x != id)
  }

  /** `getTagNameById`: the name of the first loaded tag with the id, else the empty
      string. */
  function TagNameById(tags: seq<TagRef>, id: nat): (r: string)
    ensures (forall i :: 0 <= i < |tags| ==> tags[i].id != id) ==> r == ""
    ensures (exists i :: 0 <= i < |tags| && tags[i].id == id) ==>
      exists i :: 0 <= i < |tags| && tags[i].id == id && r == tags[i].name
  {
    match Find(tags, (t: TagRef) => t.id == id)
    case Some(t) => t.name
    case None => ""
  }

  datatype AvatarError = NotImage | TooLarge

  /** `handleFileSelect`'s checks on a chosen file: the type first, then the size; `None`
      accepts the file for the preview. */
  function CheckAvatar(mimeType: string, size: nat): (r: Option<AvatarError>)
    ensures r == Some(NotImage) <==> !StartsWith(mimeType, ImagePrefix)
    ensures r == Some(TooLarge) <==> StartsWith(mimeType, ImagePrefix) && size > MaxAvatarBytes
    ensures r.None? <==> StartsWith(mimeType, ImagePrefix) && size <= MaxAvatarBytes
  {
    if !StartsWith(mimeType, ImagePrefix) then Some(NotImage)
    else if size > MaxAvatarBytes then Some(TooLarge)
    else None
  }

  // ---------------------------------------------------------------- lemmas

  /** The typed add never selects a tag twice. */
  lemma AddKeepsDistinct(tags: seq<TagRef>, form: Interests)
    requires NoDuplicates(form.selected)
    ensures NoDuplicates(AddInterest(tags, form).after.selected)
  {
  }

  /** Nor does clicking any offered badge. */
  lemma BadgeKeepsDistinct(tags: seq<TagRef>, selected: seq<nat>, i: nat)
    requires NoDuplicates(selected) && i < |Badges(tags, selected)|
    ensures NoDuplicates(ClickBadge(selected, Badges(tags, selected)[i]))
  {
  }

  /** Typing a known tag's name in any case, with surrounding space, selects it. */
  lemma AddFindsAnyCase(tags: seq<TagRef>, form: Interests, k: nat)
    requires k < |tags| && Lower(tags[k].name) == Lower(Trim(form.input))
    requires forall i :: 0 <= i < |tags| ==> tags[i].id !in form.selected
    ensures !AddInterest(tags, form).error
    ensures |AddInterest(tags, form).after.selected| == |form.selected| + 1
    ensures AddInterest(tags, form).after.input == ""
  {
    assert Lookup(tags, form.input).Some?;
  }

  /** A blank box adds nothing and reports nothing unless it names a tag. */
  lemma BlankInputQuiet(tags: seq<TagRef>, form: Interests)
    requires Trim(form.input) == "" && Lookup(tags, form.input).None?
    ensures AddInterest(tags, form) == AddResult(form, false)
  {
  }

  /** Removing a just-added tag gives back the previous selection. */
  lemma RemoveUndoesAdd(selected: seq<nat>, id: nat)
    requires id !in selected
    ensures RemoveInterest(selected + [id], id) == selected
  {
    FilterSnoc(selected, id, x => x != id);
  }

  /** Removing an id from anywhere in the list keeps the ids before it and after it in
      their order; with the id there only once, exactly those ids remain. */
  lemma RemoveKeepsOrder(before: seq<nat>, id: nat, after: seq<nat>)
    ensures RemoveInterest(before + [id] + after, id) == RemoveInterest(before, id) + RemoveInterest(after, id)
    ensures id !in before && id !in after ==> RemoveInterest(before + [id] + after, id) == before + after
  {
    FilterAppend(before + [id], after, x => x != id);
    FilterSnoc(before, id, x => x != id);
  }

  /** The avatar limit is five mebibytes inclusive. */
  lemma AvatarBoundary()
    ensures CheckAvatar("image/png", MaxAvatarBytes) == None
    ensures CheckAvatar("image/png", MaxAvatarBytes + 1) == Some(TooLarge)
    ensures CheckAvatar("text/plain", 10) == Some(NotImage)
  {
    assert ("image/png")[..6] == ImagePrefix;
    assert ("text/plain")[0] != ImagePrefix[0];
  }
}

=== FILE: negotiation.dfy ===
/** The negotiation page's local list of proposals: a counter-proposal supersedes every
    pending entry and is appended, and accepting or rejecting rewrites the status of the
    entry with the given id. Entries are numbered `p1`, `p2`, ... in order. */
module Negotiation {
  import opened Wrappers
  import opened Strings
  import Seqs

  type UserId = nat

  /** One proposal in the negotiation; `hours` in hundredths. */
  datatype Entry = Entry(
    id: string,
    fromUserId: UserId,
    hours: int,
    date: string,
    time: string,
    location: string,
    notes: string,
    status: string)

  /** The counter-proposal form. */
  datatype Draft = Draft(hours: int, date: string, time: string, location: string, notes: string)

  /** The id the page gives the entry at 1-based position `n`. */
  function EntryId(n: nat): string {
    "p" + NatToString(n)
  }

  /** The proposal waiting for this user's answer: the first pending one from someone else. */
  function PendingFor(ps: seq<Entry>, me: UserId): (r: Option<Entry>)
    ensures r.Some? ==> r.value in ps && r.value.status == "pending" && r.value.fromUserId != me
    ensures r.None? <==> forall i :: 0 <= i < |ps| ==> !(ps[i].status == "pending" && ps[i].fromUserId != me)
  {
    Seqs.Find(ps, (e: Entry) => e.status == "pending" && e.fromUserId != me)
  }

  /** A pending entry becomes countered; any other entry is kept as it is. */
  function Supersede(e: Entry): Entry {
    if e.status == "pending" then e.(status := "countered") else e
  }

  /** Every pending entry marked countered, all else kept, order and length unchanged. */
  function SupersedeAll(ps: seq<Entry>): (r: seq<Entry>)
    ensures |r| == |ps|
    ensures forall i :: 0 <= i < |ps| ==> r[i] == Supersede(ps[i])
    decreases |ps|
  {
    if |ps| == 0 then [] else SupersedeAll(ps[..|ps| - 1]) + [Supersede(ps[|ps| - 1])]
  }

  /** Sending a counter-proposal: without both a date and a time nothing changes; otherwise
      pending entries are superseded and the new one is appended, already countered. */
  function SubmitCounter(ps: seq<Entry>, me: UserId, d: Draft): (r: seq<Entry>)
    ensures d.date == "" || d.time == "" ==> r == ps
    ensures d.date != "" && d.time != "" ==>
      && |r| == |ps| + 1
      && r[..|ps|] == SupersedeAll(ps)
      && r[|ps|] == Entry(EntryId(|ps| + 1), me, d.hours, d.date, d.time, d.location, d.notes, "countered")
  {
    if d.date == "" || d.time == "" then ps
    else SupersedeAll(ps) + [Entry(EntryId(|ps| + 1), me, d.hours, d.date, d.time, d.location, d.notes, "countered")]
  }

  /** Every entry whose id is `id` gets `status`; the rest are kept. */
  function SetStatus(ps: seq<Entry>, id: string, status: string): (r: seq<Entry>)
    ensures |r| == |ps|
    ensures forall i :: 0 <= i < |ps| ==> r[i] == (if ps[i].id == id then ps[i].(status := status) else ps[i])
    decreases |ps|
  {
    if |ps| == 0 then []
    else
      var last := ps[|ps| - 1];
      SetStatus(ps[..|ps| - 1], id, status) + [if last.id == id then last.(status := status) else last]
  }

  /** Accepting an entry marks every entry with that id accepted and leaves the rest. */
  function AcceptEntry(ps: seq<Entry>, id: string): (r: seq<Entry>)
    ensures |r| == |ps|
    ensures forall i :: 0 <= i < |ps| && ps[i].id == id ==> r[i].status == "accepted" && r[i].id == id
    ensures forall i :: 0 <= i < |ps| && ps[i].id != id ==> r[i] == ps[i]
  {
    SetStatus(ps, id, "accepted")
  }

  /** Rejecting an entry marks every entry with that id rejected and leaves the rest. */
  function RejectEntry(ps: seq<Entry>, id: string): (r: seq<Entry>)
    ensures |r| == |ps|
    ensures forall i :: 0 <= i < |ps| && ps[i].id == id ==> r[i].status == "rejected" && r[i].id == id
    ensures forall i :: 0 <= i < |ps| && ps[i].id != id ==> r[i] == ps[i]
  {
    SetStatus(ps, id, "rejected")
  }

  /** The numbering the page's ids follow. */
  predicate Numbered(ps: seq<Entry>) {
    forall i :: 0 <= i < |ps| ==> ps[i].id == EntryId(i + 1)
  }

  // ---------------------------------------------------------------- lemmas

  /** After a counter-proposal nothing is pending any more, so nothing awaits an answer. */
  lemma SubmitClearsPending(ps: seq<Entry>, me: UserId, d: Draft)
    requires d.date != "" && d.time != ""
    ensures var r := SubmitCounter(ps, me, d);
      && (forall i :: 0 <= i < |r| ==> r[i].status != "pending")
      && PendingFor(r, me).None?
  {
    var r := SubmitCounter(ps, me, d);
    forall i | 0 <= i < |r| ensures r[i].status != "pending" {
      if i < |ps| {
        assert r[i] == r[..|ps|][i];
      }
    }
  }

  /** A counter-proposal changes nothing but statuses, and only from pending to countered. */
  lemma SubmitOnlySupersedes(ps: seq<Entry>, me: UserId, d: Draft, i: nat)
    requires d.date != "" && d.time != "" && i < |ps|
    ensures var r := SubmitCounter(ps, me, d);
      && r[i].(status := ps[i].status) == ps[i]
      && (r[i].status != ps[i].status ==> ps[i].status == "pending" && r[i].status == "countered")
  {
    var r := SubmitCounter(ps, me, d);
    assert r[i] == r[..|ps|][i];
  }

  /** Every operation keeps the `p1`, `p2`, ... numbering. */
  lemma NumberingKept(ps: seq<Entry>, me: UserId, d: Draft, id: string, status: string)
    requires Numbered(ps)
    ensures Numbered(SubmitCounter(ps, me, d))
    ensures Numbered(SetStatus(ps, id, status))
  {
    var r := SubmitCounter(ps, me, d);
    if d.date != "" && d.time != "" {
      forall i | 0 <= i < |r| ensures r[i].id == EntryId(i + 1) {
        if i < |ps| {
          assert r[i] == r[..|ps|][i];
        }
      }
    }
  }

  /** Numbered entries have distinct ids. */
  lemma NumberedUnique(ps: seq<Entry>, i: nat, j: nat)
    requires Numbered(ps) && i < j < |ps|
    ensures ps[i].id != ps[j].id
  {
    if ps[i].id == ps[j].id {
      assert NatToString(i + 1) == ps[i].id[1..];
      assert NatToString(j + 1) == ps[j].id[1..];
      NatToStringInjective(i + 1, j + 1);
    }
  }

  /** On a numbered list accepting `pk` accepts entry k and leaves every other entry as it
      was; rejecting likewise. */
  lemma AcceptRejectOnlyTarget(ps: seq<Entry>, k: nat, j: nat)
    requires Numbered(ps) && k < |ps| && j < |ps| && j != k
    ensures AcceptEntry(ps, ps[k].id)[k] == ps[k].(status := "accepted")
    ensures RejectEntry(ps, ps[k].id)[k] == ps[k].(status := "rejected")
    ensures AcceptEntry(ps, ps[k].id)[j] == ps[j]
    ensures RejectEntry(ps, ps[k].id)[j] == ps[j]
  {
    if j < k { NumberedUnique(ps, j, k); } else { NumberedUnique(ps, k, j); }
  }

  /** An id that names no entry changes nothing. */
  lemma UnknownIdNoChange(ps: seq<Entry>, id: string, status: string)
    requires forall i :: 0 <= i < |ps| ==> ps[i].id != id
    ensures SetStatus(ps, id, status) == ps
  {
  }
}

=== FILE: notes.dfy ===
/** The proposal notes codec of the proposal and proposal-review pages: the meeting
    location and time travel inside the free-text `notes` field as `Location:` and
    `Time:` lines and are parsed back out for display. */
module Notes {
  import opened Wrappers
  import opened Strings

  const LocationTag := "Location:"
  const TimeTag := "Time:"

  /** The decoded view of a notes string. */
  datatype Decoded = Decoded(location: string, time: string, notes: string)

  /** A line that carries a field rather than free text. */
  predicate IsTagged(line: string) {
    StartsWith(line, LocationTag) || StartsWith(line, TimeTag)
  }

  /** Free text that the codec can carry unambiguously: no line of it looks like a field. */
  predicate PlainNotes(n: string) {
    forall i :: 0 <= i < |Lines(n)| ==> !IsTagged(Lines(n)[i])
  }

  /** Prepends `tag v` as its own line and trims, as the submit handlers do. */
  function Prepend(tag: string, v: string, body: string): string {
    Trim(tag + " " + v + "\n" + body)
  }

  /** Builds the `notes` payload from the form's location, time and notes. */
  function Encode(location: string, time: string, notes: string): (r: string)
    ensures location == "" && time == "" ==> r == notes
  {
    var withTime := if time != "" then Prepend(TimeTag, time, notes) else notes;
    if location != "" then Prepend(LocationTag, location, withTime) else withTime
  }

  /** The first line starting with `tag`, if any: `lines.find(l => l.startsWith(tag))`. */
  function FirstWith(lines: seq<string>, tag: string): (r: Option<string>)
    ensures r.Some? ==> r.value in lines && StartsWith(r.value, tag)
    ensures r.None? ==> forall i :: 0 <= i < |lines| ==> !StartsWith(lines[i], tag)
  {
    if |lines| == 0 then None
    else if StartsWith(lines[0], tag) then Some(lines[0])
    else FirstWith(lines[1..], tag)
  }

  /** The lines that are free text, in order. */
  function FreeLines(lines: seq<string>): (r: seq<string>)
    ensures forall i :: 0 <= i < |r| ==> r[i] in lines && !IsTagged(r[i])
  {
    if |lines| == 0 then []
    else if IsTagged(lines[0]) then FreeLines(lines[1..])
    else [lines[0]] + FreeLines(lines[1..])
  }

  /** The trimmed remainder of the first `tag` line, or `''`. */
  function Field(notes: string, tag: string): string {
    match FirstWith(Lines(notes), tag)
    case None => ""
    case Some(line) => Trim(line[|tag|..])
  }

  /** The free-text lines rejoined and trimmed. */
  function FreeText(notes: string): string {
    Trim(Join(FreeLines(Lines(notes)), '\n'))
  }

  /** Splits a stored notes string into location, time and free-text notes. */
  function Decode(notes: string): (r: Decoded)
    ensures (forall i :: 0 <= i < |Lines(notes)| ==> !StartsWith(Lines(notes)[i], LocationTag)) ==> r.location == ""
    ensures (forall i :: 0 <= i < |Lines(notes)| ==> !StartsWith(Lines(notes)[i], TimeTag)) ==> r.time == ""
  {
    Decoded(Field(notes, LocationTag), Field(notes, TimeTag), FreeText(notes))
  }

  // ---------------------------------------------------------------- lemmas

  lemma {:induction false} FreeLinesIdentity(lines: seq<string>)
    requires forall i :: 0 <= i < |lines| ==> !IsTagged(lines[i])
    ensures FreeLines(lines) == lines
  {
    if |lines| > 0 {
      FreeLinesIdentity(lines[1..]);
    }
  }

  /** No line of a trimmed-end notes text is tagged when none of the original is. */
  lemma PlainNotesTrimEnd(n: string)
    requires PlainNotes(n)
    ensures PlainNotes(TrimEnd(n))
  {
    var r := TrimEnd(n);
    assert r == n[..|r|];
    LinesOfPrefix(n, |r|);
    forall i | 0 <= i < |Lines(r)| ensures !IsTagged(Lines(r)[i]) {
      if StartsWith(Lines(r)[i], LocationTag) {
        StartsWithTrans(Lines(n)[i], Lines(r)[i], LocationTag);
      }
      if StartsWith(Lines(r)[i], TimeTag) {
        StartsWithTrans(Lines(n)[i], Lines(r)[i], TimeTag);
      }
    }
  }

  /** The first line written by `Prepend`: it starts with the tag, holds no newline and
      decodes to the trimmed value. */
  predicate FieldLine(line: string, tag: string, v: string) {
    && StartsWith(line, tag)
    && '\n' !in line
    && Trim(line[|tag|..]) == Trim(v)
  }

  /** What the proofs need of a tag: single-line text with non-space ends. */
  predicate GoodTag(tag: string) {
    |tag| > 0 && !IsSpace(tag[0]) && !IsSpace(tag[|tag| - 1]) && '\n' !in tag
  }

  lemma GoodTags()
    ensures GoodTag(LocationTag) && GoodTag(TimeTag)
    ensures LocationTag[0] != TimeTag[0]
  {
  }

  /** Trimming the end of a tag line leaves the tag whole: only the value part shrinks. */
  lemma TagLineShape(tag: string, v: string)
    requires GoodTag(tag)
    ensures TrimEnd(tag + " " + v) == tag + TrimEnd(" " + v)
  {
    assert tag + " " + v == tag + (" " + v);
    TrimEndAppend(tag, " " + v);
    TrimEndNonSpace(tag);
    assert tag + "" == tag;
  }

  /** The space after the tag and the spaces the end-trim removes do not change the value. */
  lemma TrimmedValue(v: string)
    ensures Trim(TrimEnd(" " + v)) == Trim(v)
  {
    TrimOfTrimEnd(" " + v);
    assert " " + v == [' '] + v;
    TrimSkipsLeadingSpace(' ', v);
  }

  /** `tag + " " + v` with its end trimmed is a field line beginning with the tag. */
  lemma {:induction false} TagLineDecodes(tag: string, v: string)
    requires GoodTag(tag)
    requires '\n' !in v
    ensures FieldLine(TrimEnd(tag + " " + v), tag, v)
    ensures |TrimEnd(tag + " " + v)| >= |tag| && TrimEnd(tag + " " + v)[0] == tag[0]
  {
    var line := tag + " " + v;
    var t := TrimEnd(line);
    var e := TrimEnd(" " + v);
    TagLineShape(tag, v);
    TrimmedValue(v);
    assert t == tag + e;
    assert t[|tag|..] == e;
    assert t[..|tag|] == tag;
    TagLineSingle(tag, v);
    forall i | 0 <= i < |t| ensures t[i] != '\n' {
      assert t[i] == line[i];
    }
  }

  /** A tag line holds no newline when neither the tag nor the value does. */
  lemma {:induction false} TagLineSingle(tag: string, v: string)
    requires GoodTag(tag) && '\n' !in v
    ensures '\n' !in tag + " " + v
  {
    var line := tag + " " + v;
    forall i | 0 <= i < |line| ensures line[i] != '\n' {
      if i < |tag| { assert line[i] == tag[i]; }
      else if i > |tag| { assert line[i] == v[i - |tag| - 1]; }
    }
  }

  /** With a blank body, `Prepend` writes only the end-trimmed tag line. */
  lemma {:induction false} PrependBlank(tag: string, v: string, body: string)
    requires GoodTag(tag) && '\n' !in v
    requires TrimEnd(body) == ""
    ensures Prepend(tag, v, body) == TrimEnd(tag + " " + v)
  {
    var line := tag + " " + v;
    TagLineDecodes(tag, v);
    TrimEndAppend(line + "\n", body);
    TrimEndAppend(line, "\n");
    assert TrimEnd("\n") == "";
    TrimStartNonSpace(TrimEnd(line));
  }

  /** Otherwise it writes the whole tag line, a newline and the end-trimmed body. */
  lemma {:induction false} PrependNonBlank(tag: string, v: string, body: string)
    requires GoodTag(tag) && '\n' !in v
    requires TrimEnd(body) != ""
    ensures Prepend(tag, v, body) == tag + " " + v + "\n" + TrimEnd(body)
  {
    var line := tag + " " + v;
    var whole := line + "\n" + TrimEnd(body);
    TrimEndAppend(line + "\n", body);
    assert TrimEnd(line + "\n" + body) == whole;
    assert whole[0] == tag[0];
    TrimStartNonSpace(whole);
  }

  /** The whole tag line is a field line too. */
  lemma {:induction false} WholeTagLine(tag: string, v: string)
    requires GoodTag(tag) && '\n' !in v
    ensures FieldLine(tag + " " + v, tag, v)
  {
    var line := tag + " " + v;
    TagLineSingle(tag, v);
    assert line[|tag|..] == [' '] + v;
    TrimSkipsLeadingSpace(' ', v);
    assert line[..|tag|] == tag;
  }

  /** The layout `Prepend` produces: a field line, then the lines of the trimmed body. */
  predicate PrependLayout(p: string, tag: string, v: string, body: string) {
    && |tag| > 0
    && TrimEnd(p) == p
    && FieldLine(Lines(p)[0], tag, v)
    && |Lines(p)[0]| >= |tag| && Lines(p)[0][0] == tag[0]
    && Lines(p)[1..] == (if TrimEnd(body) == "" then [] else Lines(TrimEnd(body)))
  }

  lemma {:induction false} PrependShapeBlank(tag: string, v: string, body: string)
    requires GoodTag(tag) && '\n' !in v
    requires TrimEnd(body) == ""
    ensures PrependLayout(Prepend(tag, v, body), tag, v, body)
  {
    var p := Prepend(tag, v, body);
    TagLineDecodes(tag, v);
    PrependBlank(tag, v, body);
    TrimEndIdempotent(tag + " " + v);
    LinesSingle(p);
    assert Lines(p)[0] == p;
  }

  lemma {:induction false} PrependShapeNonBlank(tag: string, v: string, body: string)
    requires GoodTag(tag) && '\n' !in v
    requires TrimEnd(body) != ""
    ensures PrependLayout(Prepend(tag, v, body), tag, v, body)
  {
    var line := tag + " " + v;
    var rest := TrimEnd(body);
    var p := Prepend(tag, v, body);
    PrependNonBlank(tag, v, body);
    assert p == line + "\n" + rest;
    TrimEndIdempotent(body);
    TrimEndAppend(line + "\n", rest);
    assert TrimEnd(p) == p;
    TagLineSingle(tag, v);
    LinesCons(line, rest);
    assert Lines(p)[0] == line;
    assert Lines(p)[1..] == Lines(rest);
    WholeTagLine(tag, v);
  }

  /** The shape of `Prepend(tag, v, body)`. */
  lemma PrependShape(tag: string, v: string, body: string)
    requires GoodTag(tag) && '\n' !in v
    ensures PrependLayout(Prepend(tag, v, body), tag, v, body)
  {
    if TrimEnd(body) == "" {
      PrependShapeBlank(tag, v, body);
    } else {
      PrependShapeNonBlank(tag, v, body);
    }
  }

  /** Decoding lines whose first line is a field line for `tag` and not for `other`. */
  lemma DecodeCons(lines: seq<string>, tag: string, other: string)
    requires |lines| > 0 && IsTagged(lines[0])
    requires StartsWith(lines[0], tag) && !StartsWith(lines[0], other)
    ensures FirstWith(lines, tag) == Some(lines[0])
    ensures FreeLines(lines) == FreeLines(lines[1..])
    ensures FirstWith(lines, other) == FirstWith(lines[1..], other)
  {
  }

  /** Decoding free text alone. */
  lemma DecodePlain(n: string)
    requires PlainNotes(n)
    ensures Decode(n) == Decoded("", "", Trim(n))
  {
    FreeLinesIdentity(Lines(n));
    JoinLines(n);
  }

  /** Decoding free text whose end was trimmed. */
  lemma DecodePlainTrimEnd(n: string)
    requires PlainNotes(n)
    ensures Decode(TrimEnd(n)) == Decoded("", "", Trim(n))
  {
    PlainNotesTrimEnd(n);
    DecodePlain(TrimEnd(n));
    TrimOfTrimEnd(n);
  }

  /** Decoding lines headed by a field line for `tag`: the field comes from the head, and
      the other field and the free text come from the lines after it. */
  lemma DecodeHeaded(lines: seq<string>, tag: string, other: string, v: string)
    requires |lines| > 0 && |tag| > 0 && |other| > 0 && tag[0] != other[0]
    requires tag == LocationTag || tag == TimeTag
    requires FieldLine(lines[0], tag, v) && lines[0][0] == tag[0]
    ensures FirstWith(lines, tag) == Some(lines[0])
    ensures FirstWith(lines, other) == FirstWith(lines[1..], other)
    ensures FreeLines(lines) == FreeLines(lines[1..])
  {
    assert IsTagged(lines[0]);
    NotOtherTag(lines[0], tag, other);
    DecodeCons(lines, tag, other);
  }

  /** A blank text has neither field nor free text, whether split into one empty line or none. */
  lemma DecodeBlank(other: string)
    requires |other| > 0
    ensures Field("", other) == "" && FirstWith([], other).None?
    ensures FreeText("") == Trim(Join(FreeLines([]), '\n'))
  {
    assert Lines("") == [""];
    assert !StartsWith("", other);
    assert !IsTagged("");
    assert FreeLines([""]) == [""];
  }

  /** A text behind a prepended field line decodes like the end-trimmed body, except for the
      prepended field itself. */
  lemma {:induction false} DecodePrepended(tag: string, other: string, v: string, body: string)
    requires GoodTag(tag) && '\n' !in v
    requires tag == LocationTag || tag == TimeTag
    requires |other| > 0 && tag[0] != other[0]
    ensures Field(Prepend(tag, v, body), tag) == Trim(v)
    ensures Field(Prepend(tag, v, body), other) == Field(TrimEnd(body), other)
    ensures FreeText(Prepend(tag, v, body)) == FreeText(TrimEnd(body))
  {
    var p := Prepend(tag, v, body);
    PrependShape(tag, v, body);
    var lines := Lines(p);
    DecodeHeaded(lines, tag, other, v);
    assert Field(p, tag) == Trim(v);
    if TrimEnd(body) == "" {
      assert lines[1..] == [];
      DecodeBlank(other);
    } else {
      assert lines[1..] == Lines(TrimEnd(body));
    }
  }

  /** A line that begins with one tag's first character does not start with another tag. */
  lemma NotOtherTag(line: string, tag: string, other: string)
    requires |line| > 0 && |tag| > 0 && |other| > 0
    requires line[0] == tag[0] && tag[0] != other[0]
    ensures !StartsWith(line, other)
  {
  }

  /** Round trip: with single-line location and time and free text that has no field-like
      line, decoding the encoded notes yields the trimmed inputs. */
  lemma {:induction false} RoundTrip(location: string, time: string, notes: string)
    requires '\n' !in location && '\n' !in time
    requires PlainNotes(notes)
    ensures Decode(Encode(location, time, notes)) == Decoded(Trim(location), Trim(time), Trim(notes))
  {
    GoodTags();
    DecodePlainTrimEnd(notes);
    if time == "" && location == "" {
      DecodePlain(notes);
    } else if time == "" {
      DecodePrepended(LocationTag, TimeTag, location, notes);
    } else if location == "" {
      DecodePrepended(TimeTag, LocationTag, time, notes);
    } else {
      var withTime := Prepend(TimeTag, time, notes);
      DecodePrepended(TimeTag, LocationTag, time, notes);
      PrependShape(TimeTag, time, notes);
      assert TrimEnd(withTime) == withTime;
      DecodePrepended(LocationTag, TimeTag, location, withTime);
    }
  }
}

=== FILE: notifications.dfy ===
/** The polling notification service's bookkeeping: subscriber lists, the skip rules of a
    check, the "new items" notice computed from successive counts, and start, stop and
    reset. Timers, the page-visibility event, HTTP and aborts are left to the caller: a
    check here is one completed poll whose answer is a parameter. Callbacks are named by
    numbers. */
module Notifications {
  import opened Wrappers
  import opened Seqs

  datatype Kind = ProposalsKind | MessagesKind | BalanceKind

  /** One value per kind. */
  datatype PerKind<T> = PerKind(proposals: T, messages: T, balance: T) {
    function Get(k: Kind): T {
      match k
      case ProposalsKind => proposals
      case MessagesKind => messages
      case BalanceKind => balance
    }

    function Set(k: Kind, v: T): (r: PerKind<T>)
      ensures r.Get(k) == v
      ensures forall j :: j != k ==> r.Get(j) == Get(j)
    {
      match k
      case ProposalsKind => this.(proposals := v)
      case MessagesKind => this.(messages := v)
      case BalanceKind => this.(balance := v)
    }
  }

  /** The service: whether it polls and for whom, whether the page is visible, which
      kinds have a request in flight or a timer set, the subscribers, the last counts
      seen and the last balance seen (hundredths of an hour, `None` before the first). */
  datatype Service = Service(
    running: bool,
    user: Option<nat>,
    pageVisible: bool,
    pending: PerKind<bool>,
    timers: PerKind<bool>,
    subscribers: PerKind<seq<nat>>,
    lastProposals: nat,
    lastMessages: nat,
    lastBalance: Option<int>)

  const NoneOfThem := PerKind(false, false, false)

  /** The service as constructed. */
  function Initial(visible: bool): (s: Service)
    ensures !s.running && s.user.None? && s.lastProposals == 0 && s.lastMessages == 0 && s.lastBalance.None?
  {
    Service(false, None, visible, NoneOfThem, NoneOfThem, PerKind([], [], []), 0, 0, None)
  }

  /** `onProposalUpdate` and its siblings: the callback is appended. */
  function Subscribe(s: Service, k: Kind, cb: nat): (r: Service)
    ensures r.subscribers.Get(k) == s.subscribers.Get(k) + [cb]
    ensures forall j :: j != k ==> r.subscribers.Get(j) == s.subscribers.Get(j)
    ensures r.(subscribers := s.subscribers) == s
  {
    s.(subscribers := s.subscribers.Set(k, s.subscribers.Get(k) + [cb]))
  }

  /** The function `Subscribe` hands back: every entry of that callback goes, the rest
      stay in order. */
  function Unsubscribe(s: Service, k: Kind, cb: nat): (r: Service)
    ensures cb !in r.subscribers.Get(k)
    ensures forall x :: x in r.subscribers.Get(k) <==> x in s.subscribers.Get(k) && x != cb
    ensures forall j :: j != k ==> r.subscribers.Get(j) == s.subscribers.Get(j)
    ensures r.(subscribers := s.subscribers) == s
  {
    s.(subscribers := s.subscribers.Set(k, Filter(s.subscribers.Get(k), x => x != cb)))
  }

  /** A check does nothing without a user, on a hidden page, or while a request of the
      same kind is in flight. */
  predicate Skipped(s: Service, k: Kind, user: Option<nat>) {
    user.None? || !s.pageVisible || s.pending.Get(k)
  }

  /** The number of new items to announce when the count moves from `last` to `fetched`:
      only a rise, and never on the first observation (`last` 0). */
  function NewItems(last: nat, fetched: nat): (r: Option<nat>)
    ensures r.Some? <==> fetched > last && last > 0
    ensures r.Some? ==> r.value > 0 && last + r.value == fetched
  {
    if fetched > last && last > 0 then Some(fetched - last) else None
  }

  /** `count || waiting_count || 0`: the first non-zero count the response carries. */
  function WaitingCount(count: Option<nat>, waitingCount: Option<nat>): (r: nat)
    ensures r != 0 ==> Some(r) == count || (Some(r) == waitingCount && count.GetOr(0) == 0)
    ensures count.Some? && count.value != 0 ==> r == count.value
    ensures count.GetOr(0) == 0 ==> r == waitingCount.GetOr(0)
  {
    if count.GetOr(0) != 0 then count.value
    else waitingCount.GetOr(0)
  }

  function LastCount(s: Service, k: Kind): nat
    requires k != BalanceKind
  {
    if k == ProposalsKind then s.lastProposals else s.lastMessages
  }

  /** `checkProposals` / `checkMessages` with a completed request answering `fetched`:
      the service afterwards and the notice shown, if any. */
  function CheckCount(s: Service, k: Kind, user: Option<nat>, fetched: nat): (r: (Service, Option<nat>))
    requires k != BalanceKind
    ensures Skipped(s, k, user) ==> r == (s, None)
    ensures !Skipped(s, k, user) ==>
      (LastCount(r.0, k) == fetched && r.1 == NewItems(LastCount(s, k), fetched) && !r.0.pending.Get(k))
    ensures r.0.subscribers == s.subscribers && r.0.running == s.running && r.0.user == s.user
  {
    if Skipped(s, k, user) then (s, None)
    else
      var notice := NewItems(LastCount(s, k), fetched);
      if k == ProposalsKind then (s.(lastProposals := fetched), notice)
      else (s.(lastMessages := fetched), notice)
  }

  /** A balance notice: up or down by a positive amount. */
  datatype BalanceNotice = Increased(amount: nat) | Decreased(amount: nat)

  /** `checkTimeBalance` with a completed request answering `fetched`. */
  function CheckBalance(s: Service, user: Option<nat>, fetched: int): (r: (Service, Option<BalanceNotice>))
    ensures Skipped(s, BalanceKind, user) ==> r == (s, None)
    ensures !Skipped(s, BalanceKind, user) ==> r.0.lastBalance == Some(fetched)
    ensures r.1.Some? <==> !Skipped(s, BalanceKind, user) && s.lastBalance.Some? && s.lastBalance.value != fetched
    ensures r.1.Some? && r.1.value.Increased? ==> r.1.value.amount > 0 && s.lastBalance.value + r.1.value.amount == fetched
    ensures r.1.Some? && r.1.value.Decreased? ==> r.1.value.amount > 0 && s.lastBalance.value - r.1.value.amount == fetched
  {
    if Skipped(s, BalanceKind, user) then (s, None)
    else
      var notice :=
        if s.lastBalance.None? || s.lastBalance.value == fetched then None
        else if fetched > s.lastBalance.value then Some(Increased(fetched - s.lastBalance.value))
        else Some(Decreased(s.lastBalance.value - fetched));
      (s.(lastBalance := Some(fetched)), notice)
  }

  /** `reset`: forget the last counts and balance. */
  function Reset(s: Service): (r: Service)
    ensures r.lastProposals == 0 && r.lastMessages == 0 && r.lastBalance.None?
    ensures r.(lastProposals := s.lastProposals, lastMessages := s.lastMessages, lastBalance := s.lastBalance) == s
  {
    s.(lastProposals := 0, lastMessages := 0, lastBalance := None)
  }

  /** `stop`: not running, no user, no timers, nothing in flight, counters forgotten; the
      subscribers and the page's visibility stay. */
  function Stop(s: Service): (r: Service)
    ensures !r.running && r.user.None? && r.timers == NoneOfThem && r.pending == NoneOfThem
    ensures r.lastProposals == 0 && r.lastMessages == 0 && r.lastBalance.None?
    ensures r.subscribers == s.subscribers && r.pageVisible == s.pageVisible
  {
    Reset(s).(running := false, user := None, timers := NoneOfThem, pending := NoneOfThem)
  }

  /** `start`: a running service is stopped first; then it runs for `user` with all three
      timers set. */
  function Start(s: Service, user: nat): (r: Service)
    ensures r.running && r.user == Some(user) && r.timers == PerKind(true, true, true)
    ensures s.running ==> r.lastProposals == 0 && r.lastMessages == 0 && r.lastBalance.None?
    ensures !s.running ==> r.lastProposals == s.lastProposals && r.lastMessages == s.lastMessages
    ensures r.subscribers == s.subscribers
  {
    var base := if s.running then Stop(s) else s;
    base.(running := true, user := Some(user), timers := PerKind(true, true, true))
  }

  /** The notices a run of completed checks of one kind shows, starting from `last`. */
  function Announced(last: nat, counts: seq<nat>): (r: nat)
    decreases |counts|
  {
    if |counts| == 0 then 0
    else NewItems(last, counts[0]).GetOr(0) + Announced(counts[0], counts[1..])
  }

  /** A balance notice as a signed change; no notice is no change. */
  function Net(n: Option<BalanceNotice>): int {
    match n
    case None => 0
    case Some(Increased(a)) => a
    case Some(Decreased(a)) => -(a as int)
  }

  /** A run of completed balance checks: the service afterwards and the signed sum of the
      notices shown. */
  function BalanceRun(s: Service, user: Option<nat>, readings: seq<int>): (Service, int)
    decreases |readings|
  {
    if |readings| == 0 then (s, 0)
    else
      var step := CheckBalance(s, user, readings[0]);
      var rest := BalanceRun(step.0, user, readings[1..]);
      (rest.0, Net(step.1) + rest.1)
  }

  // ---------------------------------------------------------------- lemmas

  /** Subscribing a new callback and calling the returned function gives back the old
      subscriber list. */
  lemma UnsubscribeUndoesSubscribe(s: Service, k: Kind, cb: nat)
    requires cb !in s.subscribers.Get(k)
    ensures Unsubscribe(Subscribe(s, k, cb), k, cb) == s
  {
    var cbs := s.subscribers.Get(k);
    FilterSnoc(cbs, cb, x => x != cb);
    assert Filter(cbs + [cb], x => x != cb) == cbs;
  }

  /** After stop or reset, the first completed check of a count is silent and records the
      count. */
  lemma FirstObservationSilent(s: Service, k: Kind, user: nat, fetched: nat)
    requires k != BalanceKind
    ensures CheckCount(Reset(s), k, Some(user), fetched).1.None?
    ensures CheckCount(Stop(s), k, Some(user), fetched).1.None?
    ensures !Skipped(Reset(s), k, Some(user)) ==> LastCount(CheckCount(Reset(s), k, Some(user), fetched).0, k) == fetched
  {
  }

  /** Checking again with an unchanged count shows nothing. */
  lemma SameCountSilent(s: Service, k: Kind, user: nat, fetched: nat)
    requires k != BalanceKind && !Skipped(s, k, Some(user))
    ensures CheckCount(CheckCount(s, k, Some(user), fetched).0, k, Some(user), fetched).1.None?
  {
  }

  /** Over a run of non-decreasing counts starting from a seen count, the notices add up to
      the total rise. */
  lemma {:induction false} AnnouncedTelescopes(last: nat, counts: seq<nat>)
    requires last > 0
    requires |counts| > 0 ==> last <= counts[0]
    requires forall i :: 0 < i < |counts| ==> counts[i - 1] <= counts[i]
    ensures |counts| > 0 ==> Announced(last, counts) == counts[|counts| - 1] - last
    ensures |counts| == 0 ==> Announced(last, counts) == 0
    decreases |counts|
  {
    if |counts| > 0 {
      var rest := counts[1..];
      forall i | 0 < i < |rest| ensures rest[i - 1] <= rest[i] {
        assert rest[i] == counts[i + 1] && rest[i - 1] == counts[i];
      }
      if |rest| > 0 {
        assert rest[0] == counts[1];
      }
      AnnouncedTelescopes(counts[0], rest);
      if |rest| > 0 {
        assert rest[|rest| - 1] == counts[|counts| - 1];
      }
    }
  }

  /** Once a balance has been seen, the rises shown minus the falls shown over a run of
      checks add up to the last reading minus the first balance, and the last reading is
      the one remembered. */
  lemma {:induction false} BalanceTelescopes(s: Service, user: Option<nat>, readings: seq<int>)
    requires !Skipped(s, BalanceKind, user) && s.lastBalance.Some?
    ensures |readings| > 0 ==> BalanceRun(s, user, readings).1 == readings[|readings| - 1] - s.lastBalance.value
    ensures |readings| > 0 ==> BalanceRun(s, user, readings).0.lastBalance == Some(readings[|readings| - 1])
    ensures |readings| == 0 ==> BalanceRun(s, user, readings) == (s, 0)
    decreases |readings|
  {
    if |readings| > 0 {
      var step := CheckBalance(s, user, readings[0]);
      assert Net(step.1) == readings[0] - s.lastBalance.value;
      var rest := readings[1..];
      BalanceTelescopes(step.0, user, rest);
      if |rest| > 0 {
        assert rest[|rest| - 1] == readings[|readings| - 1];
      }
    }
  }

  /** A reading equal to the remembered balance shows nothing, and neither does the first
      reading after a reset. */
  lemma BalanceSilent(s: Service, user: nat, fetched: int)
    ensures s.lastBalance == Some(fetched) ==> CheckBalance(s, Some(user), fetched).1.None?
    ensures CheckBalance(Reset(s), Some(user), fetched).1.None?
  {
  }

  /** A skipped check changes nothing; a hidden page or a pending request skips whoever
      asks. */
  lemma SkipReasons(s: Service, k: Kind, user: Option<nat>)
    ensures user.None? ==> Skipped(s, k, user)
    ensures !s.pageVisible ==> Skipped(s, k, user)
    ensures s.pending.Get(k) ==> Skipped(s, k, user)
    ensures user.Some? && s.pageVisible && !s.pending.Get(k) ==> !Skipped(s, k, user)
  {
  }

  /** Restarting a running service forgets its counters, so its first check is silent. */
  lemma RestartSilent(s: Service, user: nat, k: Kind, fetched: nat)
    requires s.running && k != BalanceKind
    ensures CheckCount(Start(s, user), k, Some(user), fetched).1.None?
  {
  }
}

=== FILE: postdetails.dfy ===
/** The post page: who owns the post and which action button shows, the local comment
    list with its likes, and the newest-first comment order. The clock is a parameter. */
module PostDetails {
  import opened Wrappers
  import opened Strings
  import opened Seqs

  const OfferKind := "offer"

  datatype Post = Post(id: nat, kind: string, postedBy: Option<string>)

  /** The logged-in user, if any. */
  datatype Viewer = Viewer(id: nat, username: Option<string>)

  /** `isOwner`: the post's author name equals the viewer's name; a missing name on both
      sides counts as equal, as JavaScript's `undefined === undefined` does. */
  predicate IsOwner(p: Post, v: Option<Viewer>) {
    p.postedBy == (if v.Some? then v.value.username else None)
  }

  datatype Action = EditPost | RequestService | OfferHelp

  /** The action button: owners edit; others request an offered service or offer help
      with a need. */
  function ActionFor(p: Post, v: Option<Viewer>): (r: Action)
    ensures r == EditPost <==> IsOwner(p, v)
    ensures r == RequestService <==> !IsOwner(p, v) && p.kind == OfferKind
    ensures r == OfferHelp <==> !IsOwner(p, v) && p.kind != OfferKind
  {
    if IsOwner(p, v) then EditPost
    else if p.kind == OfferKind then RequestService
    else OfferHelp
  }

  /** A comment added on this page; `id` is `comment-` and the clock reading. */
  datatype Comment = Comment(id: string, postId: nat, authorId: nat, content: string,
                             likes: nat, createdAt: nat)

  datatype Thread = Thread(comments: seq<Comment>, input: string)

  datatype CommentError = EmptyComment | NotLoggedIn

  /** `handleAddComment`: a blank box is refused first, then a missing user; otherwise the
      comment is appended with no likes and the box is cleared. */
  function AddComment(t: Thread, p: Post, v: Option<Viewer>, now: nat): (r: Result<Thread, CommentError>)
    ensures r == Err(EmptyComment) <==> IsBlank(t.input)
    ensures r == Err(NotLoggedIn) <==> !IsBlank(t.input) && v.None?
    ensures r.Ok? ==> && r.value.input == ""
                      && |r.value.comments| == |t.comments| + 1
                      && r.value.comments[..|t.comments|] == t.comments
                      && var c := r.value.comments[|t.comments|];
                         c.content == t.input && c.likes == 0 && c.postId == p.id
                         && c.authorId == v.value.id && c.createdAt == now
  {
    if IsBlank(t.input) then Err(EmptyComment)
    else if v.None? then Err(NotLoggedIn)
    else
      var c := Comment("comment-" + NatToString(now), p.id, v.value.id, t.input, 0, now);
      Ok(Thread(t.comments + [c], ""))
  }

  /** The like count shown: the stored count, plus one while this viewer likes it. */
  function DisplayedLikes(c: Comment, liked: set<string>): (r: nat)
    ensures r == c.likes || r == c.likes + 1
    ensures r == c.likes + 1 <==> c.id in liked
  {
    c.likes + if c.id in liked then 1 else 0
  }

  /** Each comment is at least as new as the next. */
  predicate NewestFirst(cs: seq<Comment>) {
    forall i :: 0 < i < |cs| ==> cs[i - 1].createdAt >= cs[i].createdAt
  }

  function Insert(c: Comment, cs: seq<Comment>): (r: seq<Comment>)
    requires NewestFirst(cs)
    ensures NewestFirst(r)
    ensures multiset(r) == multiset(cs) + multiset{c}
    ensures |r| == |cs| + 1
    ensures r[0] == c || (|cs| > 0 && r[0] == cs[0])
    decreases |cs|
  {
    if |cs| == 0 then [c]
    else if c.createdAt >= cs[0].createdAt then [c] + cs
    else
      assert cs == [cs[0]] + cs[1..];
      [cs[0]] + Insert(c, cs[1..])
  }

  /** The comment list as displayed: newest first, the same comments. */
  function Displayed(cs: seq<Comment>): (r: seq<Comment>)
    ensures NewestFirst(r)
    ensures multiset(r) == multiset(cs)
    ensures |r| == |cs|
    decreases |cs|
  {
    if |cs| == 0 then []
    else
      assert cs == [cs[0]] + cs[1..];
      Insert(cs[0], Displayed(cs[1..]))
  }

  // ---------------------------------------------------------------- lemmas

  /** A like toggle (`handleLikeComment`, a set toggle) moves the shown count of that comment by exactly one and leaves every
      other comment's count alone. */
  lemma LikeMovesCountByOne(c: Comment, other: Comment, liked: set<string>)
    requires other.id != c.id
    ensures DisplayedLikes(c, Toggle(liked, c.id)) == if c.id in liked then c.likes else c.likes + 1
    ensures DisplayedLikes(other, Toggle(liked, c.id)) == DisplayedLikes(other, liked)
  {
  }

  /** A logged-out visitor is taken for the owner exactly when the post has no author
      name. */
  lemma LoggedOutOwner(p: Post)
    ensures IsOwner(p, None) <==> p.postedBy.None?
  {
  }

  /** The viewer who wrote the post sees Edit; anyone else never does. */
  lemma AuthorEdits(p: Post, v: Viewer)
    requires p.postedBy.Some? && v.username == p.postedBy
    ensures ActionFor(p, Some(v)) == EditPost
    ensures forall w: Viewer :: w.username != p.postedBy ==> ActionFor(p, Some(w)) != EditPost
  {
  }

  /** In a newest-first list every comment is at least as new as any later one. */
  lemma {:induction false} NewestFirstPairwise(cs: seq<Comment>, i: nat, j: nat)
    requires NewestFirst(cs) && i <= j < |cs|
    ensures cs[i].createdAt >= cs[j].createdAt
    decreases j - i
  {
    if i < j {
      NewestFirstPairwise(cs, i + 1, j);
    }
  }

  /** A comment strictly newer than all others is displayed first. */
  lemma NewestShownFirst(cs: seq<Comment>, c: Comment)
    requires forall i :: 0 <= i < |cs| ==> cs[i].createdAt < c.createdAt
    ensures Displayed(cs + [c])[0] == c
  {
    var r := Displayed(cs + [c]);
    assert c in multiset(r);
    var k :| 0 <= k < |r| && r[k] == c;
    NewestFirstPairwise(r, 0, k);
    assert r[0] in multiset(cs + [c]);
    assert r[0] in cs + [c];
    assert forall x :: x in cs ==> x.createdAt < c.createdAt;
    assert r[0] !in cs;
  }

  /** Adding a comment at a later time than every other puts it at the top of the
      list. */
  lemma AddedCommentOnTop(t: Thread, p: Post, v: Viewer, now: nat)
    requires !IsBlank(t.input)
    requires forall i :: 0 <= i < |t.comments| ==> t.comments[i].createdAt < now
    ensures AddComment(t, p, Some(v), now).Ok?
    ensures Displayed(AddComment(t, p, Some(v), now).value.comments)[0].content == t.input
  {
    var after := AddComment(t, p, Some(v), now).value.comments;
    var c := after[|t.comments|];
    assert after == t.comments + [c];
    NewestShownFirst(t.comments, c);
  }
}

=== FILE: proposals.dfy ===
/** The proposal pages: the backend's proposal creation and sent/received listings, the
    proposal page (cards decoded from the notes codec, the user's pending proposal, the
    submit guards) and the post owner's review page (owner check, accept/decline buttons,
    counter-offer gating). */
module Proposals {
  import opened Wrappers
  import opened Strings
  import opened Ledger
  import opened Exchange
  import Notes
  import Approval
  import Seqs

  // ---------------------------------------------------------------- backend

  /** A post fixes the direction of payment and the provider. */
  datatype Post = Post(owner: AccountId, polarity: Polarity)

  /** Creating a proposal on a post: the caller requests, the post's owner provides. */
  function Propose(post: Post, caller: AccountId, rate: nat): (p: Proposal)
    ensures p.status == Waiting && p.requester == caller && p.provider == post.owner
    ensures p.polarity == post.polarity && p.rate == rate && WellFormed(p)
  {
    Create(post.polarity, caller, post.owner, rate)
  }

  /** `?sent=true`: the proposals the user requested. */
  function Sent(ps: seq<Proposal>, u: AccountId): (r: seq<Proposal>)
    ensures forall i :: 0 <= i < |r| ==> r[i] in ps && r[i].requester == u
    ensures forall i :: 0 <= i < |ps| && ps[i].requester == u ==> ps[i] in r
  {
    Seqs.Filter(ps, (p: Proposal) => p.requester == u)
  }

  /** `?received=true`: the proposals on the user's own posts. */
  function ReceivedBy(ps: seq<Proposal>, u: AccountId): (r: seq<Proposal>)
    ensures forall i :: 0 <= i < |r| ==> r[i] in ps && r[i].provider == u
    ensures forall i :: 0 <= i < |ps| && ps[i].provider == u ==> ps[i] in r
  {
    Seqs.Filter(ps, (p: Proposal) => p.provider == u)
  }

  // ---------------------------------------------------------------- the proposal page

  /** A proposal row as the backend returns it; `senderId` is the requester. */
  datatype Row = Row(id: nat, senderId: AccountId, status: string, notes: string, date: string, hours: nat)

  /** A proposal as the page shows it. */
  datatype Card = Card(
    id: nat,
    fromUserId: AccountId,
    date: string,
    time: string,
    location: string,
    notes: string,
    status: string,
    hours: nat)

  /** Status shown on a card: `waiting` reads `pending`; everything else passes through. */
  function StatusLabel(s: string): (r: string)
    ensures s == "waiting" ==> r == "pending"
    ensures s != "waiting" ==> r == s
  {
    if s == "waiting" then "pending" else if s == "declined" then "declined" else s
  }

  /** The statuses the backend stores on a proposal. */
  predicate BackendStatus(s: string) {
    s in {"waiting", "accepted", "declined", "completed", "cancelled"}
  }

  function ToCard(row: Row): Card {
    var d := Notes.Decode(row.notes);
    Card(row.id, row.senderId, row.date, d.time, d.location, d.notes, StatusLabel(row.status), row.hours)
  }

  /** The user's own pending proposal, if any: the first card that is pending and theirs. */
  function UserPending(cards: seq<Card>, user: Option<AccountId>): (r: Option<Card>)
    ensures r.Some? ==>
      user.Some? && r.value in cards && r.value.status == "pending" && r.value.fromUserId == user.value
    ensures r.None? <==>
      (user.None? || forall i :: 0 <= i < |cards| ==> !(cards[i].status == "pending" && cards[i].fromUserId == user.value))
  {
    if user.None? then None
    else Seqs.Find(cards, (c: Card) => c.status == "pending" && c.fromUserId == user.value)
  }

  /** The new-request form is shown when reopened or when the user has nothing pending. */
  predicate FormShown(showNew: bool, cards: seq<Card>, user: Option<AccountId>) {
    showNew || UserPending(cards, user).None?
  }

  /** What the request form holds; `hours` is in hundredths of an hour. */
  datatype Form = Form(date: string, time: string, location: string, notes: string, hours: nat)

  /** The proposal body; `hours` is `timebank_hour`, the rate acceptance later stakes. */
  datatype Payload = Payload(post: nat, notes: string, status: string, date: string, hours: nat)

  datatype SubmitError = NotLoggedIn | MissingPost | MissingDate

  /** The body sent for a new proposal or a counter offer: location and time folded into
      the notes, status `waiting`. */
  function BuildPayload(post: nat, f: Form): (r: Payload)
    ensures r.status == "waiting" && r.post == post && r.date == f.date && r.hours == f.hours
  {
    Payload(post, Notes.Encode(f.location, f.time, f.notes), "waiting", f.date, f.hours)
  }

  /** Submitting a request: a logged-in user, then a post id, then a date are required. */
  function Submit(user: Option<AccountId>, postId: Option<nat>, f: Form): (r: Result<Payload, SubmitError>)
    ensures r == Err(NotLoggedIn) <==> user.None?
    ensures r == Err(MissingPost) <==> user.Some? && postId.None?
    ensures r == Err(MissingDate) <==> user.Some? && postId.Some? && f.date == ""
    ensures r.Ok? ==> r.value.status == "waiting" && r.value.post == postId.value && r.value.date == f.date
    ensures r.Ok? ==> r.value.hours == f.hours
  {
    if user.None? then Err(NotLoggedIn)
    else if postId.None? then Err(MissingPost)
    else if f.date == "" then Err(MissingDate)
    else Ok(BuildPayload(postId.value, f))
  }

  // ---------------------------------------------------------------- the review page

  /** The page is only for the post's owner. */
  predicate IsOwner(postedBy: string, username: Option<string>) {
    username.Some? && postedBy == username.value
  }

  /** Accept and decline are offered only on a waiting proposal. */
  predicate ActionsShown(status: string) {
    status == "waiting"
  }

  datatype Action = AcceptAction | DeclineAction

  /** The status each button asks the backend for. */
  function ActionStatus(a: Action): string {
    match a
    case AcceptAction => "accepted"
    case DeclineAction => "declined"
  }

  /** The lifecycle transition behind each button. */
  function ApplyAction(w: World, a: Action): Result<World, ExchangeError> {
    match a
    case AcceptAction => Accept(w)
    case DeclineAction => Decline(w)
  }

  /** Flags computed for the owner: some proposal on the post is waiting; the owner has
      already sent one. */
  predicate HasPending(rows: seq<Row>) {
    exists i :: 0 <= i < |rows| && rows[i].status == "waiting"
  }

  predicate HasOwnerProposal(rows: seq<Row>, owner: AccountId) {
    exists i :: 0 <= i < |rows| && rows[i].senderId == owner
  }

  /** The counter-offer card, and the message that replaces it. */
  predicate CounterOfferShown(status: string, hasOwner: bool, hasPending: bool) {
    status == "declined" && !hasOwner && !hasPending
  }

  predicate CounterMessageShown(status: string, hasOwner: bool, hasPending: bool) {
    status == "declined" && (hasOwner || hasPending)
  }

  /** A counter offer needs a date and is sent like any other proposal. */
  function CounterOffer(post: nat, f: Form): (r: Result<Payload, SubmitError>)
    ensures r.Err? <==> f.date == ""
    ensures r.Err? ==> r.error == MissingDate
    ensures r.Ok? ==> r.value.status == "waiting" && r.value.post == post && r.value.hours == f.hours
  {
    if f.date == "" then Err(MissingDate) else Ok(BuildPayload(post, f))
  }

  // ---------------------------------------------------------------- lemmas

  /** The creation test: status waiting, the caller as requester, the post owner as
      provider; the new proposal then appears in the caller's sent list and in the owner's
      received list. */
  lemma ProposeAndList(post: Post, caller: AccountId, rate: nat)
    requires caller != post.owner
    ensures var p := Propose(post, caller, rate);
      && Sent([p], caller) == [p] && ReceivedBy([p], post.owner) == [p]
      && Sent([p], post.owner) == [] && ReceivedBy([p], caller) == []
  {
  }

  /** Sent and received split a user's proposals when no one proposes on their own post. */
  lemma SentReceivedDisjoint(ps: seq<Proposal>, u: AccountId, i: nat, j: nat)
    requires forall k :: 0 <= k < |ps| ==> ps[k].requester != ps[k].provider
    requires i < |Sent(ps, u)| && j < |ReceivedBy(ps, u)|
    ensures Sent(ps, u)[i] != ReceivedBy(ps, u)[j]
  {
    var s := Sent(ps, u)[i];
    var k :| 0 <= k < |ps| && ps[k] == s;
  }

  /** Of the backend's statuses only `waiting` is shown as pending, so the label keeps
      every status distinguishable. */
  lemma StatusLabelFaithful(s: string, t: string)
    requires BackendStatus(s) && BackendStatus(t)
    ensures StatusLabel(s) == "pending" <==> s == "waiting"
    ensures StatusLabel(s) == StatusLabel(t) <==> s == t
  {
  }

  /** A card shows exactly the location, time and notes the form sent, trimmed, and the
      hours it offered. */
  lemma CardShowsForm(user: AccountId, postId: nat, f: Form, id: nat)
    requires Submit(Some(user), Some(postId), f).Ok?
    requires '\n' !in f.location && '\n' !in f.time && Notes.PlainNotes(f.notes)
    ensures var pl := Submit(Some(user), Some(postId), f).value;
      var c := ToCard(Row(id, user, pl.status, pl.notes, pl.date, pl.hours));
      && c.location == Trim(f.location) && c.time == Trim(f.time) && c.notes == Trim(f.notes)
      && c.date == f.date && c.status == "pending" && c.fromUserId == user && c.hours == f.hours
  {
    Notes.RoundTrip(f.location, f.time, f.notes);
  }

  /** A submitted request is the user's pending proposal from then on, which hides the
      form until it is reopened. */
  lemma SubmittedIsPending(cards: seq<Card>, user: AccountId, postId: nat, f: Form, id: nat)
    requires Submit(Some(user), Some(postId), f).Ok?
    ensures var pl := Submit(Some(user), Some(postId), f).value;
      var cards2 := cards + [ToCard(Row(id, user, pl.status, pl.notes, pl.date, pl.hours))];
      && UserPending(cards2, Some(user)).Some?
      && !FormShown(false, cards2, Some(user))
  {
    var pl := Submit(Some(user), Some(postId), f).value;
    var cards2 := cards + [ToCard(Row(id, user, pl.status, pl.notes, pl.date, pl.hours))];
    assert cards2[|cards|].status == "pending" && cards2[|cards|].fromUserId == user;
  }

  /** The pending proposal is the earliest pending card of the user. */
  lemma UserPendingIsFirst(cards: seq<Card>, user: AccountId, i: nat)
    requires i < |cards| && cards[i].status == "pending" && cards[i].fromUserId == user
    ensures UserPending(cards, Some(user)).Some?
    ensures exists j ::
      && 0 <= j <= i && cards[j] == UserPending(cards, Some(user)).value
      && forall k :: 0 <= k < j ==> !(cards[k].status == "pending" && cards[k].fromUserId == user)
  {
    Seqs.FindFirst(cards, (c: Card) => c.status == "pending" && c.fromUserId == user, i);
  }

  /** The owner's buttons appear exactly on a waiting proposal; there declining always
      succeeds and accepting succeeds exactly when the payer can cover the rate. */
  lemma ButtonsMatchLifecycle(w: World)
    requires Payer(w.proposal) in w.ledger
    ensures ActionsShown(Approval.StatusName(w.proposal.status)) <==> w.proposal.status == Waiting
    ensures w.proposal.status == Waiting ==>
      && ApplyAction(w, DeclineAction).Ok?
      && ApplyAction(w, DeclineAction).value.proposal.status == Declined
      && (ApplyAction(w, AcceptAction).Ok? <==> w.ledger[Payer(w.proposal)] >= w.proposal.rate)
  {
  }

  /** On a declined proposal exactly one of the counter-offer card and the explanation is
      shown; on any other status neither is. */
  lemma CounterOfferExclusive(status: string, hasOwner: bool, hasPending: bool)
    ensures status == "declined" ==>
      CounterOfferShown(status, hasOwner, hasPending) != CounterMessageShown(status, hasOwner, hasPending)
    ensures status != "declined" ==>
      !CounterOfferShown(status, hasOwner, hasPending) && !CounterMessageShown(status, hasOwner, hasPending)
  {
  }

  /** Once the owner's counter offer is stored, the card is gone: the owner has sent a
      proposal, and it is waiting. */
  lemma CounterOfferOnce(rows: seq<Row>, owner: AccountId, post: nat, f: Form, id: nat)
    requires CounterOffer(post, f).Ok?
    ensures var pl := CounterOffer(post, f).value;
      var rows2 := rows + [Row(id, owner, pl.status, pl.notes, pl.date, pl.hours)];
      && HasOwnerProposal(rows2, owner) && HasPending(rows2)
      && !CounterOfferShown("declined", HasOwnerProposal(rows2, owner), HasPending(rows2))
  {
    var pl := CounterOffer(post, f).value;
    var rows2 := rows + [Row(id, owner, pl.status, pl.notes, pl.date, pl.hours)];
    assert rows2[|rows|].senderId == owner && rows2[|rows|].status == "waiting";
  }
}

=== FILE: radix.dfy ===
/** JavaScript's `parseInt` without a radix, which reads a `0x` prefix as hexadecimal. */
module Radix {
  import opened Wrappers
  import opened Strings

  /** One leading sign removed. */
  function StripSign(t: string): string {
    if |t| > 0 && (t[0] == '-' || t[0] == '+') then t[1..] else t
  }

  /** The text `parseInt` reads digits from: leading white space and one sign removed. */
  function Unsigned(s: string): string {
    StripSign(TrimStart(s))
  }

  /** Starts with `0x` or `0X`. */
  predicate Prefixed(b: string) {
    |b| >= 2 && b[0] == '0' && (b[1] == 'x' || b[1] == 'X')
  }

  /** A `0x` or `0X` after the sign, which `parseInt` without a radix reads as hexadecimal. */
  predicate HexPrefixed(s: string) {
    Prefixed(Unsigned(s))
  }

  predicate IsHexDigit(c: char) {
    IsDigit(c) || 'a' <= c <= 'f' || 'A' <= c <= 'F'
  }

  function HexDigitValue(c: char): (r: nat)
    requires IsHexDigit(c)
    ensures r < 16
  {
    if IsDigit(c) then c as int - '0' as int
    else if 'a' <= c <= 'f' then c as int - 'a' as int + 10
    else c as int - 'A' as int + 10
  }

  /** The longest prefix made of hexadecimal digits. */
  function HexRun(s: string): (r: string)
    ensures |r| <= |s| && r == s[..|r|]
    ensures forall i :: 0 <= i < |r| ==> IsHexDigit(r[i])
    ensures |r| < |s| ==> !IsHexDigit(s[|r|])
  {
    if |s| > 0 && IsHexDigit(s[0]) then
      var rest := HexRun(s[1..]);
      assert [s[0]] + rest == s[..|rest| + 1];
      [s[0]] + rest
    else ""
  }

  /** The value of a string of hexadecimal digits. */
  function HexValue(d: string): nat
    requires forall i :: 0 <= i < |d| ==> IsHexDigit(d[i])
  {
    if |d| == 0 then 0 else HexValue(d[..|d| - 1]) * 16 + HexDigitValue(d[|d| - 1])
  }

  /** JavaScript's `parseInt(s)` with no radix: the same as `parseInt(s, 10)`, except that a
      `0x` or `0X` after the sign switches to hexadecimal, and then gives `NaN` when no
      hexadecimal digit follows the prefix. */
  function ParseIntAuto(s: string): (r: Option<int>)
    ensures !HexPrefixed(s) ==> r == ParseInt(s)
    ensures HexPrefixed(s) ==> (r.None? <==> |Unsigned(s)| == 2 || !IsHexDigit(Unsigned(s)[2]))
  {
    if HexPrefixed(s) then HexReading(TrimStart(s)) else ParseInt(s)
  }

  /** The hexadecimal reading of trimmed text `t` whose unsigned part carries the prefix:
      the digits after the prefix, negated under a minus sign, and `NaN` when there are none. */
  function HexReading(t: string): Option<int>
    requires Prefixed(StripSign(t))
  {
    var run := HexRun(StripSign(t)[2..]);
    var value: int := HexValue(run);
    if run == "" then None else Some(if t[0] == '-' then -value else value)
  }

  // ---------------------------------------------------------------- lemmas

  /** A decimal numeral never carries the hexadecimal prefix, so both readings agree on it. */
  lemma ParseIntAutoOfNumeral(n: nat)
    ensures ParseIntAuto(NatToString(n)) == Some(n)
  {
    var d := NatToString(n);
    TrimStartNonSpace(d);
    assert Unsigned(d) == d;
    assert !HexPrefixed(d) by {
      if |d| >= 2 { assert '0' <= d[1] <= '9'; }
    }
    ParseIntOfNumeral(n);
  }

  /** `0x2` reads as 2 and `0X1f` as 31: the prefix switches to base 16, in either case. */
  lemma ParseIntAutoHex()
    ensures ParseIntAuto("0x2") == Some(2)
    ensures ParseIntAuto("0X1f") == Some(31)
  {
    TrimStartNonSpace("0x2");
    assert Unsigned("0x2")[2..] == "2";
    assert HexRun("2") == "2";
    TrimStartNonSpace("0X1f");
    assert Unsigned("0X1f")[2..] == "1f";
    assert HexRun("1f") == "1f";
    assert HexValue("1f") == HexValue("1") * 16 + 15;
  }

  /** The sign comes before the prefix, after white space: ` -0x10` reads as -16. */
  lemma ParseIntAutoSignedHex()
    ensures ParseIntAuto(" -0x10") == Some(-16)
  {
    var s := " -0x10";
    assert s[1..] == "-0x10";
    TrimStartNonSpace("-0x10");
    assert TrimStart(s) == "-0x10";
    assert Unsigned(s) == "0x10";
    assert HexPrefixed(s);
    assert HexRun("10") == "10";
    assert HexValue("10") == HexValue("1") * 16;
  }

  /** A run of hexadecimal digits ends where the first non-hexadecimal character begins. */
  lemma {:induction false} HexRunPrefix(a: string, b: string)
    requires forall i :: 0 <= i < |a| ==> IsHexDigit(a[i])
    requires |b| == 0 || !IsHexDigit(b[0])
    ensures HexRun(a + b) == a
    decreases |a|
  {
    if |a| > 0 {
      assert (a + b)[1..] == a[1..] + b;
      HexRunPrefix(a[1..], b);
      assert a == [a[0]] + a[1..];
    } else {
      assert a + b == b;
    }
  }

  /** White space in front of a sign or a `0` is what `TrimStart` removes. */
  lemma {:induction false} SignedText(ws: string, sg: string, u: string)
    requires AllSpace(ws)
    requires sg == "" || sg == "+" || sg == "-"
    requires |u| > 0 && u[0] == '0'
    ensures TrimStart(ws + sg + u) == sg + u
  {
    var v := sg + u;
    var c := v[0];
    assert c == '0' || c == '+' || c == '-' by {
      if sg == "" { assert v == u; } else { assert c == sg[0]; }
    }
    assert !IsSpace(c);
    TrimStartNonSpace(v);
    assert ws + sg + u == ws + v;
    TrimStartSkipsSpace(ws, v);
  }

  /** Trimmed text whose unsigned part is `0x` and hexadecimal digits reads as their value. */
  lemma {:induction false} HexText(t: string, d: string, rest: string)
    requires Prefixed(StripSign(t)) && StripSign(t)[2..] == d + rest
    requires |d| > 0 && forall i :: 0 <= i < |d| ==> IsHexDigit(d[i])
    requires |rest| == 0 || !IsHexDigit(rest[0])
    ensures HexReading(t) == Some(if t[0] == '-' then -(HexValue(d) as int) else HexValue(d) as int)
  {
    HexRunPrefix(d, rest);
  }

  /** Every hexadecimal numeral is read by its value: after any white space and an optional
      sign, `0x` or `0X` followed by the digits `d` reads as the value of `d`, negated under a
      minus sign, whatever follows that is not a hexadecimal digit. */
  lemma {:induction false} ParseIntAutoHexValue(ws: string, sg: string, x: char, d: string, rest: string)
    requires AllSpace(ws)
    requires sg == "" || sg == "+" || sg == "-"
    requires x == 'x' || x == 'X'
    requires |d| > 0 && forall i :: 0 <= i < |d| ==> IsHexDigit(d[i])
    requires |rest| == 0 || !IsHexDigit(rest[0])
    ensures ParseIntAuto(ws + sg + (['0', x] + (d + rest)))
         == Some(if sg == "-" then -(HexValue(d) as int) else HexValue(d) as int)
  {
    var u := ['0', x] + (d + rest);
    var t := sg + u;
    assert u[0] == '0' && u[1] == x && u[2..] == d + rest;
    SignedText(ws, sg, u);
    assert StripSign(t) == u && (t[0] == '-' <==> sg == "-") by {
      if sg == "" { assert t == u; } else { assert t[0] == sg[0] && t[1..] == u; }
    }
    HexText(t, d, rest);
  }

  /** A prefix with no hexadecimal digit after it is `NaN`. */
  lemma ParseIntAutoBarePrefix()
    ensures ParseIntAuto("0x") == None
    ensures ParseIntAuto("0xg") == None
  {
    TrimStartNonSpace("0x");
    TrimStartNonSpace("0xg");
    assert Unsigned("0xg")[2] == 'g';
  }
}

=== FILE: reviews.dfy ===
/** Reviews: the backend's rules for creating one (who reviews whom, the 1..5 rating range,
    one review per proposal and reviewer), the averages a profile reports, and the review
    page's gates in front of the form. */
module Reviews {
  import opened Wrappers
  import opened Ledger
  import opened Exchange
  import Approval
  import Seqs

  datatype Criterion = Friendliness | TimeManagement | Reliability | Communication | WorkQuality

  /** The five ratings; the page uses 0 for a criterion not rated yet. */
  datatype Ratings = Ratings(
    friendliness: int,
    timeManagement: int,
    reliability: int,
    communication: int,
    workQuality: int)

  function Score(r: Ratings, c: Criterion): int {
    match c
    case Friendliness => r.friendliness
    case TimeManagement => r.timeManagement
    case Reliability => r.reliability
    case Communication => r.communication
    case WorkQuality => r.workQuality
  }

  const MinRating := 1
  const MaxRating := 5

  /** Every rating passes the field validators. */
  predicate ValidRatings(r: Ratings) {
    forall c :: MinRating <= Score(r, c) <= MaxRating
  }

  datatype Review = Review(proposalId: nat, reviewer: AccountId, reviewed: AccountId, ratings: Ratings)

  datatype ReviewError = Unauthorized | InvalidRating | AlreadyReviewed

  /** The reviewer already has a review of this proposal. */
  predicate Reviewed(rs: seq<Review>, pid: nat, reviewer: AccountId) {
    exists i :: 0 <= i < |rs| && rs[i].proposalId == pid && rs[i].reviewer == reviewer
  }

  /** The uniqueness constraint on (proposal, reviewer). */
  predicate Unique(rs: seq<Review>) {
    forall i, j :: 0 <= i < j < |rs| ==>
      rs[i].proposalId != rs[j].proposalId || rs[i].reviewer != rs[j].reviewer
  }

  /** The party a participant reviews: the requester reviews the provider and the provider
      reviews the requester. */
  function Counterparty(p: Proposal, u: AccountId): AccountId {
    if u == p.requester then p.provider else p.requester
  }

  /** Creating a review of proposal `pid` as `reviewer`: a non-participant is refused, then
      any rating outside 1..5, then a second review by the same reviewer. The reviewed user
      is derived, never chosen by the caller. */
  function CreateReview(rs: seq<Review>, pid: nat, p: Proposal, reviewer: AccountId, ratings: Ratings)
    : (r: Result<seq<Review>, ReviewError>)
    ensures r.Err? <==> !IsParticipant(p, reviewer) || !ValidRatings(ratings) || Reviewed(rs, pid, reviewer)
    ensures r == Err(ReviewError.Unauthorized) <==> !IsParticipant(p, reviewer)
    ensures r == Err(AlreadyReviewed) ==> Reviewed(rs, pid, reviewer)
    ensures r.Ok? ==> |r.value| == |rs| + 1 && r.value[..|rs|] == rs
    ensures r.Ok? ==>
      var n := r.value[|rs|];
      && n.proposalId == pid && n.reviewer == reviewer && n.ratings == ratings
      && IsParticipant(p, n.reviewed)
      && (p.requester != p.provider ==> n.reviewed != reviewer)
  {
    if !IsParticipant(p, reviewer) then Err(ReviewError.Unauthorized)
    else if !ValidRatings(ratings) then Err(InvalidRating)
    else if Reviewed(rs, pid, reviewer) then Err(AlreadyReviewed)
    else Ok(rs + [Review(pid, reviewer, Counterparty(p, reviewer), ratings)])
  }

  // ---------------------------------------------------------------- averages

  function Sum(rs: seq<Review>, c: Criterion): int
    decreases |rs|
  {
    if |rs| == 0 then 0 else Sum(rs[..|rs| - 1], c) + Score(rs[|rs| - 1].ratings, c)
  }

  /** Mean of one criterion over the given reviews, 0 when there are none. */
  function Average(rs: seq<Review>, c: Criterion): real {
    if |rs| == 0 then 0.0 else (Sum(rs, c) as real) / (|rs| as real)
  }

  datatype Averages = Averages(
    friendliness: real,
    timeManagement: real,
    reliability: real,
    communication: real,
    workQuality: real,
    overall: real,
    totalReviews: nat)

  /** The reviews a user has received. */
  function Received(all: seq<Review>, u: AccountId): (r: seq<Review>)
    ensures forall i :: 0 <= i < |r| ==> r[i].reviewed == u
    ensures forall i :: 0 <= i < |all| && all[i].reviewed == u ==> all[i] in r
    ensures (forall i :: 0 <= i < |all| ==> all[i].reviewed == u) ==> r == all
  {
    Seqs.Filter(all, (x: Review) => x.reviewed == u)
  }

  /** A profile's review summary: per-criterion means, their mean, and the count. */
  function ReviewAverages(all: seq<Review>, u: AccountId): (r: Averages)
    ensures (forall i :: 0 <= i < |all| ==> all[i].reviewed != u) ==> r == Averages(0.0, 0.0, 0.0, 0.0, 0.0, 0.0, 0)
  {
    var rs := Received(all, u);
    var f := Average(rs, Friendliness);
    var t := Average(rs, TimeManagement);
    var l := Average(rs, Reliability);
    var c := Average(rs, Communication);
    var w := Average(rs, WorkQuality);
    Averages(f, t, l, c, w, if |rs| == 0 then 0.0 else (f + t + l + c + w) / 5.0, |rs|)
  }

  predicate AllValid(rs: seq<Review>) {
    forall i :: 0 <= i < |rs| ==> ValidRatings(rs[i].ratings)
  }

  predicate InScale(x: real) {
    MinRating as real <= x <= MaxRating as real
  }

  // ---------------------------------------------------------------- the review page

  /** Why the review page sends the user back to the approval list. */
  datatype PageError = NotParticipant | NotReviewable | NotEligible

  datatype Page = Redirect(error: PageError) | ShowExisting(review: Review) | ShowForm(reviewee: AccountId)

  /** The user the form reviews: the provider for the requester, else the requester. */
  function UserToReview(v: Approval.View, u: AccountId): (r: AccountId)
    ensures r == v.requesterId || r == v.providerId
    ensures (u == v.requesterId || u == v.providerId) && v.requesterId != v.providerId ==> r != u
  {
    if u == v.requesterId then v.providerId else v.requesterId
  }

  /** Opening the review page for a proposal; `mine` is what the backend returns for this
      proposal and reviewer. */
  function OpenReviewPage(v: Approval.View, u: AccountId, mine: seq<Review>): (r: Page)
    ensures r == Redirect(NotParticipant) <==> u != v.requesterId && u != v.providerId
    ensures r.ShowForm? <==>
      && (u == v.requesterId || u == v.providerId)
      && (v.status == "accepted" || v.status == "completed")
      && Approval.CanReview(v, u)
      && mine == []
    ensures r.ShowExisting? ==> |mine| > 0 && r.review == mine[0]
  {
    if u != v.requesterId && u != v.providerId then Redirect(NotParticipant)
    else if v.status != "accepted" && v.status != "completed" then Redirect(NotReviewable)
    else if !Approval.CanReview(v, u) then Redirect(NotEligible)
    else if |mine| > 0 then ShowExisting(mine[0])
    else ShowForm(UserToReview(v, u))
  }

  /** The submit button refuses unless every criterion has been rated. */
  predicate AllRated(r: Ratings) {
    r.friendliness != 0 && r.timeManagement != 0 && r.reliability != 0
    && r.communication != 0 && r.workQuality != 0
  }

  /** What the star buttons can produce: 0 (unset) or 1..5. */
  predicate FromButtons(r: Ratings) {
    forall c :: 0 <= Score(r, c) <= MaxRating
  }

  /** The reviews of `pid` written by `u`, as the page asks the backend for them. */
  function ReviewsBy(rs: seq<Review>, pid: nat, u: AccountId): seq<Review> {
    Seqs.Filter(rs, (x: Review) => x.proposalId == pid && x.reviewer == u)
  }

  // ---------------------------------------------------------------- lemmas

  /** Creating a review keeps (proposal, reviewer) unique. */
  lemma CreateKeepsUnique(rs: seq<Review>, pid: nat, p: Proposal, reviewer: AccountId, ratings: Ratings)
    requires Unique(rs)
    requires CreateReview(rs, pid, p, reviewer, ratings).Ok?
    ensures Unique(CreateReview(rs, pid, p, reviewer, ratings).value)
  {
  }

  /** Once every review of a proposal comes from one of its two parties and the pairs are
      unique, no proposal gathers three reviews. */
  lemma AtMostTwoReviews(rs: seq<Review>, pid: nat, p: Proposal)
    requires Unique(rs)
    requires forall i :: 0 <= i < |rs| && rs[i].proposalId == pid ==> IsParticipant(p, rs[i].reviewer)
    ensures forall i, j, k :: 0 <= i < j < k < |rs| ==>
      !(rs[i].proposalId == pid && rs[j].proposalId == pid && rs[k].proposalId == pid)
  {
  }

  /** Only the 1..5 range passes validation: 0 and 6 are refused, 3 is accepted. */
  lemma RatingRange(rs: seq<Review>, pid: nat, p: Proposal)
    requires !Reviewed(rs, pid, p.requester)
    ensures CreateReview(rs, pid, p, p.requester, Ratings(0, 3, 3, 3, 3)) == Err(InvalidRating)
    ensures CreateReview(rs, pid, p, p.requester, Ratings(6, 3, 3, 3, 3)) == Err(InvalidRating)
    ensures CreateReview(rs, pid, p, p.requester, Ratings(3, 3, 3, 3, 3)).Ok?
  {
    assert Score(Ratings(0, 3, 3, 3, 3), Friendliness) == 0;
    assert Score(Ratings(6, 3, 3, 3, 3), Friendliness) == 6;
  }

  /** Both parties of a completed proposal review each other once; a second review by the
      same reviewer is refused. */
  lemma BothPartiesReview(pid: nat, p: Proposal, r1: Ratings, r2: Ratings)
    requires p.requester != p.provider
    requires ValidRatings(r1) && ValidRatings(r2)
    ensures var a := CreateReview([], pid, p, p.requester, r1);
      && a.Ok?
      && a.value[0].reviewer == p.requester && a.value[0].reviewed == p.provider
      && var b := CreateReview(a.value, pid, p, p.provider, r2);
      && b.Ok? && |b.value| == 2
      && b.value[1].reviewer == p.provider && b.value[1].reviewed == p.requester
      && CreateReview(b.value, pid, p, p.requester, r2) == Err(AlreadyReviewed)
  {
    var a := CreateReview([], pid, p, p.requester, r1).value;
    assert a[0].proposalId == pid && a[0].reviewer == p.requester;
    var b := CreateReview(a, pid, p, p.provider, r2).value;
    assert b[0] == a[0];
    assert Reviewed(b, pid, p.requester);
  }

  /** Each criterion sum of valid reviews lies between one and five points per review. */
  lemma {:induction false} SumBounds(rs: seq<Review>, c: Criterion)
    requires AllValid(rs)
    ensures |rs| * MinRating <= Sum(rs, c) <= |rs| * MaxRating
    decreases |rs|
  {
    if |rs| > 0 {
      var init := rs[..|rs| - 1];
      assert AllValid(init) by {
        forall i | 0 <= i < |init| ensures ValidRatings(init[i].ratings) {
          assert init[i] == rs[i];
        }
      }
      SumBounds(init, c);
      assert ValidRatings(rs[|rs| - 1].ratings);
    }
  }

  /** A mean of values in [lo, hi] lies in [lo, hi]. */
  lemma MeanBounds(s: int, n: nat, lo: int, hi: int)
    requires n > 0 && n * lo <= s <= n * hi
    ensures lo as real <= (s as real) / (n as real) <= hi as real
  {
    var q := (s as real) / (n as real);
    assert q * (n as real) == s as real;
    assert (lo as real) * (n as real) <= s as real;
    assert (hi as real) * (n as real) >= s as real;
  }

  /** With no reviews every figure is 0; otherwise every figure is on the 1..5 scale and the
      count is the number of reviews received. */
  lemma AveragesOnScale(all: seq<Review>, u: AccountId)
    requires AllValid(all)
    ensures var a := ReviewAverages(all, u);
      && a.totalReviews == |Received(all, u)|
      && (a.totalReviews == 0 ==>
            a.friendliness == 0.0 && a.timeManagement == 0.0 && a.reliability == 0.0
            && a.communication == 0.0 && a.workQuality == 0.0 && a.overall == 0.0)
      && (a.totalReviews > 0 ==>
            InScale(a.friendliness) && InScale(a.timeManagement) && InScale(a.reliability)
            && InScale(a.communication) && InScale(a.workQuality) && InScale(a.overall))
  {
    var rs := Received(all, u);
    if |rs| > 0 {
      assert AllValid(rs) by {
        forall i | 0 <= i < |rs| ensures ValidRatings(rs[i].ratings) {
          var k :| 0 <= k < |all| && all[k] == rs[i];
        }
      }
      forall c ensures InScale(Average(rs, c)) {
        SumBounds(rs, c);
        MeanBounds(Sum(rs, c), |rs|, MinRating, MaxRating);
      }
      assert InScale(Average(rs, Friendliness)) && InScale(Average(rs, TimeManagement))
        && InScale(Average(rs, Reliability)) && InScale(Average(rs, Communication))
        && InScale(Average(rs, WorkQuality));
    }
  }

  /** Two reviews of 5,4,5,4,5 and 4,5,4,5,4 average 4.5 on every criterion and overall. */
  lemma AveragesExample(u: AccountId, a: AccountId, b: AccountId)
    requires a != u && b != u
    ensures var rs := [Review(1, a, u, Ratings(5, 4, 5, 4, 5)), Review(2, b, u, Ratings(4, 5, 4, 5, 4))];
      ReviewAverages(rs, u) == Averages(4.5, 4.5, 4.5, 4.5, 4.5, 4.5, 2)
  {
    var rs := [Review(1, a, u, Ratings(5, 4, 5, 4, 5)), Review(2, b, u, Ratings(4, 5, 4, 5, 4))];
    assert Received(rs, u) == rs;
    forall c ensures Sum(rs, c) == 9 {
      var first := rs[..1];
      assert first[..0] == [] && first[0] == rs[0];
      assert Sum(first, c) == Score(rs[0].ratings, c);
      assert Sum(rs, c) == Sum(first, c) + Score(rs[1].ratings, c);
      assert Score(rs[0].ratings, c) + Score(rs[1].ratings, c) == 9;
    }
  }

  /** The page's form opens exactly when the backend would accept the reviewer, and it
      reviews the same user the backend records; a rating the buttons can produce passes the
      submit guard exactly when the backend accepts it. */
  lemma PageAgreesWithBackend(w: World, id: nat, date: Approval.DateField, time: string,
                              u: AccountId, rs: seq<Review>, ratings: Ratings)
    requires WellFormed(w.proposal)
    requires FromButtons(ratings)
    requires OpenReviewPage(Approval.ViewOf(w.proposal, id, date, time), u, ReviewsBy(rs, id, u)).ShowForm?
    ensures AllRated(ratings) <==> CreateReview(rs, id, w.proposal, u, ratings).Ok?
    ensures CreateReview(rs, id, w.proposal, u, ratings).Ok? ==>
      CreateReview(rs, id, w.proposal, u, ratings).value[|rs|].reviewed ==
        OpenReviewPage(Approval.ViewOf(w.proposal, id, date, time), u, ReviewsBy(rs, id, u)).reviewee
  {
    assert !Reviewed(rs, id, u);
    assert AllRated(ratings) <==> ValidRatings(ratings) by {
      if AllRated(ratings) {
        forall c ensures MinRating <= Score(ratings, c) <= MaxRating {
          assert 0 <= Score(ratings, c) <= MaxRating;
        }
      }
      if ValidRatings(ratings) {
        assert Score(ratings, Friendliness) >= 1 && Score(ratings, TimeManagement) >= 1
          && Score(ratings, Reliability) >= 1 && Score(ratings, Communication) >= 1
          && Score(ratings, WorkQuality) >= 1;
      }
    }
  }

  /** A user who is not one of the two parties never sees the form, whatever the state. */
  lemma OutsidersNeverReview(v: Approval.View, u: AccountId, mine: seq<Review>)
    requires u != v.requesterId && u != v.providerId
    ensures OpenReviewPage(v, u, mine) == Redirect(NotParticipant)
    ensures !Approval.CanReview(v, u)
  {
  }
}

=== FILE: scenarios.dfy ===
/** The backend's proposal test cases, replayed on the lifecycle model. The requester is
    account 1, the provider (the post owner) account 2; both start with 5.00 hours and the
    proposal is for 2.00 hours. */
module Scenarios {
  import opened Wrappers
  import opened Ledger
  import opened Exchange

  const Requester: AccountId := 1
  const Provider: AccountId := 2
  const Rate: nat := 200

  function Start(pol: Polarity, requesterBalance: Hours): World {
    World(Create(pol, Requester, Provider, Rate), map[Requester := requesterBalance, Provider := 500])
  }

  /** A created proposal is waiting, with the caller as requester and the post owner as
      provider. */
  lemma CreatedProposal()
    ensures var p := Start(Offer, 500).proposal;
      p.status == Waiting && p.requester == Requester && p.provider == Provider
  {
  }

  /** Offer post: accepting debits the requester 5.00 -> 3.00 and opens a waiting job. */
  lemma OfferAcceptDebitsRequester()
    ensures var r := Accept(Start(Offer, 500));
      && r.Ok?
      && r.value.ledger[Requester] == 300
      && r.value.ledger[Provider] == 500
      && r.value.proposal.job.Some? && r.value.proposal.job.value.status == JobWaiting
  {
  }

  /** Need post: accepting debits the provider instead, 5.00 -> 3.00. */
  lemma NeedAcceptDebitsProvider()
    ensures var r := Accept(Start(Need, 500));
      r.Ok? && r.value.ledger[Provider] == 300 && r.value.ledger[Requester] == 500
  {
  }

  /** A requester holding 1.00 cannot accept a 2.00 proposal. */
  lemma InsufficientBalanceRejected()
    ensures Accept(Start(Offer, 100)) == Err(ExchangeError.InsufficientBalance)
  {
  }

  /** Accept, then cancel: the requester is back at 5.00. */
  lemma CancelRefunds()
    ensures var r := Accept(Start(Offer, 500));
      r.Ok? && Cancel(r.value).Ok? && Cancel(r.value).value.ledger[Requester] == 500
  {
  }

  /** Accept, then both approval flags saved: the provider ends at 7.00. */
  lemma CompletionPaysProvider()
    ensures var r := Accept(Start(Offer, 500));
      && r.Ok?
      && SetApprovals(r.value, true, true).Ok?
      && SetApprovals(r.value, true, true).value.ledger[Provider] == 700
      && SetApprovals(r.value, true, true).value.ledger[Requester] == 300
      && SetApprovals(r.value, true, true).value.proposal.status == Completed
  {
  }

  /** Decline path on an offer: `not_showed_up` sends the staked 2.00 to the provider, and the
      requester stays at 3.00. */
  lemma NotShowedUpPaysProvider()
    ensures var r := Accept(Start(Offer, 500));
      && r.Ok?
      && DeclineJob(r.value, Requester, NotShowedUp).Ok?
      && DeclineJob(r.value, Requester, NotShowedUp).value.ledger[Provider] == 700
      && DeclineJob(r.value, Requester, NotShowedUp).value.ledger[Requester] == 300
  {
  }
}

=== FILE: seqs.dfy ===
/** JavaScript's array `filter` and `find`, and facts about them used across the model. */
module Seqs {
  import opened Wrappers

  /** `s.filter(f)`: the elements satisfying `f`, in their original order. */
  function Filter<T>(s: seq<T>, f: T -> bool): (r: seq<T>)
    ensures |r| <= |s|
    ensures forall i :: 0 <= i < |r| ==> r[i] in s && f(r[i])
    ensures forall i :: 0 <= i < |s| && f(s[i]) ==> s[i] in r
    ensures (forall i :: 0 <= i < |s| ==> f(s[i])) ==> r == s
    ensures (forall i :: 0 <= i < |s| ==> !f(s[i])) ==> r == []
    decreases |s|
  {
    if |s| == 0 then []
    else if f(s[0]) then [s[0]] + Filter(s[1..], f)
    else Filter(s[1..], f)
  }

  /** `s.find(f)`: the first element satisfying `f`, if any. */
  function Find<T>(s: seq<T>, f: T -> bool): (r: Option<T>)
    ensures r.Some? ==> r.value in s && f(r.value)
    ensures r.None? <==> forall i :: 0 <= i < |s| ==> !f(s[i])
    decreases |s|
  {
    if |s| == 0 then None
    else if f(s[0]) then Some(s[0])
    else Find(s[1..], f)
  }

  /** `s.some(f)`. */
  predicate Any<T>(s: seq<T>, f: T -> bool) {
    exists i :: 0 <= i < |s| && f(s[i])
  }

  /** No element occurs twice. */
  predicate NoDuplicates<T(==)>(s: seq<T>) {
    forall i, j :: 0 <= i < j < |s| ==> s[i] != s[j]
  }

  /** `[...new Set(s)]`: each element once, at the place it first occurs. */
  function Distinct<T(==,!new)>(s: seq<T>): (r: seq<T>)
    ensures NoDuplicates(r)
    ensures forall x :: x in r <==> x in s
    ensures |r| <= |s|
    decreases |s|
  {
    if |s| == 0 then []
    else
      var init := Distinct(s[..|s| - 1]);
      assert forall x :: x in s <==> x in s[..|s| - 1] || x == s[|s| - 1] by {
        assert s == s[..|s| - 1] + [s[|s| - 1]];
      }
      if s[|s| - 1] in init then init else init + [s[|s| - 1]]
  }

  /** A JavaScript `Set` toggle: remove `x` when present, add it otherwise. */
  function Toggle<T(!new)>(s: set<T>, x: T): (r: set<T>)
    ensures x in r <==> x !in s
    ensures forall y :: y != x ==> (y in r <==> y in s)
  {
    if x in s then s - {x} else s + {x}
  }

  // ---------------------------------------------------------------- lemmas

  /** Toggling twice restores the set. */
  lemma ToggleTwice<T(!new)>(s: set<T>, x: T)
    ensures Toggle(Toggle(s, x), x) == s
  {
  }

  /** A sequence that already has no duplicates is its own distinct list. */
  lemma {:induction false} DistinctOfDistinct<T(!new)>(s: seq<T>)
    requires NoDuplicates(s)
    ensures Distinct(s) == s
    decreases |s|
  {
    if |s| > 0 {
      var init := s[..|s| - 1];
      DistinctOfDistinct(init);
      assert s[|s| - 1] !in init by {
        forall i | 0 <= i < |init| ensures init[i] != s[|s| - 1] { assert init[i] == s[i]; }
      }
      assert s == init + [s[|s| - 1]];
    }
  }

  /** A filter and the filter of its negation split the sequence between them. */
  lemma {:induction false} FilterSplit<T>(s: seq<T>, f: T -> bool)
    ensures |Filter(s, f)| + |Filter(s, x => !f(x))| == |s|
    decreases |s|
  {
    if |s| > 0 {
      FilterSplit(s[1..], f);
    }
  }

  /** Filtering by `f` and then by `g` is filtering by their conjunction `fg`. */
  lemma {:induction false} FilterFilter<T>(s: seq<T>, f: T -> bool, g: T -> bool, fg: T -> bool)
    requires forall i :: 0 <= i < |s| ==> fg(s[i]) == (f(s[i]) && g(s[i]))
    ensures Filter(Filter(s, f), g) == Filter(s, fg)
    decreases |s|
  {
    if |s| > 0 {
      FilterFilter(s[1..], f, g, fg);
      if f(s[0]) {
        assert ([s[0]] + Filter(s[1..], f))[1..] == Filter(s[1..], f);
      }
    }
  }

  /** Filtering a sequence with one more element at the end. */
  lemma {:induction false} FilterSnoc<T>(s: seq<T>, x: T, f: T -> bool)
    ensures Filter(s + [x], f) == if f(x) then Filter(s, f) + [x] else Filter(s, f)
    decreases |s|
  {
    if |s| == 0 {
      assert ([x])[1..] == [];
    } else {
      assert (s + [x])[1..] == s[1..] + [x];
      FilterSnoc(s[1..], x, f);
    }
  }

  /** Filtering distributes over concatenation. */
  lemma {:induction false} FilterAppend<T>(a: seq<T>, b: seq<T>, f: T -> bool)
    ensures Filter(a + b, f) == Filter(a, f) + Filter(b, f)
    decreases |a|
  {
    if |a| == 0 {
      assert a + b == b;
    } else {
      assert (a + b)[0] == a[0] && (a + b)[1..] == a[1..] + b;
      FilterAppend(a[1..], b, f);
    }
  }

  /** The first match comes before every other match. */
  lemma {:induction false} FindFirst<T>(s: seq<T>, f: T -> bool, i: nat)
    requires i < |s| && f(s[i])
    ensures Find(s, f).Some?
    ensures exists j :: 0 <= j <= i && s[j] == Find(s, f).value && forall k :: 0 <= k < j ==> !f(s[k])
    decreases |s|
  {
    if !f(s[0]) {
      FindFirst(s[1..], f, i - 1);
      var j :| 0 <= j <= i - 1 && s[1..][j] == Find(s[1..], f).value
        && forall k :: 0 <= k < j ==> !f(s[1..][k]);
      assert s[j + 1] == Find(s, f).value;
      forall k | 0 <= k < j + 1 ensures !f(s[k]) {
        if k > 0 { assert s[k] == s[1..][k - 1]; }
      }
    } else {
      assert s[0] == Find(s, f).value;
    }
  }

  /** Three filters whose predicates hold of exactly one element each split the sequence. */
  lemma {:induction false} FilterPartition3<T>(s: seq<T>, a: T -> bool, b: T -> bool, c: T -> bool)
    requires forall i :: 0 <= i < |s| ==> (if a(s[i]) then 1 else 0) + (if b(s[i]) then 1 else 0) + (if c(s[i]) then 1 else 0) == 1
    ensures |Filter(s, a)| + |Filter(s, b)| + |Filter(s, c)| == |s|
    decreases |s|
  {
    if |s| > 0 {
      FilterPartition3(s[1..], a, b, c);
    }
  }

  /** What a filter keeps satisfies the filter's test. */
  lemma FilteredSatisfies<T>(s: seq<T>, f: T -> bool, x: T)
    ensures x in Filter(s, f) ==> f(x)
  {
    if x in Filter(s, f) {
      var k :| 0 <= k < |Filter(s, f)| && Filter(s, f)[k] == x;
    }
  }
}

=== FILE: signup.dfy ===
/** The sign-up form: three local checks in a fixed order, then the registration request
    built from the form's fields. */
module Signup {
  import opened Wrappers
  import Accounts
  import MyProfile

  const MinPasswordLength := 8

  datatype Form = Form(userName: string, email: string, password: string,
                       confirmPassword: string, acceptedTerms: bool)

  datatype SignupError = Mismatch | TooShort | TermsNotAccepted

  /** The body posted to the registration endpoint. */
  datatype Payload = Payload(username: string, email: string, password: string, password2: string)

  /** `handleSubmit`: the first failing check, or the request to send. */
  function Submit(f: Form): (r: Result<Payload, SignupError>)
    ensures r == Err(Mismatch) <==> f.password != f.confirmPassword
    ensures r == Err(TooShort) <==> f.password == f.confirmPassword && |f.password| < MinPasswordLength
    ensures r == Err(TermsNotAccepted) <==>
      f.password == f.confirmPassword && |f.password| >= MinPasswordLength && !f.acceptedTerms
    ensures r.Ok? <==> f.password == f.confirmPassword && |f.password| >= MinPasswordLength && f.acceptedTerms
    ensures r.Ok? ==> r.value.username == f.userName && r.value.email == f.email
                      && r.value.password == f.password && r.value.password2 == f.confirmPassword
  {
    if f.password != f.confirmPassword then Err(Mismatch)
    else if |f.password| < MinPasswordLength then Err(TooShort)
    else if !f.acceptedTerms then Err(TermsNotAccepted)
    else Ok(Payload(f.userName, f.email, f.password, f.confirmPassword))
  }

  // ---------------------------------------------------------------- lemmas

  /** The sign-up form and the profile page's password form judge a password alike; the
      terms box is the sign-up form's only extra check. */
  lemma SamePasswordRules(f: Form)
    ensures MyProfile.CheckPassword(f.password, f.confirmPassword) == Some(MyProfile.Mismatch) <==> Submit(f) == Err(Mismatch)
    ensures MyProfile.CheckPassword(f.password, f.confirmPassword) == Some(MyProfile.TooShort) <==> Submit(f) == Err(TooShort)
    ensures MyProfile.CheckPassword(f.password, f.confirmPassword).None? <==>
      Submit(f).Ok? || Submit(f) == Err(TermsNotAccepted)
  {
  }

  /** A request the form lets through never fails the server's password-match check: it
      succeeds exactly when the username is free. */
  lemma PayloadPassesServerMatch(f: Form, taken: set<string>)
    requires Submit(f).Ok?
    ensures var p := Submit(f).value;
      Accounts.Register(taken, p.username, p.password, p.password2).Ok? <==> f.userName !in taken
  {
  }

  /** Ticking the terms box is what stands between a valid password and the request. */
  lemma TermsDecide(f: Form)
    requires f.password == f.confirmPassword && |f.password| >= MinPasswordLength
    ensures Submit(f.(acceptedTerms := true)).Ok?
    ensures Submit(f.(acceptedTerms := false)) == Err(TermsNotAccepted)
  {
  }
}

=== FILE: strings.dfy ===
/** Text primitives the frontend relies on: JavaScript's `trim`, `split('\n')`,
    `join('\n')`, `startsWith`, `includes`, ASCII case mapping and number printing. */
module Strings {
  import opened Wrappers

  /** The characters JavaScript's `trim` removes: white space and line terminators. */
  predicate IsSpace(c: char) {
    || c == ' ' || c == '\t' || c == '\n' || c == '\r'
    || c == '\U{000B}' || c == '\U{000C}' || c == '\U{00A0}' || c == '\U{1680}'
    || ('\U{2000}' <= c <= '\U{200A}')
    || c == '\U{2028}' || c == '\U{2029}' || c == '\U{202F}' || c == '\U{205F}'
    || c == '\U{3000}' || c == '\U{FEFF}'
  }

  predicate AllSpace(s: string) {
    forall i :: 0 <= i < |s| ==> IsSpace(s[i])
  }

  /** True iff the text is empty after trimming: JavaScript's `!s.trim()`. */
  predicate IsBlank(s: string) {
    AllSpace(s)
  }

  /** Leading white space removed. */
  function TrimStart(s: string): (r: string)
    ensures |r| <= |s| && r == s[|s| - |r|..]
    ensures AllSpace(s[..|s| - |r|])
    ensures |r| > 0 ==> !IsSpace(r[0])
    decreases |s|
  {
    if |s| > 0 && IsSpace(s[0]) then
      var r := TrimStart(s[1..]);
      assert s[..|s| - |r|] == [s[0]] + s[1..][..|s| - 1 - |r|];
      r
    else s
  }

  /** Trailing white space removed. */
  function TrimEnd(s: string): (r: string)
    ensures |r| <= |s| && r == s[..|r|]
    ensures AllSpace(s[|r|..])
    ensures |r| > 0 ==> !IsSpace(r[|r| - 1])
    decreases |s|
  {
    if |s| > 0 && IsSpace(s[|s| - 1]) then
      var r := TrimEnd(s[..|s| - 1]);
      assert s[|r|..] == s[..|s| - 1][|r|..] + [s[|s| - 1]];
      r
    else s
  }

  /** JavaScript's `s.trim()`. */
  function Trim(s: string): string {
    TrimStart(TrimEnd(s))
  }

  /** JavaScript's `s.startsWith(p)`. */
  predicate StartsWith(s: string, p: string) {
    |p| <= |s| && s[..|p|] == p
  }

  /** JavaScript's `s.includes(sub)`: `sub` occurs somewhere in `s`. */
  predicate Contains(s: string, sub: string)
    decreases |s|
  {
    StartsWith(s, sub) || (|s| > 0 && Contains(s[1..], sub))
  }

  /** JavaScript's `s.split(sep)` for a one-character separator: at least one piece, none
      holding the separator. */
  function Split(s: string, sep: char): (r: seq<string>)
    ensures |r| >= 1
    ensures forall i :: 0 <= i < |r| ==> sep !in r[i]
    decreases |s|
  {
    if |s| == 0 then [""]
    else
      var rest := Split(s[1..], sep);
      if s[0] == sep then [""] + rest else [[s[0]] + rest[0]] + rest[1..]
  }

  /** JavaScript's `s.split('\n')`. */
  function Lines(s: string): seq<string> {
    Split(s, '\n')
  }

  /** JavaScript's `ls.join(sep)`. */
  function Join(ls: seq<string>, sep: char): string
    decreases |ls|
  {
    if |ls| == 0 then ""
    else if |ls| == 1 then ls[0]
    else ls[0] + [sep] + Join(ls[1..], sep)
  }

  /** ASCII `toLowerCase` of one character. */
  function LowerChar(c: char): char {
    if 'A' <= c <= 'Z' then (c as int + 32) as char else c
  }

  /** ASCII `toUpperCase` of one character. */
  function UpperChar(c: char): char {
    if 'a' <= c <= 'z' then (c as int - 32) as char else c
  }

  function Lower(s: string): (r: string)
    ensures |r| == |s|
    ensures forall i :: 0 <= i < |s| ==> r[i] == LowerChar(s[i])
  {
    seq(|s|, i requires 0 <= i < |s| => LowerChar(s[i]))
  }

  function Upper(s: string): (r: string)
    ensures |r| == |s|
    ensures forall i :: 0 <= i < |s| ==> r[i] == UpperChar(s[i])
  {
    seq(|s|, i requires 0 <= i < |s| => UpperChar(s[i]))
  }

  function DigitChar(d: nat): char
    requires d < 10
  {
    ('0' as int + d) as char
  }

  /** Decimal rendering of a natural number, as JavaScript's template literals print it. */
  function NatToString(n: nat): (r: string)
    ensures |r| >= 1
    ensures forall i :: 0 <= i < |r| ==> '0' <= r[i] <= '9'
  {
    if n < 10 then [DigitChar(n)] else NatToString(n / 10) + [DigitChar(n % 10)]
  }

  function IntToString(n: int): (r: string)
    ensures |r| >= 1
    ensures r[0] == '-' || '0' <= r[0] <= '9'
  {
    if n < 0 then "-" + NatToString(-n) else NatToString(n)
  }

  predicate IsDigit(c: char) {
    '0' <= c <= '9'
  }

  predicate AllDigits(s: string) {
    forall i :: 0 <= i < |s| ==> IsDigit(s[i])
  }

  /** The longest prefix made of decimal digits. */
  function DigitRun(s: string): (r: string)
    ensures |r| <= |s| && r == s[..|r|] && AllDigits(r)
    ensures |r| < |s| ==> !IsDigit(s[|r|])
  {
    if |s| > 0 && IsDigit(s[0]) then
      var rest := DigitRun(s[1..]);
      assert [s[0]] + rest == s[..|rest| + 1];
      [s[0]] + rest
    else ""
  }

  /** The value of a string of decimal digits. */
  function DigitsValue(d: string): nat
    requires AllDigits(d)
  {
    if |d| == 0 then 0 else DigitsValue(d[..|d| - 1]) * 10 + (d[|d| - 1] as int - '0' as int)
  }

  /** JavaScript's `parseInt(s, 10)`: leading white space, an optional sign, then the longest
      run of digits; `None` is `NaN`, when there is no digit to read. */
  function ParseInt(s: string): (r: Option<int>)
    ensures r.None? <==>
      var t := TrimStart(s);
      var body := if |t| > 0 && (t[0] == '-' || t[0] == '+') then t[1..] else t;
      |body| == 0 || !IsDigit(body[0])
  {
    var t := TrimStart(s);
    var negative := |t| > 0 && t[0] == '-';
    var body := if |t| > 0 && (t[0] == '-' || t[0] == '+') then t[1..] else t;
    var run := DigitRun(body);
    var value: int := DigitsValue(run);
    if run == "" then None else Some(if negative then -value else value)
  }

  // ---------------------------------------------------------------- lemmas

  /** Splitting on newlines and joining with newlines gives the text back. */
  lemma {:induction false} JoinLines(s: string)
    ensures Join(Lines(s), '\n') == s
    decreases |s|
  {
    if |s| > 0 {
      var rest := Lines(s[1..]);
      JoinLines(s[1..]);
      if s[0] == '\n' {
        assert Lines(s) == [""] + rest;
        assert Join(Lines(s), '\n') == "" + ['\n'] + Join(rest, '\n');
        assert s == [s[0]] + s[1..];
      } else {
        assert Lines(s) == [[s[0]] + rest[0]] + rest[1..];
        if |rest| == 1 {
          assert Join(Lines(s), '\n') == [s[0]] + rest[0];
        } else {
          assert Join(rest, '\n') == rest[0] + ['\n'] + Join(rest[1..], '\n');
          assert ([[s[0]] + rest[0]] + rest[1..])[1..] == rest[1..];
        }
        assert s == [s[0]] + s[1..];
      }
    }
  }

  /** Text without the separator is a single piece. */
  lemma {:induction false} SplitSingle(a: string, sep: char)
    requires sep !in a
    ensures Split(a, sep) == [a]
    decreases |a|
  {
    if |a| > 0 {
      assert sep !in a[1..] by {
        forall i | 0 <= i < |a[1..]| ensures a[1..][i] != sep {
          assert a[1..][i] == a[i + 1];
        }
      }
      SplitSingle(a[1..], sep);
      assert a == [a[0]] + a[1..];
    }
  }

  /** A separator-free first piece followed by the separator splits off as the first piece. */
  lemma {:induction false} SplitCons(a: string, sep: char, b: string)
    requires sep !in a
    ensures Split(a + [sep] + b, sep) == [a] + Split(b, sep)
    decreases |a|
  {
    var s := a + [sep] + b;
    if |a| == 0 {
      assert s == [sep] + b;
      assert s[1..] == b;
    } else {
      assert s[1..] == a[1..] + [sep] + b;
      assert sep !in a[1..] by {
        forall i | 0 <= i < |a[1..]| ensures a[1..][i] != sep {
          assert a[1..][i] == a[i + 1];
        }
      }
      SplitCons(a[1..], sep, b);
      assert a == [a[0]] + a[1..];
    }
  }

  lemma LinesSingle(a: string)
    requires '\n' !in a
    ensures Lines(a) == [a]
  {
    SplitSingle(a, '\n');
  }

  lemma LinesCons(a: string, b: string)
    requires '\n' !in a
    ensures Lines(a + "\n" + b) == [a] + Lines(b)
  {
    SplitCons(a, '\n', b);
  }

  /** The lines of a prefix are, position by position, prefixes of the lines of the whole. */
  lemma {:induction false} LinesOfPrefix(s: string, k: nat)
    requires k <= |s|
    ensures |Lines(s[..k])| <= |Lines(s)|
    ensures forall i :: 0 <= i < |Lines(s[..k])| ==> StartsWith(Lines(s)[i], Lines(s[..k])[i])
    decreases |s|
  {
    var p := s[..k];
    if k == 0 {
      assert p == "";
    } else {
      assert p[1..] == s[1..][..k - 1];
      LinesOfPrefix(s[1..], k - 1);
    }
  }

  /** Trimming the end of a concatenation: the tail's trimmed form decides. */
  lemma {:induction false} TrimEndAppend(a: string, b: string)
    ensures TrimEnd(a + b) == if TrimEnd(b) == "" then TrimEnd(a) else a + TrimEnd(b)
    decreases |b|
  {
    if |b| == 0 {
      assert a + b == a;
    } else if IsSpace(b[|b| - 1]) {
      assert (a + b)[..|a + b| - 1] == a + b[..|b| - 1];
      TrimEndAppend(a, b[..|b| - 1]);
    }
  }

  /** Leading white space does not change what `TrimStart` keeps. */
  lemma {:induction false} TrimStartSkipsSpace(a: string, x: string)
    requires AllSpace(a)
    ensures TrimStart(a + x) == TrimStart(x)
    decreases |a|
  {
    if |a| > 0 {
      assert (a + x)[1..] == a[1..] + x;
      TrimStartSkipsSpace(a[1..], x);
    } else {
      assert a + x == x;
    }
  }

  lemma TrimEndIdempotent(s: string)
    ensures TrimEnd(TrimEnd(s)) == TrimEnd(s)
  {
  }

  /** Trimming after trimming the end is just trimming. */
  lemma TrimOfTrimEnd(s: string)
    ensures Trim(TrimEnd(s)) == Trim(s)
  {
    TrimEndIdempotent(s);
  }

  /** A leading white-space character never survives `trim`. */
  lemma TrimSkipsLeadingSpace(c: char, x: string)
    requires IsSpace(c)
    ensures Trim([c] + x) == Trim(x)
  {
    TrimEndAppend([c], x);
    if TrimEnd(x) != "" {
      TrimStartSkipsSpace([c], TrimEnd(x));
    }
  }

  /** Text that begins with a non-space character is unchanged by `TrimStart`. */
  lemma TrimStartNonSpace(s: string)
    requires |s| > 0 && !IsSpace(s[0])
    ensures TrimStart(s) == s
  {
  }

  /** Text that ends with a non-space character is unchanged by `TrimEnd`. */
  lemma TrimEndNonSpace(s: string)
    requires |s| > 0 && !IsSpace(s[|s| - 1])
    ensures TrimEnd(s) == s
  {
  }

  /** A prefix of a prefix. */
  lemma StartsWithTrans(s: string, p: string, q: string)
    requires StartsWith(s, p) && StartsWith(p, q)
    ensures StartsWith(s, q)
  {
    assert s[..|q|] == p[..|q|];
  }

  /** Reading back a printed natural number gives the number. */
  lemma {:induction false} DigitsValueOfNat(n: nat)
    ensures AllDigits(NatToString(n)) && DigitsValue(NatToString(n)) == n
  {
    if n >= 10 {
      DigitsValueOfNat(n / 10);
      var d := NatToString(n);
      assert d[..|d| - 1] == NatToString(n / 10);
    }
  }

  /** `parseInt` stops at the first character that is not a digit. */
  lemma {:induction false} DigitRunPrefix(a: string, b: string)
    requires AllDigits(a)
    requires |b| == 0 || !IsDigit(b[0])
    ensures DigitRun(a + b) == a
    decreases |a|
  {
    if |a| > 0 {
      assert (a + b)[1..] == a[1..] + b;
      DigitRunPrefix(a[1..], b);
      assert a == [a[0]] + a[1..];
    } else {
      assert a + b == b;
    }
  }

  /** A numeral alone parses back to its number. */
  lemma ParseIntOfNumeral(n: nat)
    ensures ParseInt(NatToString(n)) == Some(n)
  {
    ParseIntOfNat(n, "");
    assert NatToString(n) + "" == NatToString(n);
  }

  /** `parseInt` reads a printed natural number back, whatever follows it that is not a
      digit. */
  lemma ParseIntOfNat(n: nat, rest: string)
    requires |rest| == 0 || !IsDigit(rest[0])
    ensures ParseInt(NatToString(n) + rest) == Some(n)
  {
    var d := NatToString(n);
    DigitsValueOfNat(n);
    assert !IsSpace(d[0]) && d[0] != '-' && d[0] != '+';
    TrimStartNonSpace(d + rest);
    DigitRunPrefix(d, rest);
  }

  /** Distinct numbers print differently. */
  lemma NatToStringInjective(a: nat, b: nat)
    requires NatToString(a) == NatToString(b)
    ensures a == b
  {
    ParseIntOfNat(a, "");
    ParseIntOfNat(b, "");
    assert NatToString(a) + "" == NatToString(a);
    assert NatToString(b) + "" == NatToString(b);
  }
}

=== FILE: tags.dfy ===
/** The tag picker: search results become select options, selected options become tags for
    the backend, and the tags held by a form become select options again. JavaScript's
    loose values are narrowed to what the picker meets: an option value is a number, a
    string or absent, and an absent name or label is the empty string. */
module Tags {
  import opened Wrappers
  import opened Strings
  import Seqs

  const CustomPrefix := "custom_"
  /** Queries shorter than this, after trimming, do not search. */
  const MinQuery := 2

  datatype OptionValue = NumValue(n: int) | StrValue(s: string) | NoValue

  /** A select option; `isNew` marks one the user just created by typing. */
  datatype Opt = Opt(value: OptionValue, display: string, name: string, isCustom: bool, isNew: bool)

  /** A tag as the backend and the forms hold it; `id` absent for a custom tag. */
  datatype Tag = Tag(id: Option<int>, name: string, display: string, isCustom: bool)

  /** A search result; an id of 0 counts as none. */
  datatype Found = Found(id: Option<nat>, name: string, display: string, isCustom: bool)

  /** JavaScript's `a || b` on strings. */
  function OrElse(a: string, b: string): (r: string)
    ensures a != "" ==> r == a
    ensures a == "" ==> r == b
  {
    if a != "" then a else b
  }

  /** The query sent for the typed text, none when it is shorter than two characters after
      trimming. */
  function SearchQuery(input: string): (r: Option<string>)
    ensures r.None? <==> |Trim(input)| < MinQuery
    ensures r.Some? ==> r.value == Trim(input)
  {
    var q := Trim(input);
    if |q| < MinQuery then None else Some(q)
  }

  predicate HasId(f: Found) {
    f.id.Some? && f.id.value != 0
  }

  /** A search result as an option: keyed by its id, or by `custom_` and its name. */
  function FormatFound(f: Found): (r: Opt)
    ensures HasId(f) ==> r.value == NumValue(f.id.value)
    ensures !HasId(f) ==> r.value == StrValue(CustomPrefix + f.name)
    ensures r.isCustom <==> f.isCustom || !HasId(f)
    ensures r.name == f.name && !r.isNew
  {
    Opt(if HasId(f) then NumValue(f.id.value) else StrValue(CustomPrefix + f.name),
        OrElse(f.display, f.name), f.name, f.isCustom || !HasId(f), false)
  }

  /** `String(value)`. */
  function ValueText(v: OptionValue): string {
    match v
    case NumValue(n) => IntToString(n)
    case StrValue(s) => s
    case NoValue => ""
  }

  /** `typeof v === 'number' ? v : parseInt(v, 10)`, with `None` for `NaN`. */
  function NumberOf(v: OptionValue): Option<int> {
    match v
    case NumValue(n) => Some(n)
    case StrValue(s) => ParseInt(s)
    case NoValue => None
  }

  /** `handleChange` for one selected option. */
  function ToTag(o: Opt): (t: Tag)
    ensures o.isNew ==> t == Tag(None, ValueText(o.value), ValueText(o.value), true)
    ensures !o.isNew && o.value.NumValue? ==> t.id == Some(o.value.n)
    ensures !o.isNew && o.value.StrValue? && ParseInt(o.value.s).Some? && !StartsWith(o.value.s, CustomPrefix) ==>
      t.id == ParseInt(o.value.s) && t.isCustom == o.isCustom
    ensures !o.isNew && o.value.StrValue? && StartsWith(o.value.s, CustomPrefix) ==> t.id.None? && t.isCustom
  {
    if o.isNew then Tag(None, ValueText(o.value), ValueText(o.value), true)
    else if !o.value.NoValue? && NumberOf(o.value).Some? && !StartsWith(ValueText(o.value), CustomPrefix) then
      Tag(NumberOf(o.value), OrElse(o.name, o.display), OrElse(o.display, o.name), o.isCustom)
    else if ValueText(o.value) != "" && StartsWith(ValueText(o.value), CustomPrefix) then
      Tag(None, OrElse(o.name, o.display), OrElse(o.display, o.name), true)
    else
      Tag(None, OrElse(OrElse(o.name, o.display), ValueText(o.value)),
          OrElse(OrElse(o.display, o.name), ValueText(o.value)), false)
  }

  /** `handleChange` for the multi-select: every selected option becomes a tag, in order. */
  function HandleChange(os: seq<Opt>): (ts: seq<Tag>)
    ensures |ts| == |os|
    ensures forall i :: 0 <= i < |os| ==> ts[i] == ToTag(os[i])
  {
    seq(|os|, i requires 0 <= i < |os| => ToTag(os[i]))
  }

  /** What a form may hold: an option already in select form, a tag, or nothing. */
  datatype Item = AsOption(o: Opt) | AsTag(t: Tag) | NoItem

  /** `getSelectValue` for one held item; `None` is dropped. */
  function ToOption(item: Item): (r: Option<Opt>)
    ensures item.NoItem? ==> r.None?
    ensures item.AsOption? ==> r == Some(item.o)
    ensures item.AsTag? && item.t.id.Some? ==> r.Some? && r.value.value == NumValue(item.t.id.value)
    ensures item.AsTag? && item.t.id.None? ==> (r.None? <==> item.t.name == "")
  {
    match item
    case NoItem => None
    case AsOption(o) => Some(o)
    case AsTag(t) =>
      if t.id.Some? then
        Some(Opt(NumValue(t.id.value), OrElse(OrElse(t.display, t.name), "Tag " + IntToString(t.id.value)),
                 OrElse(t.name, t.display), t.isCustom, false))
      else if t.name != "" then
        Some(Opt(StrValue(CustomPrefix + t.name), OrElse(t.display, t.name), t.name, true, false))
      else None
  }

  /** An item that `getSelectValue` turns into an option. */
  predicate Converts(item: Item) {
    ToOption(item).Some?
  }

  /** `getSelectValue` for the multi-select: each item converted, the empty ones dropped.
      The result is, position by position, the converted form of the items that convert. */
  function SelectValue(items: seq<Item>): (r: seq<Opt>)
    ensures |r| == |Seqs.Filter(items, Converts)|
    ensures forall i :: 0 <= i < |r| ==> Some(r[i]) == ToOption(Seqs.Filter(items, Converts)[i])
    ensures forall i :: 0 <= i < |items| && ToOption(items[i]).Some? ==> ToOption(items[i]).value in r
    decreases |items|
  {
    if |items| == 0 then []
    else
      var rest := SelectValue(items[1..]);
      var tail := Seqs.Filter(items[1..], Converts);
      assert forall i :: 1 <= i < |items| ==> items[i] == items[1..][i - 1];
      match ToOption(items[0])
      case None =>
        assert Seqs.Filter(items, Converts) == tail;
        rest
      case Some(o) =>
        assert Seqs.Filter(items, Converts) == [items[0]] + tail;
        [o] + rest
  }

  // ---------------------------------------------------------------- lemmas

  /** No number prints with the `custom_` prefix. */
  lemma NumberNotCustom(n: int)
    ensures !StartsWith(IntToString(n), CustomPrefix)
  {
    var s := IntToString(n);
    if |s| >= |CustomPrefix| {
      assert s[0] != CustomPrefix[0];
    }
  }

  /** A `custom_` string is no number. */
  lemma CustomNotNumber(name: string)
    ensures ParseInt(CustomPrefix + name) == None
  {
    TrimStartNonSpace(CustomPrefix + name);
  }

  /** A tag with an id comes back from the picker with the same id and, when it had a name,
      the same name. */
  lemma IdTagRoundTrip(t: Tag)
    requires t.id.Some?
    ensures ToOption(AsTag(t)).Some?
    ensures var back := ToTag(ToOption(AsTag(t)).value);
      back.id == t.id && back.isCustom == t.isCustom && (t.name != "" ==> back.name == t.name)
  {
    NumberNotCustom(t.id.value);
  }

  /** A named tag without an id comes back as a custom tag with the same name. */
  lemma CustomTagRoundTrip(t: Tag)
    requires t.id.None? && t.name != ""
    ensures ToOption(AsTag(t)).Some?
    ensures var back := ToTag(ToOption(AsTag(t)).value);
      back.id.None? && back.name == t.name && back.isCustom
  {
    CustomNotNumber(t.name);
  }

  /** An option whose value is a numeral string, as a select may hand back, becomes a tag
      with that number as its id. */
  lemma NumeralValueTag(n: nat, display: string, name: string, isCustom: bool)
    ensures ToTag(Opt(StrValue(NatToString(n)), display, name, isCustom, false)).id == Some(n as int)
  {
    ParseIntOfNumeral(n);
    var d := NatToString(n);
    assert d[0] != CustomPrefix[0];
  }

  /** A created option becomes a custom tag named by what was typed. */
  lemma CreatedOption(typed: string)
    ensures ToTag(Opt(StrValue(typed), typed, typed, false, true)) == Tag(None, typed, typed, true)
  {
  }

  /** A search result with an id selects as a tag with that id; one without an id selects
      as a custom tag with its name. */
  lemma FoundSelectsAsTag(f: Found)
    ensures HasId(f) ==> ToTag(FormatFound(f)).id == Some(f.id.value as int)
    ensures !HasId(f) ==> ToTag(FormatFound(f)).id.None? && ToTag(FormatFound(f)).isCustom
    ensures f.name != "" ==> ToTag(FormatFound(f)).name == f.name
  {
    if HasId(f) {
      NumberNotCustom(f.id.value);
    } else {
      CustomNotNumber(f.name);
      assert StartsWith(CustomPrefix + f.name, CustomPrefix);
    }
  }

  /** The held form of a list of tags. */
  function AsTags(ts: seq<Tag>): (r: seq<Item>)
    ensures |r| == |ts| && forall i :: 0 <= i < |ts| ==> r[i] == AsTag(ts[i])
  {
    seq(|ts|, i requires 0 <= i < |ts| => AsTag(ts[i]))
  }

  /** Held tags that all convert are selected one for one, in order. */
  lemma {:induction false} SelectAll(ts: seq<Tag>)
    requires forall i :: 0 <= i < |ts| ==> ToOption(AsTag(ts[i])).Some?
    ensures |SelectValue(AsTags(ts))| == |ts|
    ensures forall i :: 0 <= i < |ts| ==> SelectValue(AsTags(ts))[i] == ToOption(AsTag(ts[i])).value
    decreases |ts|
  {
    if |ts| > 0 {
      var items := AsTags(ts);
      assert items[1..] == AsTags(ts[1..]);
      SelectAll(ts[1..]);
      var rest := SelectValue(AsTags(ts[1..]));
      assert SelectValue(items) == [ToOption(AsTag(ts[0])).value] + rest;
      forall i | 1 <= i < |ts|
        ensures SelectValue(items)[i] == ToOption(AsTag(ts[i])).value
      {
        assert ts[1..][i - 1] == ts[i];
      }
    }
  }

  /** Converting a whole list of held tags and selecting them all gives back, position by
      position, tags with the same ids and names. */
  lemma ListRoundTrip(ts: seq<Tag>)
    requires forall i :: 0 <= i < |ts| ==> ts[i].name != ""
    ensures var back := HandleChange(SelectValue(AsTags(ts)));
      && |back| == |ts|
      && forall i :: 0 <= i < |ts| ==> back[i].id == ts[i].id && back[i].name == ts[i].name
  {
    forall i | 0 <= i < |ts| ensures ToOption(AsTag(ts[i])).Some? {
      if ts[i].id.Some? { IdTagRoundTrip(ts[i]); } else { CustomTagRoundTrip(ts[i]); }
    }
    SelectAll(ts);
    var back := HandleChange(SelectValue(AsTags(ts)));
    forall i | 0 <= i < |ts| ensures back[i].id == ts[i].id && back[i].name == ts[i].name {
      if ts[i].id.Some? { IdTagRoundTrip(ts[i]); } else { CustomTagRoundTrip(ts[i]); }
    }
  }
}

=== FILE: wrappers.dfy ===
/** Failure-compatible wrappers shared by every module of the model. */
module Wrappers {

  /** An optional value: JavaScript's `null`/`undefined` and Python's `None`. */
  datatype Option<+T> = None | Some(value: T) {

    /** The value, or `default` when absent. */
    function GetOr(default: T): T {
      match this
      case Some(v) => v
      case None => default
    }
  }

  /** The outcome of an operation that may fail with an error of type `E`. */
  datatype Result<+T, +E> = Ok(value: T) | Err(error: E)
}
